=== FILE: README.md ===
# Placement center persistence core, modelled in Dafny

This project models the replicated persistence layer of the RobustMQ placement
center. It covers:

- the raft log and snapshot store (`RaftMachineStorage`) on its single RocksDB
  column family, with the key-naming scheme behind it;
- the state-machine router that applies committed KV commands to the key-value
  store (`DataRoute`, `DataRouteKv`, `KvStorage`);
- the raft group membership cache (`RaftGroupMetadata`);
- the decisions of the KV gRPC service: reject, forward to the leader, propose,
  or read locally;
- the small helpers around them: the big-endian id codec of the openraft store,
  initial-node selection and node display, the `ClusterType` name codec, the
  client's retry address selection and backoff, and the HTTP path builders.

Every operation is a pure function from state to state, and each `panic!` or
`unwrap` of the source is a `requires`. Errors the source returns become
`Result` values. Serializers are pairs of total functions, `Codec<T, Rep>`,
passed as parameters. A lemma that needs a round trip asks for it through the
ghost predicate `RoundTrips(c)`.

The RocksDB column family is a strictly key-ordered sequence of rows
(`RocksDb.Column`). A stored value is either UTF-8 text or raw bytes that are
not UTF-8; the latter can only come from another writer. The KV engine behind
`KvStorage` is a map from key to `StorageDataWrap` record, or to the error a
read of that key reports.

Modules follow the source files:

| module | file | source |
|---|---|---|
| `RocksDb`, `Lex` | rocksdb.dfy, lex.dfy | src/placement-center/src/storage/rocksdb.rs |
| `Keys` | keys.dfy | src/placement-center/src/storage/keys.rs |
| `RaftStorage`, `RaftSnapshot` | raft_storage.dfy, raft_snapshot.dfy | src/placement-center/src/storage/raft.rs |
| `KvStorage` | kv_storage.dfy | src/placement-center/src/storage/kv.rs, storage/mod.rs |
| `DataRouteKv`, `DataRoute`, `Apply` | route_kv.dfy, route.dfy, apply.dfy | src/placement-center/src/raft/kv.rs, route.rs, apply.rs |
| `Metadata` | metadata.dfy | src/placement-center/src/raft/metadata.rs |
| `GrpcKvServices`, `KvProto`, `Errors` | services_kv.dfy, kv_proto.dfy, errors.dfy | src/placement-center/src/server/grpc/services_kv.rs |
| `IdCodec` | id_codec.dfy | src/placement-center/src/openraft/sotre/mod.rs |
| `RaftNode` | raft_node.dfy | src/placement-center/src/openraft/raft_node.rs |
| `Common` | cluster_type.dfy | src/protocol/src/common.rs |
| `PlacementClient` | retry.dfy | src/clients/src/placement/mod.rs, src/clients/src/lib.rs |
| `HttpPaths` | http_paths.dfy | src/placement-center/src/server/http/mod.rs |
| `Wrappers`, `Ints`, `Serial`, `Strings`, `Maps` | wrappers.dfy, ints.dfy, serial.dfy, strings.dfy, maps.dfy | shared helpers: `Option`/`Result`, integer widths, codecs, Rust string functions, map building |

Points where the code behaves differently from what a reader might expect,
and which the model follows:

- `commit_index` (raft.rs:83-100) only logs a missing entry (line 86) and
  then unwraps it (line 97), so the entry's presence is a precondition of
  `RaftStorage.CommitIndex`.
- `apply_snapshot` (raft.rs:313-331) writes the dump first (line 322) and
  only then reads the hard state (line 324), so the hard state it adjusts is
  the one the dump carried, not the node's own. The term becomes the larger of
  the dump's hard-state term and the snapshot term (line 325), the vote is the
  dump's, and commit is exactly the snapshot index (line 326), even when that
  lowers it (`RaftSnapshot.ApplySnapshotStates`; see Findings).
- `hard_state` and `conf_state` (raft.rs:54-81) fall back to a default only
  when the key is absent, and unwrap both read and decoding failures, so
  readability is a precondition.
- The KV service rejects empty fields with `ParameterCannotBeNull`
  (services_kv.rs:52). That variant is not among those in
  src/common/base/src/errors.rs:5-23, where the enum is spelled `RobustMqError`
  while the services import `RobustMQError`. The model's `Errors.MqError`
  carries the variant as the service uses it.
- A committed `KvSet` ends in `KvStorage::set`, which deletes the key
  (route.rs:23, raft/kv.rs:24, storage/kv.rs:18). `DataRoute.Route` models
  this path as written; `DataRoute.RouteCorrected` is the router with the
  intended `set` (see Findings).

## Model

| member | source | states |
|---|---|---|
| RocksDb.ColumnFamilyList | src/placement-center/src/storage/rocksdb.rs:11-17 | the store has exactly one column family, "cluster" |
| RocksDb.Get | src/placement-center/src/storage/rocksdb.rs:72-86 | a key is found exactly when the column holds a row for it, and the row found carries the value returned |
| RocksDb.Put | src/placement-center/src/storage/rocksdb.rs:51-62 | after a put the key holds the new value, every other key reads as before, and the key set grows by exactly that key |
| RocksDb.Remove | src/placement-center/src/storage/rocksdb.rs:189-191 | after a delete the key is gone, every other key reads as before, and the key set shrinks by exactly that key |
| RocksDb.Write | src/placement-center/src/storage/rocksdb.rs:51-62 | `write` stores the value's JSON text under the key and touches no other key |
| RocksDb.WriteStr | src/placement-center/src/storage/rocksdb.rs:65-69 | `write_str` stores the string itself under the key, adds only that key, and touches no other key |
| RocksDb.Delete | src/placement-center/src/storage/rocksdb.rs:189-191 | `delete` leaves the key absent and every other key as it was |
| RocksDb.Read | src/placement-center/src/storage/rocksdb.rs:72-86 | an absent key reads as `Ok(None)`, and only an absent key does; a stored text whose JSON decodes reads as `Ok(Some(decoding))`, and a successful read gives exactly that decoding; an error only arises from a stored value |
| RocksDb.ReadAfterWrite | src/placement-center/src/storage/rocksdb.rs:51-86 | reading a key back after writing it gives the value written |
| RocksDb.ReadOtherAfterWrite | src/placement-center/src/storage/rocksdb.rs:51-86 | writing one key does not change the read of any other key |
| RocksDb.ReadAfterDelete | src/placement-center/src/storage/rocksdb.rs:189-191 | after `delete` the key reads as `Ok(None)` and other keys read as before |
| RocksDb.ReadNonUtf8Fails | src/placement-center/src/storage/rocksdb.rs:76-81 | stored bytes that are not UTF-8 make `read` fail instead of reporting absence |
| RocksDb.ReadSameSlot | src/placement-center/src/storage/rocksdb.rs:72-86 | a read depends only on what the key holds |
| RocksDb.PrefixRows | src/placement-center/src/storage/rocksdb.rs:89-115 | reference scan: a row is returned exactly when it is stored and its key starts with the prefix, in key order |
| RocksDb.Where | src/placement-center/src/storage/rocksdb.rs:89-115 | filtering keeps exactly the rows that pass the test, and never adds rows |
| RocksDb.WhereOrdered | src/placement-center/src/storage/rocksdb.rs:89-115 | filtering a key-ordered column keeps it key-ordered |
| RocksDb.PrefixRowsExact | src/placement-center/src/storage/rocksdb.rs:89-115 | the reference scan finds (k, v) exactly when k starts with the prefix and the column maps k to v |
| RocksDb.ReadPrefix | src/placement-center/src/storage/rocksdb.rs:89-115 | the seek-then-collect loop returns exactly the reference prefix scan, one single-entry map per row, ascending |
| RocksDb.SeekSkipsNothing | src/placement-center/src/storage/rocksdb.rs:91-93 | the rows the seek jumps over, all below the prefix, hold no key with that prefix |
| RocksDb.RunEndsAtFirstMismatch | src/placement-center/src/storage/rocksdb.rs:107-109 | once a key at or above the prefix does not start with it, no later key does |
| RocksDb.ScanBounds | src/placement-center/src/storage/rocksdb.rs:89-115 | the rows from the seek position up to the first mismatch are exactly the prefix scan |
| RocksDb.OrderedKeyCount | src/placement-center/src/storage/rocksdb.rs:89-115 | a key-ordered column has as many distinct keys as rows |
| RocksDb.PrefixRowsKeys | src/placement-center/src/storage/rocksdb.rs:89-115 | the keys a prefix scan returns are exactly the stored keys with that prefix |
| RocksDb.PrefixRowsCount | src/placement-center/src/storage/rocksdb.rs:89-115 | a prefix scan returns one row per stored key that starts with the prefix |
| RocksDb.ReadAllByCf | src/placement-center/src/storage/rocksdb.rs:128-156 | `read_all_by_cf` returns one map per readable row |
| RocksDb.TextRows | src/placement-center/src/storage/rocksdb.rs:128-156 | the listing keeps exactly the stored rows whose value is text |
| RocksDb.ReadAllByCfExact | src/placement-center/src/storage/rocksdb.rs:128-156 | the listing holds `{k: t}` exactly when k stores text t, each row's key strictly ascending |
| RocksDb.ReadAll | src/placement-center/src/storage/rocksdb.rs:118-125 | `read_all` has exactly one entry, keyed by the sole column family "cluster", holding `read_all_by_cf` of it |
| RocksDb.WriteStrOfDumpReadsBack | src/placement-center/src/storage/rocksdb.rs:278-303 | `write_str` of the raw text `read_all_by_cf` listed for a written key restores a value that reads back as the one written |
| Lex.Irreflexive | src/placement-center/src/storage/rocksdb.rs:89-115 | no key sorts before itself in the engine's key order |
| Lex.Transitive | src/placement-center/src/storage/rocksdb.rs:89-115 | the engine's key order is transitive |
| Lex.Asymmetric | src/placement-center/src/storage/rocksdb.rs:89-115 | two keys are never each below the other |
| Lex.Total | src/placement-center/src/storage/rocksdb.rs:89-115 | any two distinct keys are ordered one way or the other |
| Lex.PrefixBlock | src/placement-center/src/storage/rocksdb.rs:89-115 | keys that start with a prefix form one contiguous run in key order, which is why the scan may stop at the first mismatch |
| Keys.KeyNameByEntry | src/placement-center/src/storage/keys.rs:19-21 | an entry key lies under "/raft/entry/" and is none of the six fixed raft keys |
| Keys.KeyNameByFirstIndex | src/placement-center/src/storage/keys.rs:3-5 | the first-index marker key lies under "/raft/" |
| Keys.KeyNameByLastIndex | src/placement-center/src/storage/keys.rs:7-9 | the last-index marker key lies under "/raft/" |
| Keys.KeyNameByHardState | src/placement-center/src/storage/keys.rs:11-13 | the hard-state key lies under "/raft/" |
| Keys.KeyNameByConfState | src/placement-center/src/storage/keys.rs:15-17 | the configuration-state key lies under "/raft/" |
| Keys.KeyNameUncommit | src/placement-center/src/storage/keys.rs:23-25 | the uncommitted-set key lies under "/raft/" |
| Keys.KeyNameSnapshot | src/placement-center/src/storage/keys.rs:27-29 | the snapshot key lies under "/raft/" |
| Keys.EntryKeyRoundTrip | src/placement-center/src/storage/keys.rs:19-21 | the index can be read back out of its entry key |
| Keys.EntryKeyInjective | src/placement-center/src/storage/keys.rs:19-21 | two indexes share an entry key exactly when they are equal |
| Keys.RaftKeysDistinct | src/placement-center/src/storage/keys.rs:3-29 | the six fixed raft keys are pairwise distinct and all lie under "/raft/", and distinct indexes get distinct entry keys |
| Keys.KeyClusterPrefix | src/placement-center/src/storage/keys.rs:38-40 | the cluster prefix is '/'-delimited and its first segment is not the raft one, so no raft key falls under a cluster scan |
| Keys.KeyCluster | src/placement-center/src/storage/keys.rs:34-44 | a cluster key starts with its type prefix, which starts with the cluster prefix |
| Keys.KeyClusterPrefixByType | src/placement-center/src/storage/keys.rs:42-44 | a cluster-type prefix lies under the cluster prefix "/clusters/" |
| Keys.KeyNodePrefixAll | src/placement-center/src/storage/keys.rs:54-56 | the all-nodes prefix lies under the cluster prefix |
| Keys.KeyNode | src/placement-center/src/storage/keys.rs:46-56 | a node key starts with its cluster's node prefix and with the all-nodes prefix |
| Keys.KeyNodePrefix | src/placement-center/src/storage/keys.rs:50-56 | a cluster's node prefix starts with the all-nodes prefix and with the cluster prefix |
| Keys.NodeKeyInjective | src/placement-center/src/storage/keys.rs:46-48 | within one cluster, distinct node ids get distinct keys |
| Keys.NodePrefixNotDelimited | src/placement-center/src/storage/keys.rs:46-52 | the node prefix of cluster c also prefixes node keys of every cluster whose name extends c |
| Keys.NodeKeyIsClusterKey | src/placement-center/src/storage/keys.rs:34-48 | a node key is a cluster key of type "node", so a scan of that type sees every cluster's nodes |
| Keys.KeySegment | src/placement-center/src/storage/keys.rs:74-89 | a segment key starts with its shard prefix, which starts with its cluster prefix |
| Keys.KeyShardPrefix | src/placement-center/src/storage/keys.rs:70-72 | shard keys lie under "/journal/shard/" |
| Keys.KeySegmentClusterPrefix | src/placement-center/src/storage/keys.rs:82-84 | segment keys of a cluster lie under "/journal/segment/" |
| Keys.KeySegmentShardPrefix | src/placement-center/src/storage/keys.rs:87-89 | a shard's segment prefix starts with its cluster's segment prefix |
| Keys.ShardAndSegmentDisjoint | src/placement-center/src/storage/keys.rs:70-79 | no segment key falls under any shard prefix |
| Keys.KeyResourceConfig | src/placement-center/src/storage/keys.rs:58-60 | resource config keys lie under "/config/" |
| Keys.KeyResourceIdempotent | src/placement-center/src/storage/keys.rs:62-64 | idempotency keys lie under "/idempotent/" and their cluster |
| Keys.MqttUser | src/placement-center/src/storage/keys.rs:92-98 | an MQTT user key starts with its cluster's user prefix |
| Keys.MqttUserClusterPrefix | src/placement-center/src/storage/keys.rs:96-98 | the user prefix of a cluster lies under "/mqtt/" |
| Keys.MqttTopic | src/placement-center/src/storage/keys.rs:100-106 | an MQTT topic key starts with its cluster's topic prefix |
| Keys.MqttTopicClusterPrefix | src/placement-center/src/storage/keys.rs:104-106 | the topic prefix of a cluster lies under "/mqtt/" |
| Keys.MqttSession | src/placement-center/src/storage/keys.rs:108-114 | an MQTT session key starts with its cluster's session prefix |
| Keys.MqttSessionClusterPrefix | src/placement-center/src/storage/keys.rs:112-114 | the session prefix of a cluster lies under "/mqtt/" |
| Keys.MqttLastWill | src/placement-center/src/storage/keys.rs:116-121 | a last-will key starts with its cluster's last-will prefix |
| Keys.MqttLastWillPrefix | src/placement-center/src/storage/keys.rs:119-121 | the last-will prefix of a cluster lies under "/mqtt/" |
| Keys.MqttNodeSubGroupLeader | src/placement-center/src/storage/keys.rs:123-125 | the shared-subscription leader key lies under "/mqtt/" |
| Keys.MqttAcl | src/placement-center/src/storage/keys.rs:127-140 | an ACL key starts with its cluster's ACL prefix |
| Keys.MqttAclPrefix | src/placement-center/src/storage/keys.rs:138-140 | the ACL prefix of a cluster lies under "/mqtt/" |
| Keys.MqttBlacklist | src/placement-center/src/storage/keys.rs:142-155 | a blacklist key starts with its cluster's blacklist prefix |
| Keys.MqttBlacklistPrefix | src/placement-center/src/storage/keys.rs:153-155 | the blacklist prefix of a cluster lies under "/mqtt/" |
| RaftStorage.StoredMessage | src/placement-center/src/storage/raft.rs:54-81 | the stored message is the default when the key is absent, and otherwise the decoding of what the key holds |
| RaftStorage.StoredMessageAfterWrite | src/placement-center/src/storage/raft.rs:36-41 | a message saved under a key reads back as itself |
| RaftStorage.StoredMessageSameSlot | src/placement-center/src/storage/raft.rs:54-81 | a stored message depends only on what its key holds |
| RaftStorage.HardStateOf | src/placement-center/src/storage/raft.rs:54-66 | `hard_state` is the default for an absent key, and otherwise the protobuf decoding of the stored bytes |
| RaftStorage.ConfStateOf | src/placement-center/src/storage/raft.rs:68-81 | `conf_state` is the default for an absent key, and otherwise the protobuf decoding of the stored bytes |
| RaftStorage.SaveHardState | src/placement-center/src/storage/raft.rs:229-234 | `save_hard_state` writes only the hard-state key, holding the message's protobuf bytes as JSON; `SaveStateRoundTrip` reads it back |
| RaftStorage.SaveConfState | src/placement-center/src/storage/raft.rs:36-41 | `save_conf_state` writes only the configuration-state key, holding the message's protobuf bytes as JSON |
| RaftStorage.GetRaftState | src/placement-center/src/storage/raft.rs:44-51 | `raft_state` gives the default hard and configuration state for an absent key, and otherwise the protobuf decoding of the stored bytes |
| RaftStorage.SaveStateRoundTrip | src/placement-center/src/storage/raft.rs:36-81 | a saved hard state is what `hard_state` then returns, and likewise for the configuration state; saving one leaves the other as it was |
| RaftStorage.SetHardStateCommit | src/placement-center/src/storage/raft.rs:236-240 | setting the commit rewrites only the hard-state key |
| RaftStorage.SetHardStateCommitEffect | src/placement-center/src/storage/raft.rs:236-240 | the new hard state has the given commit, and the same term and vote as before |
| RaftStorage.FirstIndex | src/placement-center/src/storage/raft.rs:155-173 | a readable first-index marker is returned as stored; an absent or unreadable one falls back to the snapshot index plus one |
| RaftStorage.LastIndex | src/placement-center/src/storage/raft.rs:175-193 | a readable last-index marker is returned as stored; an absent or unreadable one falls back to the snapshot index |
| RaftStorage.NoMarkersEmptyLog | src/placement-center/src/storage/raft.rs:155-193 | with neither marker readable the log is empty: first index is last index plus one |
| RaftStorage.SaveFirstIndex | src/placement-center/src/storage/raft.rs:223-227 | `save_first_index` writes only the first-index marker, holding the index as JSON |
| RaftStorage.SaveLastIndex | src/placement-center/src/storage/raft.rs:217-221 | `save_last_index` writes only the last-index marker, holding the index as JSON |
| RaftStorage.MarkersRoundTrip | src/placement-center/src/storage/raft.rs:217-227 | a saved first or last index is what the index function then returns |
| RaftStorage.EntryByIdx | src/placement-center/src/storage/raft.rs:195-215 | `entry_by_idx` returns the entry stored for the index, and nothing when no entry is stored |
| RaftStorage.Entries | src/placement-center/src/storage/raft.rs:143-151 | `entries(low, high)` holds exactly the stored entries with index from low to high, and is empty when low > high |
| RaftStorage.EntriesAscending | src/placement-center/src/storage/raft.rs:143-151 | in a store where entries sit under their own index, the range read is strictly ascending by index and within the range |
| RaftStorage.LoadUncommitIndex | src/placement-center/src/storage/raft.rs:258-275 | a stored set whose bytes decode loads as that decoding; an absent, unreadable or undecodable set loads as empty (the failure is only logged) |
| RaftStorage.SaveUncommitIndex | src/placement-center/src/storage/raft.rs:242-249 | `save_uncommit_index` writes only the uncommitted-set key, holding the set's bincode bytes as JSON |
| RaftStorage.UncommitRoundTrip | src/placement-center/src/storage/raft.rs:242-275 | a saved uncommitted set loads back as itself |
| RaftStorage.Staged | src/placement-center/src/storage/raft.rs:126-135 | for each index in a batch, the batch's last entry with that index is what the batch leaves behind |
| RaftStorage.MarkUncommitted | src/placement-center/src/storage/raft.rs:126-135 | the loop adds exactly the batch's indexes to the uncommitted set, each with marker 1 |
| RaftStorage.Append | src/placement-center/src/storage/raft.rs:102-140 | an empty batch changes nothing; a compacted or gapped batch is excluded; otherwise each batch index holds its entry and is uncommitted, indexes outside the batch keep their marker, the last-index marker is the final entry's index, the set is saved, and all other keys are untouched |
| RaftStorage.AppendLastIndex | src/placement-center/src/storage/raft.rs:126-137 | after a non-empty append, `last_index` is the batch's final index |
| RaftStorage.AppendEntryReadBack | src/placement-center/src/storage/raft.rs:126-135 | after an append, each batch index reads back the batch's entry for it |
| RaftStorage.AppendUncommitReload | src/placement-center/src/storage/raft.rs:126-137 | after an append, the stored uncommitted set reloads as the in-memory one |
| RaftStorage.AppendKeepsOther | src/placement-center/src/storage/raft.rs:102-140 | an append removes no entry outside the batch, including entries above the new last index |
| RaftStorage.AppendKeepsWellIndexed | src/placement-center/src/storage/raft.rs:102-140 | appending keeps every stored entry under the key of its own index |
| RaftStorage.CommitIndex | src/placement-center/src/storage/raft.rs:83-100 | committing requires the entry to exist, drops only that index from the uncommitted set and saves the set, and changes no key but the hard state and the set |
| RaftStorage.CommitIndexEffects | src/placement-center/src/storage/raft.rs:83-100 | after a commit the hard state has commit idx, the entry's term and the old vote, and the saved set reloads without idx |
| RaftStorage.CommitKeepsLog | src/placement-center/src/storage/raft.rs:83-100 | committing leaves every stored log entry as it was |
| RaftStorage.CreateSnapshotMetadata | src/placement-center/src/storage/raft.rs:366-375 | the snapshot's index and term are the hard state's commit and term, and its configuration is the stored one |
| RaftStorage.New | src/placement-center/src/storage/raft.rs:22-33 | a new storage keeps the column, takes its snapshot index and term from the stored hard state and its configuration from the stored one, and loads the stored uncommitted set, empty when none is stored |
| RaftStorage.NewOnEmptyStore | src/placement-center/src/storage/raft.rs:22-33 | opened on an empty store, the log is empty from index 1, with nothing uncommitted and default metadata |
| RaftSnapshot.LastValue | src/placement-center/src/storage/raft.rs:277-309 | the value a replay of the dump's rows leaves under k is absent exactly when no row holds k, and otherwise is taken from some row that holds k |
| RaftSnapshot.PutAll | src/placement-center/src/storage/raft.rs:277-309 | writing one map of the dump sets each of its keys to its text and leaves all other keys alone |
| RaftSnapshot.LastValueIsStored | src/placement-center/src/storage/raft.rs:277-309 | a value the dump of a store gives a key is the text that key holds |
| RaftSnapshot.LastValueOfDump | src/placement-center/src/storage/raft.rs:277-309 | replaying a store's own dump leaves under k its text value, and nothing when k is absent or not text |
| RaftSnapshot.RestoreRows | src/placement-center/src/storage/raft.rs:277-309 | replaying one family's rows leaves each key with the last value the rows give it, or as before |
| RaftSnapshot.WriteAll | src/placement-center/src/storage/raft.rs:277-309 | empty or undecodable data leaves the store unchanged, and keys the dump does not mention keep their value: nothing is deleted |
| RaftSnapshot.RestoreFamilies | src/placement-center/src/storage/raft.rs:277-309 | replaying every family leaves keys no family mentions as they were |
| RaftSnapshot.RestoreOwnDump | src/placement-center/src/storage/raft.rs:277-309 | writing back the dump of a store restores each text value it held and leaves the target's other keys unchanged |
| RaftSnapshot.CreatedSnapshot | src/placement-center/src/storage/raft.rs:351-359 | the snapshot created takes index and term from the hard state and the configuration from the stored one, and its data decodes to the full dump of the store |
| RaftSnapshot.CreateSnapshot | src/placement-center/src/storage/raft.rs:351-364 | creation records the metadata, moves the first-index marker to the snapshot index, saves the snapshot of the full dump, and touches no other key |
| RaftSnapshot.FirstIndexAfterCreate | src/placement-center/src/storage/raft.rs:351-364 | right after creation the first index is the snapshot index itself, not one past it |
| RaftSnapshot.TakeSnapshot | src/placement-center/src/storage/raft.rs:334-348 | `snapshot` first creates a snapshot |
| RaftSnapshot.TakeSnapshotReturnsCreated | src/placement-center/src/storage/raft.rs:334-348 | `snapshot` returns exactly the snapshot it has just saved |
| RaftSnapshot.ApplySnapshot | src/placement-center/src/storage/raft.rs:313-331 | a snapshot below the first index is rejected as out of date with nothing changed, and only such a snapshot; otherwise the metadata is recorded and every key but the two raft states is as the dump left it |
| RaftSnapshot.ApplySnapshotStates | src/placement-center/src/storage/raft.rs:313-331 | after an accepted snapshot, term is the larger of the dump's hard-state term and the snapshot term, vote is the dump's, commit is exactly the snapshot index, and the configuration is the snapshot's |
| RaftSnapshot.InstalledHardStateIsSources | src/placement-center/src/storage/raft.rs:322-326 | as written, installing another storage's snapshot leaves exactly that storage's hard state, so the installing node's term can go down and its vote is replaced |
| RaftSnapshot.ApplySnapshotCorrected | src/placement-center/src/storage/raft.rs:313-331 | corrected `apply_snapshot` that reads the node's own hard state before writing the dump: rejected exactly when stale, otherwise metadata recorded and every other key as the dump left it |
| RaftSnapshot.ApplySnapshotCorrectedStates | src/placement-center/src/storage/raft.rs:324-328 | with the correction, the vote is the node's own, the term is the larger of its own and the snapshot's and never goes down, commit is the snapshot index, and the configuration is the snapshot's |
| RaftSnapshot.CreatedSnapshotNotStale | src/placement-center/src/storage/raft.rs:313-375 | a snapshot just created is accepted by the same storage, not rejected as stale |
| RaftSnapshot.OwnDumpKeepsHardState | src/placement-center/src/storage/raft.rs:277-375 | writing a storage's own dump back over it leaves its hard state as it was |
| RaftSnapshot.SnapshotReplicates | src/placement-center/src/storage/raft.rs:277-375 | installing a source's snapshot gives every key but the two raft states the source's text value, and leaves keys the source lacked as they were |
| KvStorage.EngineGet | src/placement-center/src/storage/kv.rs:21-30 | the engine reports no record exactly when the key is absent |
| KvStorage.EngineExists | src/placement-center/src/storage/kv.rs:36-38 | the engine reports false exactly when the key is absent |
| KvStorage.Set | src/placement-center/src/storage/kv.rs:17-19 | as written, `set` leaves the key absent and every other key unchanged |
| KvStorage.EngineDelete | src/placement-center/src/storage/kv.rs:32-34 | the engine's delete removes the key, succeeds, and leaves every other key as it was |
| KvStorage.Get | src/placement-center/src/storage/kv.rs:21-30 | `get` gives `Ok(None)` exactly for an absent key, the JSON-decoded string when the record decodes, a JSON error when it does not, and the engine's error otherwise |
| KvStorage.Delete | src/placement-center/src/storage/kv.rs:32-34 | `delete` leaves the key absent and every other key unchanged |
| KvStorage.Exists | src/placement-center/src/storage/kv.rs:36-38 | `exists` answers whether the key is present, and passes on the engine's error |
| KvStorage.SetIsDelete | src/placement-center/src/storage/kv.rs:17-19 | as written, `set` has exactly the effect of `delete`, whatever the value |
| KvStorage.GetAfterSet | src/placement-center/src/storage/kv.rs:17-30 | as written, a `get` right after `set(key, value)` finds nothing |
| KvStorage.GetAfterDelete | src/placement-center/src/storage/kv.rs:21-34 | a `get` after `delete` finds nothing, and other keys read as before |
| KvStorage.ExistsAgreesWithGet | src/placement-center/src/storage/kv.rs:21-38 | `exists` answers false exactly when `get` answers `Ok(None)` |
| KvStorage.Upsert | src/placement-center/src/storage/mod.rs:10-22 | the corrected `set` stores the value's JSON in a record stamped with the given time, and leaves every other key unchanged |
| KvStorage.GetAfterUpsert | src/placement-center/src/storage/kv.rs:17-30 | with the corrected `set`, a later `get` returns the value written, and other keys read as before |
| DataRouteKv.Set | src/placement-center/src/raft/kv.rs:22-25 | applying a decodable set request deletes its key, whatever the value, because `KvStorage::set` is a delete |
| DataRouteKv.SetCorrected | src/placement-center/src/storage/mod.rs:10-22 | with the corrected `set`, applying a set request leaves its key present, holding the value's record |
| DataRouteKv.Delete | src/placement-center/src/raft/kv.rs:27-30 | applying a delete request that decodes is `KvStorage::delete` of its key |
| DataRoute.Route | src/placement-center/src/raft/route.rs:20-25 | an envelope that decodes is sent to the set handler when tagged `KvSet` and to the delete handler when tagged `KvDelete`, payload unchanged, with that handler's result |
| DataRoute.RouteCorrected | src/placement-center/src/raft/route.rs:20-25 | the same dispatch with the corrected set handler |
| DataRoute.RoutersDifferOnlyOnSetKey | src/placement-center/src/storage/kv.rs:17-19 | the written and corrected routers agree on deletes; on a set of k they agree on every other key, and only the written one removes k |
| DataRoute.RouteOfProposedSet | src/placement-center/src/raft/route.rs:20-25 | applying the envelope the service proposes for a set of k deletes k, whatever value it carried |
| DataRoute.RouteCorrectedOfProposedSet | src/placement-center/src/storage/mod.rs:10-22 | with the corrected router, applying a proposed set stores the request's value under its key |
| DataRoute.RouteOfProposedDelete | src/placement-center/src/raft/route.rs:20-25 | applying the envelope the service proposes for a delete deletes the key |
| DataRoute.SetThenDeleteRemoves | src/placement-center/src/raft/route.rs:20-25 | a proposed set followed by a proposed delete of the same key leaves it absent and the other keys as before |
| Metadata.ConfiguredNode | src/placement-center/src/raft/metadata.rs:40-51 | a configured peer's ip is the text before the first ':' of its address, its inner address is the quoted TOML rendering, and its id is the trimmed parsed key |
| Metadata.Render | src/placement-center/src/raft/metadata.rs:40-51 | a TOML string renders as its text in double quotes |
| Metadata.ConfiguredPeers | src/placement-center/src/raft/metadata.rs:40-51 | the loop yields one peer per configured entry, in order, keyed by the entry's id |
| Metadata.PeerTable | src/placement-center/src/raft/metadata.rs:40-51 | the peer table has an entry for every configured id, each entry is the node of a configured entry with that id, and the last entry for an id is the one kept |
| Metadata.LocalNode | src/placement-center/src/raft/metadata.rs:32-37 | the local node takes id, address, cluster name and the placement-center type from the configuration, with inner address "addr:grpc_port" |
| Metadata.New | src/placement-center/src/raft/metadata.rs:30-60 | a new cache has no leader, is a Starting follower, describes the local node from the config, and holds a peer for every configured id and only for those |
| Metadata.NewIsFollower | src/placement-center/src/raft/metadata.rs:53-59 | a new cache is not leader, knows no leader address, and has no live leader |
| Metadata.GetNodeById | src/placement-center/src/raft/metadata.rs:62-64 | a node is found exactly when its id is a peer, and it is that peer |
| Metadata.AddPeer | src/placement-center/src/raft/metadata.rs:66-69 | after `add_peer` the id maps to the new node, replacing any earlier one, and other ids and fields are unchanged |
| Metadata.RemovePeer | src/placement-center/src/raft/metadata.rs:71-74 | after `remove_peer` the id is absent, and other ids and fields are unchanged |
| Metadata.RemovePeerEffects | src/placement-center/src/raft/metadata.rs:66-74 | removing an absent id is a no-op, and removing an id just added undoes the add |
| Metadata.SetRole | src/placement-center/src/raft/metadata.rs:80-82 | `set_role` changes the role and nothing else |
| Metadata.SetRoleLeadership | src/placement-center/src/raft/metadata.rs:76-82 | the cache is leader exactly when its role is Leader, and setting the old role back restores it |
| Metadata.LeaderAddr | src/placement-center/src/raft/metadata.rs:92-97 | the leader address is the leader's inner address, or "" when no leader is known |
| Metadata.IsLeader | src/placement-center/src/raft/metadata.rs:76-78 | only the Leader role counts as leader: a follower, candidate or pre-candidate never does |
| Metadata.LeaderAlive | src/placement-center/src/raft/metadata.rs:99-104 | the leader is alive exactly when one is known |
| Metadata.NodeIds | src/placement-center/src/raft/metadata.rs:84-90 | `node_ids` lists exactly the peer ids, each once |
| GrpcKvServices.DecideSet | src/placement-center/src/server/grpc/services_kv.rs:47-72 | a set is rejected exactly when key or value is empty; otherwise a non-leader forwards it to the single leader address and the leader proposes the encoded request tagged `KvSet` under "set" |
| GrpcKvServices.DecideDelete | src/placement-center/src/server/grpc/services_kv.rs:82-110 | a delete is rejected exactly when the key is empty; otherwise a non-leader forwards it to the leader and the leader proposes the encoded request tagged `KvDelete` under "delete" |
| GrpcKvServices.DecideRead | src/placement-center/src/server/grpc/services_kv.rs:120-150 | a read is rejected exactly when the key is empty, and is otherwise served locally |
| GrpcKvServices.ReadsStayLocal | src/placement-center/src/server/grpc/services_kv.rs:120-161 | reads never forward or propose, and their decision does not depend on the node's role |
| GrpcKvServices.WriteReply | src/placement-center/src/server/grpc/services_kv.rs:58-79 | a reject is a cancelled status carrying its error; a forward or proposal succeeds exactly when the forwarded call or proposal does, and its failure is carried in a cancelled status |
| GrpcKvServices.Set | src/placement-center/src/server/grpc/services_kv.rs:47-80 | the set handler rejects empty fields whatever the role, and otherwise succeeds exactly when the forward (non-leader) or the proposal (leader) does |
| GrpcKvServices.Delete | src/placement-center/src/server/grpc/services_kv.rs:82-118 | the delete handler rejects an empty key, and otherwise succeeds exactly when the forward or the proposal does |
| GrpcKvServices.Get | src/placement-center/src/server/grpc/services_kv.rs:120-141 | `get` rejects an empty key, answers the default empty reply for an absent key, fails exactly when storage fails, and otherwise replies with the stored string |
| GrpcKvServices.Exists | src/placement-center/src/server/grpc/services_kv.rs:143-161 | `exists` rejects an empty key, fails exactly when storage fails, and otherwise answers whether the key is present |
| GrpcKvServices.ForwardWithoutLeader | src/placement-center/src/server/grpc/services_kv.rs:56-58 | a non-leader that knows no leader forwards to the empty address "" |
| GrpcKvServices.EmptyKeyRejected | src/placement-center/src/server/grpc/services_kv.rs:50-54 | an empty key is rejected before any forward or proposal, whatever their outcome would be |
| GrpcKvServices.AbsentAndEmptyIndistinct | src/placement-center/src/server/grpc/services_kv.rs:131-140 | a client cannot tell an absent key from one holding "" through `get` |
| GrpcKvServices.LeaderSetThenRead | src/placement-center/src/storage/mod.rs:10-22 | with the corrected set, a set accepted by the leader and applied makes a later `get` return the value and `exists` answer true |
| GrpcKvServices.LeaderSetThenReadAsWritten | src/placement-center/src/server/grpc/services_kv.rs:69-140 | a set accepted by the leader, proposed as its envelope and applied by `route`, leaves the key absent: `get` answers the empty default and `exists` false |
| IdCodec.IdToBin | src/placement-center/src/openraft/sotre/mod.rs:26-30 | the encoding of an id is exactly 8 bytes |
| IdCodec.BinToId | src/placement-center/src/openraft/sotre/mod.rs:32-34 | decoding requires at least 8 bytes and gives the id whose encoding is exactly the buffer's first 8 bytes, so re-encoding a decoded buffer gives those bytes back |
| IdCodec.IdRoundTrip | src/placement-center/src/openraft/sotre/mod.rs:26-34 | decoding the encoding of an id gives the id back |
| IdCodec.IgnoresTrailing | src/placement-center/src/openraft/sotre/mod.rs:32-34 | bytes after the eighth do not change the decoded id |
| IdCodec.MostSignificantFirst | src/placement-center/src/openraft/sotre/mod.rs:28 | byte 0 of the encoding is the most significant: it bounds the id between b0·256⁷ and (b0+1)·256⁷ |
| IdCodec.BytesLessIsValueLess | src/placement-center/src/openraft/sotre/mod.rs:26-34 | for equal-length buffers, byte-wise order is the order of their big-endian values |
| IdCodec.IdOrderPreserved | src/placement-center/src/openraft/sotre/mod.rs:26-30 | the byte order of two encodings is the numeric order of the ids |
| RaftNode.Display | src/placement-center/src/openraft/raft_node.rs:23-32 | the display text is "Node { rpc_addr: " then the address, ", node_id: ", the decimal id and ", }" |
| RaftNode.DisplayInjective | src/placement-center/src/openraft/raft_node.rs:23-32 | two nodes display the same exactly when they are equal |
| RaftNode.StartupAddr | src/placement-center/src/openraft/raft_node.rs:61-62 | a startup address contains no '"' |
| RaftNode.StartupAddrUnquotes | src/placement-center/src/openraft/raft_node.rs:61-62 | stripping quotes from the quoted TOML rendering of an address gives the address back |
| RaftNode.StartupDoesNotTrim | src/placement-center/src/openraft/raft_node.rs:65 | startup parses the node id without trimming, so a key the metadata cache accepts can make startup panic |
| RaftNode.StartupNodes | src/placement-center/src/openraft/raft_node.rs:60-68 | every configured id is a key of the startup table, each node sits under its own id with a quote-free address, each comes from a configured entry, and the last entry for an id is the one kept |
| RaftNode.StartupPairs | src/placement-center/src/openraft/raft_node.rs:60-68 | the startup loop yields one (id, node) pair per configured entry, in order |
| RaftNode.CalcInitNode | src/placement-center/src/openraft/raft_node.rs:94-98 | `calc_init_node` requires a non-empty table and returns its smallest key |
| RaftNode.SmallestKeyUnique | src/placement-center/src/openraft/raft_node.rs:94-98 | the initial node depends only on the key set, not on the node values |
| RaftNode.StartOpenraftNode | src/placement-center/src/openraft/raft_node.rs:57-92 | only the node whose id is the smallest configured one checks initialization; it initializes with the configured table exactly when not yet initialized, and panics with the source's message on either failure |
| Common.Discriminant | src/protocol/src/common.rs:8-13 | each variant's discriminant lies in 0..3 |
| Common.AsStrName | src/protocol/src/common.rs:20-27 | every variant has a non-empty protobuf name |
| Common.FromStName | src/protocol/src/common.rs:29-37 | a recognised name is the protobuf name of the variant returned |
| Common.NameRoundTrip | src/protocol/src/common.rs:20-37 | every variant's name reads back as that variant |
| Common.AsStrNameInjective | src/protocol/src/common.rs:21-26 | distinct variants have distinct names |
| Common.FromStNameExact | src/protocol/src/common.rs:29-37 | a string is rejected exactly when it is no variant's name, including differently-cased ones such as "MqttBrokerServer" |
| Common.DiscriminantsInOrder | src/protocol/src/common.rs:8-13 | the discriminants are 0 to 3 in declaration order, one per variant |
| PlacementClient.SelectIndex | src/clients/src/placement/mod.rs:36 | the index is below the list length and is the remainder of the counter by it |
| PlacementClient.SelectAddr | src/clients/src/placement/mod.rs:36-37 | the address used is in the list, at the selected index |
| PlacementClient.FirstAttemptAddr | src/clients/src/placement/mod.rs:34-37 | the first attempt uses addrs[1] when there are two or more addresses and addrs[0] when there is one |
| PlacementClient.SelectWindowInjective | src/clients/src/placement/mod.rs:36 | within any len consecutive counter values no index is selected twice |
| PlacementClient.SelectWindowCovers | src/clients/src/placement/mod.rs:36 | any len consecutive counter values select every index |
| PlacementClient.RetrySleepTime | src/clients/src/lib.rs:8-10 | the sleep is twice the attempt number, defined when that fits in usize |
| PlacementClient.SleepIncreasing | src/clients/src/lib.rs:8-10 | the sleep is 0 for attempt 0 and strictly increasing |
| PlacementClient.TotalSleepClosedForm | src/clients/src/lib.rs:8-10 | the total sleep over attempts 1..n is n(n+1) |
| PlacementClient.TotalSleepOfRetries | src/clients/src/lib.rs:4-10 | `retry_sleep_time(t)` summed over `t` in `1..=retry_times()` is 12; `retry_call` itself never sleeps (see Left out) |
| HttpPaths.V1Path | src/placement-center/src/server/http/mod.rs:4-6 | the path sits under "/v1" with the original path after it |
| HttpPaths.PathList | src/placement-center/src/server/http/mod.rs:8-10 | the path is followed by "/list" |
| HttpPaths.VersionedListPath | src/placement-center/src/server/http/mod.rs:4-10 | the two builders compose to "/v1" + p + "/list", in either order |
| HttpPaths.BuildersInjective | src/placement-center/src/server/http/mod.rs:4-10 | each builder maps distinct paths to distinct results |

## Left out

- Persistence I/O: the engine's own put/get failures are not modelled, so writes always succeed. Read failures are modelled through non-UTF-8 values and values that do not decode.
- `storage/engine` (`engine_*_by_cluster`) is not part of this model. The KV engine is a map from key to a `StorageDataWrap` record, or to the error a read of that key reports.
- `RocksDBEngine::new`, `open_db_opts` and `exist`: opening the database is I/O. `exist` rests on the probabilistic `key_may_exist_cf`, so nothing exact can be stated about it.
- `read_prefix` spins forever on a missing entry or a key that is not UTF-8 (`continue` without advancing the iterator, rocksdb.rs:99-104). The model assumes UTF-8 keys. Values are returned raw, as the code does.
- The prefix-scan test's concrete counts (3, 3, 2, 1) are not restated. `RocksDb.PrefixRowsCount` gives the count for any column.
- prost, bincode and serde_json: their byte formats are left abstract as `Codec` values. Round trips are assumed through `RoundTrips`, and bincode is assumed never to encode a map as zero bytes.
- `RaftSnapshot.WriteAll`: Rust's `HashMap` iteration order is unspecified, so the model picks one order by choice (`:|`). This is why the restoring functions are ghost. Every property is proved for whatever order is chosen.
- Raft indexes, terms and ids are unbounded `nat`: u64 overflow at 2^64-1 is not modelled. Ids in the id codec, the startup table and `retry_call` keep their u64/usize bounds.
- The clock: `StorageDataWrap::new` stamps `now_second()`. `KvStorage.Upsert` and `DataRoute.RouteCorrected` take the time as a parameter.
- The propose/apply pipeline (channels, 30-second timeout) in raft/apply.rs is concurrency. The KV service's proposal outcome and the forwarded call's reply are parameters of `GrpcKvServices.Set` and `GrpcKvServices.Delete`. Only the envelope types are modelled.
- Peer transport and the client call path (network, connection, gRPC raft/openraft services, the client pool, `placement_set`/`placement_delete`) are network I/O and not part of this model.
- The body of the `retry_call` loop is unfinished: it calls nothing, never advances the counter and never returns. Only the address selection step is modelled. `PlacementCenterService` and `PlacementCenterInterface` are plain enums with nothing to prove.
- services_kv_new.rs proposes fixed "k1"/"v1" data whatever the request says. It is a duplicate demo path and is left out.
- The HTTP handlers (server.rs, openraft.rs, index.rs, http_response.rs) are demo handlers returning fixed JSON. Only the path builders are modelled.
- Startup, config loading and logging (grpc/server.rs, lib.rs, the cmd binary, config and log modules, tools.rs) are process setup and I/O. The configuration is a parameter of `Metadata.New` and `RaftNode.StartOpenraftNode`. The config struct shown declares only `node_id`, `grpc_port` and `log`; `cluster_name`, `addr` and `nodes` are used but not declared there, so their types follow their use.
- `Metadata.Render`: the TOML rendering of a string value is modelled as the string in double quotes, without TOML's escaping of quotes, backslashes and control characters.
- `BrokerNode::encode` is serde_json and is not modelled.
- Status texts: `Status::cancelled(e.to_string())` is modelled as a status carrying the error value itself, not its rendered message.
- The openraft `LogStore`/`StateMachineStore` in openraft/sotre/mod.rs: only `id_to_bin`/`bin_to_id` are modelled. The rest is an adapter to an external library.
- `RaftSnapshot.TakeSnapshot`: its contract only says that the snapshot is created. What it returns is stated by `RaftSnapshot.TakeSnapshotReturnsCreated` under the serializers' round trips.
- `RocksDb.ReadAllByCf`: its own contract gives only the length. Its content and order are stated by `RocksDb.ReadAllByCfExact`.

## Findings

| source | as written | input that shows it | evidently intended | confidence | as-written member | corrected member |
|---|---|---|---|---|---|---|
| src/placement-center/src/storage/raft.rs:322-325 | `apply_snapshot` writes the dump before reading `hard_state`, so the term it compares and the vote it keeps are those of the snapshot's source | a node at term 7 that voted for node 3 installs a snapshot whose source stored term 5 and vote 2: afterwards its hard state holds term 5 and vote 2 | compare with and keep the installing node's own term and vote, read before the dump is written | medium, not executed | RaftSnapshot.InstalledHardStateIsSources | RaftSnapshot.ApplySnapshotCorrectedStates |
| src/placement-center/src/storage/kv.rs:17-19 | `KvStorage::set` passes the key to the engine's delete and discards the value | `set("k", "v")` then `get("k")` answers `Ok(None)`; through the KV service, a set accepted by the leader makes `exists("k")` answer false | store the JSON encoding of the value under the key in a `StorageDataWrap` record | high, not executed | KvStorage.GetAfterSet | KvStorage.GetAfterUpsert |

The written behaviour is what `DataRoute.Route` models: `DataRoute.RouteOfProposedSet`
and `GrpcKvServices.LeaderSetThenReadAsWritten` show an accepted set ending
with the key absent. The corrected router `DataRoute.RouteCorrected` uses
`KvStorage.Upsert`, and `GrpcKvServices.LeaderSetThenRead` proves that a set
then reads back there. `DataRoute.RoutersDifferOnlyOnSetKey` shows the two
routers differ in nothing else.

For snapshots, `RaftSnapshot.ApplySnapshot` models `apply_snapshot` as
written, and `RaftSnapshot.InstalledHardStateIsSources` shows the installed
hard state is the source's. `RaftSnapshot.ApplySnapshotCorrected` differs
only in reading the hard state before the dump is written. It treats every
other key as the written version does, so `RaftSnapshot.SnapshotReplicates`
describes both.

=== FILE: apply.dfy ===
/** The envelope a write is proposed in and the raft state machine applies
    (`StorageData` of the raft apply module). */
module Apply {
  import opened Serial

  datatype StorageDataType = KvSet | KvDelete

  /** The kind of write and its payload, an encoded request. */
  datatype StorageData = StorageData(dataType: StorageDataType, value: bytes)
}

=== FILE: cluster_type.dfy ===
/** `ClusterType` of the protocol crate and its protobuf name codec. */
module Common {
  import opened Wrappers

  datatype ClusterType = PlacementCenter | JournalServer | MqttBrokerServer | AmqpBrokerServer

  /** The `i32` discriminant of each variant, in declaration order. */
  function Discriminant(c: ClusterType): (d: int)
    ensures 0 <= d < 4
  {
    match c
    case PlacementCenter => 0
    case JournalServer => 1
    case MqttBrokerServer => 2
    case AmqpBrokerServer => 3
  }

  /** `as_str_name`: the variant's name in the protobuf definition. */
  function AsStrName(c: ClusterType): (s: string)
    ensures |s| > 0
  {
    match c
    case PlacementCenter => "PlacementCenter"
    case JournalServer => "JournalServer"
    case MqttBrokerServer => "MQTTBrokerServer"
    case AmqpBrokerServer => "AMQPBrokerServer"
  }

  /** `from_st_name`: the variant with exactly this protobuf name, if any.
      Whatever it returns has that name. */
  function FromStName(s: string): (r: Option<ClusterType>)
    ensures r.Some? ==> AsStrName(r.value) == s
  {
    match s
    case "PlacementCenter" => Some(PlacementCenter)
    case "JournalServer" => Some(JournalServer)
    case "MQTTBrokerServer" => Some(MqttBrokerServer)
    case "AMQPBrokerServer" => Some(AmqpBrokerServer)
    case _ => None
  }

  /** Every name reads back as its variant. */
  lemma {:induction false} NameRoundTrip(c: ClusterType)
    ensures FromStName(AsStrName(c)) == Some(c)
  {
    match c
    case PlacementCenter =>
    case JournalServer =>
    case MqttBrokerServer =>
    case AmqpBrokerServer =>
  }

  /** Distinct variants have distinct names. */
  lemma {:induction false} AsStrNameInjective(a: ClusterType, b: ClusterType)
    ensures AsStrName(a) == AsStrName(b) <==> a == b
  {
    if AsStrName(a) == AsStrName(b) {
      NameRoundTrip(a);
      NameRoundTrip(b);
    }
  }

  /** A string is recognised exactly when it is one of the four names; any other
      string, a differently cased one included, gives None. */
  lemma {:induction false} FromStNameExact(s: string)
    ensures FromStName(s).None? <==> forall c :: AsStrName(c) != s
    ensures FromStName("MqttBrokerServer").None? && FromStName("placementcenter").None?
  {
    if FromStName(s).None? {
      forall c
        ensures AsStrName(c) != s
      {
        NameRoundTrip(c);
      }
    }
  }

  /** The discriminants are 0 to 3 in declaration order, one per variant. */
  lemma {:induction false} DiscriminantsInOrder(a: ClusterType, b: ClusterType)
    ensures Discriminant(PlacementCenter) == 0 && Discriminant(JournalServer) == 1
    ensures Discriminant(MqttBrokerServer) == 2 && Discriminant(AmqpBrokerServer) == 3
    ensures Discriminant(a) == Discriminant(b) <==> a == b
  {
  }
}

=== FILE: errors.dfy ===
/** The error type of the placement center (`RobustMQError`) and the gRPC
    status its handlers answer with. */
module Errors {

  /** The variants of the error enum, plus `ParameterCannotBeNull`, which the
      KV handlers raise for an empty parameter. I/O and JSON failures carry
      no payload here: their text comes from libraries outside the model. */
  datatype MqError =
    | IOJsonError
    | CommonError(message: string)
    | ClusterNoAvailableNode
    | SerdeJsonError
    | RaftLogCommitTimeout(interface: string)
    | ParameterCannotBeNull(parameter: string)

  /** `tonic::Status::cancelled(e.to_string())`: the status carries the error
      it was built from. */
  datatype Status = Cancelled(error: MqError)
}

=== FILE: http_paths.dfy ===
/** Path builders of the placement center's HTTP admin server. */
module HttpPaths {

  const V1_PREFIX: string := "/v1"
  const LIST_SUFFIX: string := "/list"

  /** `v1_path`: the path under the "/v1" prefix. */
  function V1Path(path: string): (r: string)
    ensures V1_PREFIX <= r && r[|V1_PREFIX|..] == path
  {
    V1_PREFIX + path
  }

  /** `path_list`: the path with "/list" appended. */
  function PathList(path: string): (r: string)
    ensures path <= r && r[|path|..] == LIST_SUFFIX
  {
    path + LIST_SUFFIX
  }

  /** The versioned list path of `p` is "/v1" + p + "/list". */
  lemma {:induction false} VersionedListPath(p: string)
    ensures V1Path(PathList(p)) == "/v1" + p + "/list"
    ensures V1Path(PathList(p)) == PathList(V1Path(p))
  {
  }

  /** Both builders are injective: different paths give different routes. */
  lemma {:induction false} BuildersInjective(p: string, q: string)
    ensures V1Path(p) == V1Path(q) <==> p == q
    ensures PathList(p) == PathList(q) <==> p == q
  {
    if V1Path(p) == V1Path(q) {
      assert p == V1Path(p)[|V1_PREFIX|..];
    }
    if PathList(p) == PathList(q) {
      assert |p| == |q|;
      assert p == PathList(p)[..|p|];
    }
  }
}

=== FILE: id_codec.dfy ===
/** The fixed-width key codec of the openraft store: a `u64` id is written as
    its 8 bytes in big-endian order (most significant byte first), so that
    the store's byte-wise key order is the numeric order of the ids. */
module IdCodec {
  import opened Ints
  import opened Serial

  const ID_WIDTH: nat := 8

  function Pow256(k: nat): (p: nat)
    ensures p > 0
  {
    if k == 0 then 1 else 256 * Pow256(k - 1)
  }

  /** The number a byte string denotes, read big-endian. */
  function Value(b: seq<byte>): (v: nat)
    ensures v < Pow256(|b|)
  {
    if |b| == 0 then 0
    else
      var init := b[..|b| - 1];
      var v' := Value(init);
      assert v' + 1 <= Pow256(|init|);
      assert (v' + 1) * 256 <= Pow256(|init|) * 256;
      v' * 256 + b[|b| - 1]
  }

  /** The `width` bytes of `n`, most significant first. */
  function Encode(n: nat, width: nat): (b: seq<byte>)
    requires n < Pow256(width)
    ensures |b| == width && Value(b) == n
  {
    if width == 0 then []
    else
      var b := Encode(n / 256, width - 1) + [n % 256];
      assert b[..width - 1] == Encode(n / 256, width - 1);
      b
  }

  /** `id_to_bin`. */
  function IdToBin(id: u64): (b: bytes)
    ensures |b| == ID_WIDTH
  {
    Encode(id, ID_WIDTH)
  }

  /** `bin_to_id`: reads the first 8 bytes big-endian; a shorter buffer makes
      the read fail and the `unwrap` abort. The id read back encodes to exactly
      those 8 bytes: together with `IdRoundTrip`, the codec is a bijection
      between ids and 8-byte strings. */
  function BinToId(buf: bytes): (id: u64)
    requires |buf| >= ID_WIDTH
    ensures IdToBin(id) == buf[..ID_WIDTH]
  {
    EncodeOfValue(buf[..ID_WIDTH]);
    Value(buf[..ID_WIDTH])
  }

  /** Decoding an encoded id gives it back. */
  lemma {:induction false} IdRoundTrip(id: u64)
    ensures BinToId(IdToBin(id)) == id
  {
    assert IdToBin(id)[..ID_WIDTH] == IdToBin(id);
  }

  lemma {:induction false} EncodeOfValue(b: seq<byte>)
    ensures Encode(Value(b), |b|) == b
    decreases |b|
  {
    if |b| > 0 {
      var init := b[..|b| - 1];
      var n := Value(b);
      assert n == Value(init) * 256 + b[|b| - 1];
      assert n / 256 == Value(init) && n % 256 == b[|b| - 1];
      EncodeOfValue(init);
      assert b == init + [b[|b| - 1]];
    }
  }

  /** Bytes after the first 8 are ignored. */
  lemma {:induction false} IgnoresTrailing(id: u64, rest: bytes)
    ensures BinToId(IdToBin(id) + rest) == id
  {
    assert (IdToBin(id) + rest)[..ID_WIDTH] == IdToBin(id);
  }

  lemma {:induction false} ShiftByte(x: nat, p: nat, r: nat)
    ensures (x * p + r) * 256 == x * (256 * p) + r * 256
  {
  }

  /** Reading a byte string head first: its first byte weighs
      `256^(|b|-1)`. */
  lemma {:induction false} ValueHead(b: seq<byte>)
    requires |b| > 0
    ensures Value(b) == b[0] * Pow256(|b| - 1) + Value(b[1..])
    decreases |b|
  {
    if |b| > 1 {
      var init := b[..|b| - 1];
      ValueHead(init);
      assert init[1..] == b[1..][..|b| - 2];
      var p', r, last := Pow256(|b| - 2), Value(init[1..]), b[|b| - 1];
      assert Value(init) == b[0] * p' + r;
      assert Value(b[1..]) == r * 256 + last;
      assert Pow256(|b| - 1) == 256 * p';
      ShiftByte(b[0], p', r);
    } else {
      assert b[..0] == [];
    }
  }

  /** The first byte of an encoding is the most significant: `id` lies in
      `[b0 * 256^7, (b0 + 1) * 256^7)`. */
  lemma {:induction false} MostSignificantFirst(id: u64)
    ensures IdToBin(id)[0] * Pow256(ID_WIDTH - 1) <= id < (IdToBin(id)[0] + 1) * Pow256(ID_WIDTH - 1)
  {
    ValueHead(IdToBin(id));
  }

  /** The storage engine's key order on byte strings (memcmp): the first
      differing byte decides, and a proper prefix sorts first. */
  predicate BytesLess(a: seq<byte>, b: seq<byte>)
    decreases |a|
  {
    if |a| == 0 then |b| > 0
    else |b| > 0 && (a[0] < b[0] || (a[0] == b[0] && BytesLess(a[1..], b[1..])))
  }

  /** A larger leading digit outweighs any lower part. */
  lemma {:induction false} LeadingDigitDecides(x: nat, y: nat, ra: nat, rb: nat, p: nat)
    requires x < y && ra < p && rb < p
    ensures x * p + ra < y * p + rb
  {
    assert (x + 1) * p <= y * p by {
      var d := y - (x + 1);
      assert y * p == (x + 1) * p + d * p;
    }
  }

  /** On byte strings of one length, byte order is numeric order. */
  lemma {:induction false} BytesLessIsValueLess(a: seq<byte>, b: seq<byte>)
    requires |a| == |b|
    ensures BytesLess(a, b) <==> Value(a) < Value(b)
    decreases |a|
  {
    if |a| > 0 {
      ValueHead(a);
      ValueHead(b);
      var p := Pow256(|a| - 1);
      var ra, rb := Value(a[1..]), Value(b[1..]);
      assert Value(a) == a[0] * p + ra && Value(b) == b[0] * p + rb;
      if a[0] < b[0] {
        LeadingDigitDecides(a[0], b[0], ra, rb, p);
      } else if a[0] > b[0] {
        LeadingDigitDecides(b[0], a[0], rb, ra, p);
      } else {
        BytesLessIsValueLess(a[1..], b[1..]);
      }
    }
  }

  /** Encoded ids sort in the order of the ids. */
  lemma {:induction false} IdOrderPreserved(a: u64, b: u64)
    ensures BytesLess(IdToBin(a), IdToBin(b)) <==> a < b
  {
    BytesLessIsValueLess(IdToBin(a), IdToBin(b));
  }
}

=== FILE: ints.dfy ===
/** Fixed-width unsigned integers of the Rust code, as bounded subsets of `int`.
    `usize` is taken to be 64 bits wide. */
module Ints {

  const U64_MAX: int := 0xFFFF_FFFF_FFFF_FFFF
  const USIZE_MAX: int := U64_MAX

  type byte = b: int | 0 <= b < 0x100
  type i8 = n: int | -0x80 <= n < 0x80
  type u64 = n: int | 0 <= n <= U64_MAX
  type usize = n: int | 0 <= n <= USIZE_MAX
}

=== FILE: keys.dfy ===
/** The key-naming scheme of the placement center's single column family.
    Every key is a '/'-separated path; the builders below are plain string
    formatting, and the lemmas record which keys fall under which prefix scan. */
module Keys {
  import opened Wrappers
  import opened Strings

  // ---------------------------------------------------------------- raft

  const RAFT_PREFIX: string := "/raft/"
  const ENTRY_PREFIX: string := "/raft/entry/"

  function KeyNameByFirstIndex(): (k: string)
    ensures RAFT_PREFIX <= k
  {
    "/raft/first_index"
  }

  function KeyNameByLastIndex(): (k: string)
    ensures RAFT_PREFIX <= k
  {
    "/raft/last_index"
  }

  function KeyNameByHardState(): (k: string)
    ensures RAFT_PREFIX <= k
  {
    "/raft/hard_state"
  }

  function KeyNameByConfState(): (k: string)
    ensures RAFT_PREFIX <= k
  {
    "/raft/conf_state"
  }

  function KeyNameUncommit(): (k: string)
    ensures RAFT_PREFIX <= k
  {
    "/raft/uncommit_index"
  }

  function KeyNameSnapshot(): (k: string)
    ensures RAFT_PREFIX <= k
  {
    "/raft/snapshot"
  }

  /** The six fixed keys of the raft storage. */
  function FixedRaftKeys(): seq<string> {
    [KeyNameByFirstIndex(), KeyNameByLastIndex(), KeyNameByHardState(),
     KeyNameByConfState(), KeyNameUncommit(), KeyNameSnapshot()]
  }

  /** The key of the log entry at index `idx`: the decimal rendering of the index
      under "/raft/entry/". The key never coincides with one of the fixed keys. */
  function KeyNameByEntry(idx: nat): (k: string)
    ensures RAFT_PREFIX <= k && ENTRY_PREFIX <= k
    ensures k !in FixedRaftKeys()
  {
    var k := ENTRY_PREFIX + NatToString(idx);
    assert k[6] == 'e';
    k
  }

  /** Reads the index back out of an entry key; None for every other key. */
  function EntryIndexOfKey(k: string): (r: Option<nat>)
    ensures r.Some? ==> ENTRY_PREFIX <= k
  {
    if ENTRY_PREFIX <= k && |k| > |ENTRY_PREFIX| && AllDigits(k[|ENTRY_PREFIX|..])
    then Some(DigitsValue(k[|ENTRY_PREFIX|..]))
    else None
  }

  lemma {:induction false} EntryKeyRoundTrip(idx: nat)
    ensures EntryIndexOfKey(KeyNameByEntry(idx)) == Some(idx)
  {
    var k := KeyNameByEntry(idx);
    assert k[|ENTRY_PREFIX|..] == NatToString(idx);
    DigitsValueOfNatToString(idx);
  }

  lemma {:induction false} EntryKeyInjective(a: nat, b: nat)
    ensures KeyNameByEntry(a) == KeyNameByEntry(b) <==> a == b
  {
    if KeyNameByEntry(a) == KeyNameByEntry(b) {
      EntryKeyRoundTrip(a);
      EntryKeyRoundTrip(b);
    }
  }

  /** All raft keys are distinct from one another and live under "/raft/". */
  lemma {:induction false} RaftKeysDistinct(a: nat, b: nat)
    ensures forall i, j :: 0 <= i < j < |FixedRaftKeys()| ==> FixedRaftKeys()[i] != FixedRaftKeys()[j]
    ensures forall i :: 0 <= i < |FixedRaftKeys()| ==> RAFT_PREFIX <= FixedRaftKeys()[i]
    ensures a != b ==> KeyNameByEntry(a) != KeyNameByEntry(b)
  {
    EntryKeyInjective(a, b);
  }

  // ------------------------------------------------------------- cluster

  /** A '/'-delimited prefix whose first segment is not the raft one, so no
      raft key falls under a cluster scan. */
  function KeyClusterPrefix(): (k: string)
    ensures |k| > 1 && k[0] == '/' && k[|k| - 1] == '/'
    ensures !(RAFT_PREFIX <= k) && !(k <= RAFT_PREFIX) && k[1] != RAFT_PREFIX[1]
  {
    var k := "/clusters/";
    assert k[1] == 'c' && RAFT_PREFIX[1] == 'r';
    assert k[1] != RAFT_PREFIX[1];
    k
  }

  function KeyClusterPrefixByType(clusterType: string): (k: string)
    ensures KeyClusterPrefix() <= k
  {
    KeyClusterPrefix() + clusterType
  }

  function KeyCluster(clusterType: string, clusterName: string): (k: string)
    ensures KeyClusterPrefixByType(clusterType) <= k
    ensures KeyClusterPrefix() <= k
  {
    KeyClusterPrefix() + clusterType + "/" + clusterName
  }

  function KeyNodePrefixAll(): (k: string)
    ensures KeyClusterPrefix() <= k
  {
    "/clusters/node/"
  }

  function KeyNodePrefix(clusterName: string): (k: string)
    ensures KeyNodePrefixAll() <= k
    ensures KeyClusterPrefix() <= k
  {
    KeyNodePrefixAll() + clusterName
  }

  function KeyNode(clusterName: string, nodeId: nat): (k: string)
    ensures KeyNodePrefix(clusterName) <= k
    ensures KeyNodePrefixAll() <= k
  {
    KeyNodePrefix(clusterName) + "/" + NatToString(nodeId)
  }

  /** Within one cluster distinct node ids get distinct keys. */
  lemma {:induction false} NodeKeyInjective(clusterName: string, a: nat, b: nat)
    ensures KeyNode(clusterName, a) == KeyNode(clusterName, b) <==> a == b
  {
    if KeyNode(clusterName, a) == KeyNode(clusterName, b) {
      var n := |KeyNodePrefix(clusterName) + "/"|;
      assert NatToString(a) == KeyNode(clusterName, a)[n..];
      assert NatToString(b) == KeyNode(clusterName, b)[n..];
      NatToStringInjective(a, b);
    }
  }

  /** The node prefix has no trailing '/': the prefix of cluster `c` is also a
      prefix of the node keys of every cluster whose name extends `c`. */
  lemma {:induction false} NodePrefixNotDelimited(c: string, extra: string, nodeId: nat)
    ensures KeyNodePrefix(c) <= KeyNode(c + extra, nodeId)
  {
    assert KeyNode(c + extra, nodeId) == KeyNodePrefix(c) + (extra + "/" + NatToString(nodeId));
  }

  /** Node keys are cluster keys of cluster type "node", so a scan of that cluster
      type sees every node of every cluster. */
  lemma {:induction false} NodeKeyIsClusterKey(clusterName: string, nodeId: nat)
    ensures KeyNode(clusterName, nodeId) == KeyCluster("node", clusterName + "/" + NatToString(nodeId))
    ensures KeyClusterPrefixByType("node") <= KeyNode(clusterName, nodeId)
  {
  }

  function KeyResourceConfig(clusterName: string, resourceKey: string): (k: string)
    ensures "/config/" <= k
  {
    "/config/" + clusterName + "/" + resourceKey
  }

  function KeyResourceIdempotent(clusterName: string, produceId: string, seqNum: nat): (k: string)
    ensures "/idempotent/" + clusterName + "/" <= k
  {
    "/idempotent/" + clusterName + "/" + produceId + "/" + NatToString(seqNum)
  }

  // ------------------------------------------------------------- journal

  function KeyShardPrefix(clusterName: string): (k: string)
    ensures "/journal/shard/" <= k
  {
    "/journal/shard/" + clusterName
  }

  function KeySegmentClusterPrefix(clusterName: string): (k: string)
    ensures "/journal/segment/" <= k
  {
    "/journal/segment/" + clusterName
  }

  function KeySegmentShardPrefix(clusterName: string, shardName: string): (k: string)
    ensures KeySegmentClusterPrefix(clusterName) <= k
  {
    KeySegmentClusterPrefix(clusterName) + "/" + shardName
  }

  function KeySegment(clusterName: string, shardName: string, segmentSeq: nat): (k: string)
    ensures KeySegmentShardPrefix(clusterName, shardName) <= k
    ensures KeySegmentClusterPrefix(clusterName) <= k
  {
    KeySegmentShardPrefix(clusterName, shardName) + "/" + NatToString(segmentSeq)
  }

  /** Shard and segment keys live in disjoint subtrees. */
  lemma {:induction false} ShardAndSegmentDisjoint(c: string, d: string, shard: string, segmentSeq: nat)
    ensures !(KeyShardPrefix(c) <= KeySegment(d, shard, segmentSeq))
  {
    assert KeyShardPrefix(c)[10] != KeySegment(d, shard, segmentSeq)[10];
  }

  // ---------------------------------------------------------------- mqtt

  const MQTT_PREFIX: string := "/mqtt/"

  function MqttUserClusterPrefix(clusterName: string): (k: string)
    ensures MQTT_PREFIX <= k
  {
    "/mqtt/user/" + clusterName
  }

  function MqttUser(clusterName: string, userName: string): (k: string)
    ensures MqttUserClusterPrefix(clusterName) <= k
  {
    MqttUserClusterPrefix(clusterName) + "/" + userName
  }

  function MqttTopicClusterPrefix(clusterName: string): (k: string)
    ensures MQTT_PREFIX <= k
  {
    "/mqtt/topic/" + clusterName
  }

  function MqttTopic(clusterName: string, topicName: string): (k: string)
    ensures MqttTopicClusterPrefix(clusterName) <= k
  {
    MqttTopicClusterPrefix(clusterName) + "/" + topicName
  }

  function MqttSessionClusterPrefix(clusterName: string): (k: string)
    ensures MQTT_PREFIX <= k
  {
    "/mqtt/session/" + clusterName
  }

  function MqttSession(clusterName: string, clientId: string): (k: string)
    ensures MqttSessionClusterPrefix(clusterName) <= k
  {
    MqttSessionClusterPrefix(clusterName) + "/" + clientId
  }

  function MqttLastWillPrefix(clusterName: string): (k: string)
    ensures MQTT_PREFIX <= k
  {
    "/mqtt/lastwill/" + clusterName
  }

  function MqttLastWill(clusterName: string, clientId: string): (k: string)
    ensures MqttLastWillPrefix(clusterName) <= k
  {
    MqttLastWillPrefix(clusterName) + "/" + clientId
  }

  function MqttNodeSubGroupLeader(clusterName: string): (k: string)
    ensures MQTT_PREFIX <= k
  {
    "/mqtt/sub_group_leader/" + clusterName
  }

  function MqttAclPrefix(clusterName: string): (k: string)
    ensures MQTT_PREFIX <= k
  {
    "/mqtt/acl/" + clusterName
  }

  function MqttAcl(clusterName: string, resourceType: string, resourceName: string): (k: string)
    ensures MqttAclPrefix(clusterName) <= k
  {
    MqttAclPrefix(clusterName) + "/" + resourceType + "/" + resourceName
  }

  function MqttBlacklistPrefix(clusterName: string): (k: string)
    ensures MQTT_PREFIX <= k
  {
    "/mqtt/blacklist/" + clusterName
  }

  function MqttBlacklist(clusterName: string, blackListType: string, resourceName: string): (k: string)
    ensures MqttBlacklistPrefix(clusterName) <= k
  {
    MqttBlacklistPrefix(clusterName) + "/" + blackListType + "/" + resourceName
  }
}

=== FILE: kv_proto.dfy ===
/** The messages of the KV gRPC service (`protocol::kv`). Their protobuf
    definitions are not part of this model; the fields are the ones the
    handlers read and write. */
module KvProto {
  import opened Serial

  datatype SetRequest = SetRequest(key: string, value: string)
  datatype DeleteRequest = DeleteRequest(key: string)
  datatype GetRequest = GetRequest(key: string)
  datatype ExistsRequest = ExistsRequest(key: string)

  datatype CommonReply = CommonReply
  datatype GetReply = GetReply(value: string)
  datatype ExistsReply = ExistsReply(flag: bool)

  /** The protobuf default of `GetReply`: an empty value. */
  const DEFAULT_GET_REPLY: GetReply := GetReply("")

  /** The prost codecs of the two write requests. */
  datatype RequestCodecs = RequestCodecs(setRequest: Codec<SetRequest, bytes>, deleteRequest: Codec<DeleteRequest, bytes>)
}

=== FILE: kv_storage.dfy ===
/** `KvStorage`: the string key-value store the KV service reads and the raft
    state machine writes.

    The engine functions it calls (`engine_get_by_cluster`,
    `engine_exists_by_cluster`, `engine_delete_by_cluster`) are not part of
    this model. The engine is taken to be a map from key to slot, where a slot
    holds a `StorageDataWrap` record or is unreadable with some error; the
    engine's answers below follow from that map. */
module KvStorage {
  import opened Wrappers
  import opened Serial
  import opened Errors

  /** The record the engine stores: the payload bytes and the creation time in
      seconds (read from the clock when the record is made). */
  datatype StorageDataWrap = StorageDataWrap(data: bytes, createTime: nat)

  datatype Slot = Stored(wrap: StorageDataWrap) | Unreadable(error: MqError)

  type Engine = map<string, Slot>

  /** The engine's answer to a get. */
  function EngineGet(e: Engine, key: string): (r: Result<Option<StorageDataWrap>, MqError>)
    ensures r == Ok(None) <==> key !in e
  {
    if key !in e then Ok(None)
    else match e[key]
      case Stored(w) => Ok(Some(w))
      case Unreadable(err) => Err(err)
  }

  /** The engine's answer to an existence test. */
  function EngineExists(e: Engine, key: string): (r: Result<bool, MqError>)
    ensures r == Ok(false) <==> key !in e
  {
    if key !in e then Ok(false)
    else match e[key]
      case Stored(_) => Ok(true)
      case Unreadable(err) => Err(err)
  }

  /** The engine's delete: the key's slot is dropped. */
  function EngineDelete(e: Engine, key: string): (r: (Engine, Result<(), MqError>))
    ensures key !in r.0 && r.1 == Ok(())
    ensures forall k :: k != key ==> (k in r.0 <==> k in e) && (k in e ==> r.0[k] == e[k])
  {
    (e - {key}, Ok(()))
  }

  /** `set`, as written: it hands the key to the engine's delete and never
      uses the value, so after it the key holds nothing. */
  function Set(e: Engine, key: string, value: string): (r: (Engine, Result<(), MqError>))
    ensures key !in r.0 && r.1 == Ok(())
    ensures forall k :: k != key ==> (k in r.0 <==> k in e) && (k in e ==> r.0[k] == e[k])
  {
    EngineDelete(e, key)
  }

  /** `get`: nothing when the engine holds no record; the JSON string the
      record's bytes decode to; an error when they do not decode, and the
      engine's own error unchanged. */
  function Get(e: Engine, key: string, json: Codec<string, bytes>): (r: Result<Option<string>, MqError>)
    ensures r == Ok(None) <==> key !in e
    ensures (r.Ok? && r.value.Some?) <==>
      (key in e && e[key].Stored? && json.decode(e[key].wrap.data).Some?)
    ensures r.Ok? && r.value.Some? ==> json.decode(e[key].wrap.data) == Some(r.value.value)
    ensures key in e && e[key].Stored? && json.decode(e[key].wrap.data).None? ==> r == Err(SerdeJsonError)
    ensures key in e && e[key].Unreadable? ==> r == Err(e[key].error)
  {
    match EngineGet(e, key)
    case Ok(Some(w)) =>
      (match json.decode(w.data)
       case Some(s) => Ok(Some(s))
       case None => Err(SerdeJsonError))
    case Ok(None) => Ok(None)
    case Err(err) => Err(err)
  }

  /** `delete`: the engine's delete of the key. */
  function Delete(e: Engine, key: string): (r: (Engine, Result<(), MqError>))
    ensures key !in r.0 && r.1 == Ok(())
    ensures forall k :: k != key ==> (k in r.0 <==> k in e) && (k in e ==> r.0[k] == e[k])
  {
    EngineDelete(e, key)
  }

  /** `exists`: the engine's answer, errors included. */
  function Exists(e: Engine, key: string): (r: Result<bool, MqError>)
    ensures r.Ok? ==> (r.value <==> key in e)
    ensures key in e && e[key].Unreadable? ==> r == Err(e[key].error)
  {
    EngineExists(e, key)
  }

  /** As written, `set` has exactly the effect of `delete`, whatever the value. */
  lemma {:induction false} SetIsDelete(e: Engine, key: string, v1: string, v2: string)
    ensures Set(e, key, v1) == Delete(e, key)
    ensures Set(e, key, v1) == Set(e, key, v2)
  {
  }

  /** As written, a `get` right after `set(key, value)` finds nothing. */
  lemma {:induction false} GetAfterSet(e: Engine, key: string, value: string, json: Codec<string, bytes>)
    ensures Get(Set(e, key, value).0, key, json) == Ok(None)
  {
  }

  /** A `get` after `delete(key)` finds nothing there, and every other key
      answers as before. */
  lemma {:induction false} GetAfterDelete(e: Engine, key: string, other: string, json: Codec<string, bytes>)
    ensures Get(Delete(e, key).0, key, json) == Ok(None)
    ensures other != key ==> Get(Delete(e, key).0, other, json) == Get(e, other, json)
  {
    var e' := Delete(e, key).0;
    if other != key {
      if other in e {
        assert e'[other] == e[other];
      }
    }
  }

  /** `exists` and `get` agree on absence: the key is reported missing by one
      exactly when the other finds no record. */
  lemma {:induction false} ExistsAgreesWithGet(e: Engine, key: string, json: Codec<string, bytes>)
    ensures Exists(e, key) == Ok(false) <==> Get(e, key, json) == Ok(None)
    ensures Exists(e, key) == Ok(true) <==> key in e && e[key].Stored?
  {
  }

  // --------------------------------------------------- intended behaviour

  /** What `set` evidently means to do: store the JSON encoding of `value`
      under `key` in a fresh record created at `createTime`. */
  function Upsert(e: Engine, key: string, value: string, json: Codec<string, bytes>, createTime: nat)
    : (r: (Engine, Result<(), MqError>))
    ensures key in r.0 && r.0[key] == Stored(StorageDataWrap(json.encode(value), createTime))
    ensures r.1 == Ok(())
    ensures forall k :: k != key ==> (k in r.0 <==> k in e) && (k in e ==> r.0[k] == e[k])
  {
    (e[key := Stored(StorageDataWrap(json.encode(value), createTime))], Ok(()))
  }

  /** With the intended `set`, a later `get` of the key returns the value
      written, and other keys answer as before. */
  lemma {:induction false} GetAfterUpsert(e: Engine, key: string, other: string, value: string,
                                          json: Codec<string, bytes>, createTime: nat)
    requires RoundTrips(json)
    ensures Get(Upsert(e, key, value, json, createTime).0, key, json) == Ok(Some(value))
    ensures other != key ==> Get(Upsert(e, key, value, json, createTime).0, other, json) == Get(e, other, json)
  {
    assert json.decode(json.encode(value)) == Some(value);
    var e' := Upsert(e, key, value, json, createTime).0;
    if other != key && other in e {
      assert e'[other] == e[other];
    }
  }
}

=== FILE: lex.dfy ===
/** Key order of the storage engine.

    RocksDB's default comparator orders keys by their bytes; for UTF-8 keys
    that is the lexicographic order of their code points, which is what
    `Less` states on `string`. Prefix scans rely on `PrefixBlock`: the keys
    that start with a prefix form one contiguous run in this order. */
module Lex {

  /** Strict lexicographic order: `a` sorts before `b`. */
  predicate Less(a: string, b: string)
    decreases |a|
  {
    if |a| == 0 then |b| > 0
    else |b| > 0 && (a[0] < b[0] || (a[0] == b[0] && Less(a[1..], b[1..])))
  }

  lemma {:induction false} Irreflexive(a: string)
    ensures !Less(a, a)
    decreases |a|
  {
    if |a| > 0 {
      Irreflexive(a[1..]);
    }
  }

  lemma {:induction false} Asymmetric(a: string, b: string)
    requires Less(a, b)
    ensures !Less(b, a)
    decreases |a|
  {
    if |a| > 0 && a[0] == b[0] {
      Asymmetric(a[1..], b[1..]);
    }
  }

  lemma {:induction false} Transitive(a: string, b: string, c: string)
    requires Less(a, b) && Less(b, c)
    ensures Less(a, c)
    decreases |a|
  {
    if |a| > 0 && a[0] == b[0] && b[0] == c[0] {
      Transitive(a[1..], b[1..], c[1..]);
    }
  }

  lemma {:induction false} Total(a: string, b: string)
    ensures a == b || Less(a, b) || Less(b, a)
    decreases |a|
  {
    if |a| > 0 && |b| > 0 && a[0] == b[0] {
      Total(a[1..], b[1..]);
      if a[1..] == b[1..] {
        assert a == [a[0]] + a[1..] && b == [b[0]] + b[1..];
      }
    }
  }

  /** A key that starts with `p` does not sort before `p`: seeking to `p`
      never skips a key with that prefix. */
  lemma {:induction false} PrefixNotBelow(k: string, p: string)
    requires p <= k
    ensures !Less(k, p)
    decreases |p|
  {
    if |p| > 0 {
      PrefixNotBelow(k[1..], p[1..]);
    }
  }

  /** Keys with prefix `p` are contiguous: if `p <= a <= b` in key order and
      `b` starts with `p`, so does `a`. */
  lemma {:induction false} PrefixBlock(p: string, a: string, b: string)
    requires !Less(a, p)
    requires a == b || Less(a, b)
    requires p <= b
    ensures p <= a
    decreases |p|
  {
    if |p| > 0 {
      assert |a| > 0;
      assert a[0] == p[0];
      if a != b {
        PrefixBlock(p[1..], a[1..], b[1..]);
      }
      assert a == [a[0]] + a[1..];
    }
  }
}

=== FILE: maps.dfy ===
/** Maps built from sequences of key-value pairs. */
module Maps {

  /** A map built by inserting each pair in turn, so a later pair with the
      same key replaces an earlier one (a loop of `HashMap::insert` or
      `BTreeMap::insert`). */
  function InsertAll<K, V>(pairs: seq<(K, V)>): map<K, V>
    decreases |pairs|
  {
    if |pairs| == 0 then map[]
    else InsertAll(pairs[..|pairs| - 1])[pairs[|pairs| - 1].0 := pairs[|pairs| - 1].1]
  }

  /** Every inserted key is present; every key maps to a value inserted under
      it; and a pair not overridden by a later pair with the same key is the
      one kept. */
  lemma {:induction false} InsertAllContents<K, V>(pairs: seq<(K, V)>)
    ensures forall i :: 0 <= i < |pairs| ==> pairs[i].0 in InsertAll(pairs)
    ensures forall k :: k in InsertAll(pairs) ==>
      exists i :: 0 <= i < |pairs| && pairs[i] == (k, InsertAll(pairs)[k])
    ensures forall i :: 0 <= i < |pairs| && (forall j :: i < j < |pairs| ==> pairs[j].0 != pairs[i].0) ==>
      InsertAll(pairs)[pairs[i].0] == pairs[i].1
    decreases |pairs|
  {
    if |pairs| > 0 {
      var init := pairs[..|pairs| - 1];
      var last := pairs[|pairs| - 1];
      InsertAllContents(init);
      var rest := InsertAll(init);
      var m := InsertAll(pairs);
      assert m == rest[last.0 := last.1];
      forall i | 0 <= i < |pairs| ensures pairs[i].0 in m {
        if i < |init| { assert pairs[i] == init[i]; }
      }
      forall k | k in m ensures exists i :: 0 <= i < |pairs| && pairs[i] == (k, m[k]) {
        if k == last.0 {
          assert pairs[|pairs| - 1] == (k, m[k]);
        } else {
          var j :| 0 <= j < |init| && init[j] == (k, rest[k]);
          assert pairs[j] == init[j];
        }
      }
      forall i | 0 <= i < |pairs| && (forall j :: i < j < |pairs| ==> pairs[j].0 != pairs[i].0)
        ensures m[pairs[i].0] == pairs[i].1
      {
        if i < |init| {
          assert pairs[i] == init[i];
          assert forall j :: i < j < |init| ==> init[j] == pairs[j];
          assert pairs[|pairs| - 1].0 != pairs[i].0;
        }
      }
    }
  }
}

=== FILE: metadata.dfy ===
/** `RaftGroupMetadata`: the placement center's cache of the raft group it
    belongs to -- its own node, the known leader, its role and state, and the
    peer table. Mutating methods are functions from the old record to the new. */
module Metadata {
  import opened Wrappers
  import opened Strings
  import Common
  import opened Maps

  /** `raft::StateRole`. */
  datatype StateRole = Follower | Candidate | Leader | PreCandidate

  /** `NodeState`; `Running` is its default. */
  datatype NodeState = Running | Starting | Stopping | Stop

  /** `BrokerNode` (`create_time` is a `u128`, kept unbounded here). */
  datatype BrokerNode = BrokerNode(
    clusterName: string, clusterType: string, nodeId: nat, nodeIp: string,
    nodeInnerAddr: string, extend: string, createTime: nat)

  const DEFAULT_BROKER_NODE: BrokerNode := BrokerNode("", "", 0, "", "", "", 0)

  datatype RaftGroupMetadata = RaftGroupMetadata(
    local: BrokerNode, leader: Option<BrokerNode>, state: NodeState,
    raftRole: StateRole, peers: map<nat, BrokerNode>)

  /** A value of the TOML table the configuration lists its nodes in: a string,
      or any other TOML value (kept as its rendering). */
  datatype TomlValue = TomlString(s: string) | TomlOther(rendered: string)

  /** `to_string` of a TOML value: a string renders as a quoted TOML string. */
  function Render(v: TomlValue): (r: string)
    ensures v.TomlString? ==> |r| == |v.s| + 2 && r[0] == '"' && r[|r| - 1] == '"' && r[1..|r| - 1] == v.s
  {
    match v
    case TomlString(s) => "\"" + s + "\""
    case TomlOther(t) => t
  }

  /** The configuration fields the metadata is built from. `nodes` is the
      `[nodes]` table in iteration order: node id (as written) to address. */
  datatype PlacementCenterConfig = PlacementCenterConfig(
    clusterName: string, addr: string, grpcPort: nat, nodeId: nat,
    nodes: seq<(string, TomlValue)>)

  /** A configured node `new` accepts: the address is a TOML string holding a
      ':' and the id parses as a `u64` once trimmed (otherwise `unwrap` aborts). */
  predicate WellFormedNode(entry: (string, TomlValue)) {
    entry.1.TomlString? && ':' in entry.1.s && ParseU64(Trim(entry.0)).Some?
  }

  /** The peer id of a configured node. */
  function ConfiguredId(entry: (string, TomlValue)): nat
    requires WellFormedNode(entry)
  {
    ParseU64(Trim(entry.0)).value
  }

  /** The peer `new` builds for one configured node: its IP is the text before
      the first ':' of the address and its inner address is the TOML rendering
      of the address value, quotes included. */
  function ConfiguredNode(clusterName: string, entry: (string, TomlValue)): (n: BrokerNode)
    requires WellFormedNode(entry)
    ensures n.nodeIp + ":" <= entry.1.s && ':' !in n.nodeIp
    ensures n.nodeInnerAddr == "\"" + entry.1.s + "\""
    ensures n.nodeId == ConfiguredId(entry) && n.clusterName == clusterName
    ensures n.clusterType == Common.AsStrName(Common.PlacementCenter)
  {
    var (ip, _) := SplitOnce(entry.1.s, ':').value;
    assert ip + ":" <= entry.1.s by {
      assert entry.1.s == ip + [':'] + SplitOnce(entry.1.s, ':').value.1;
    }
    DEFAULT_BROKER_NODE.(
      clusterType := Common.AsStrName(Common.PlacementCenter),
      clusterName := clusterName,
      nodeInnerAddr := Render(entry.1),
      nodeIp := ip,
      nodeId := ConfiguredId(entry))
  }

  /** The configured nodes as (peer id, peer) pairs, in configuration order. */
  function ConfiguredPeers(clusterName: string, nodes: seq<(string, TomlValue)>): (pairs: seq<(nat, BrokerNode)>)
    requires forall i :: 0 <= i < |nodes| ==> WellFormedNode(nodes[i])
    ensures |pairs| == |nodes|
    ensures forall i :: 0 <= i < |nodes| ==>
      pairs[i] == (ConfiguredId(nodes[i]), ConfiguredNode(clusterName, nodes[i]))
  {
    seq(|nodes|, i requires 0 <= i < |nodes| => (ConfiguredId(nodes[i]), ConfiguredNode(clusterName, nodes[i])))
  }

  /** The peer table the loop of `new` builds: an entry for every configured
      id, and each entry is the node of a configured entry with that id; a
      later entry with the same id replaces an earlier one. */
  function PeerTable(clusterName: string, nodes: seq<(string, TomlValue)>): (peers: map<nat, BrokerNode>)
    requires forall i :: 0 <= i < |nodes| ==> WellFormedNode(nodes[i])
    ensures forall i :: 0 <= i < |nodes| ==> ConfiguredId(nodes[i]) in peers
    ensures forall id :: id in peers ==>
      exists i :: 0 <= i < |nodes| && ConfiguredId(nodes[i]) == id && peers[id] == ConfiguredNode(clusterName, nodes[i])
    ensures forall i :: 0 <= i < |nodes| && (forall j :: i < j < |nodes| ==> ConfiguredId(nodes[j]) != ConfiguredId(nodes[i])) ==>
      peers[ConfiguredId(nodes[i])] == ConfiguredNode(clusterName, nodes[i])
  {
    ConfiguredPeersCover(clusterName, nodes);
    ConfiguredPeersLastWins(clusterName, nodes);
    InsertAll(ConfiguredPeers(clusterName, nodes))
  }

  /** The insert loop gives an entry to every configured id, and only the
      node of a configured entry with that id. */
  lemma {:induction false} ConfiguredPeersCover(clusterName: string, nodes: seq<(string, TomlValue)>)
    requires forall i :: 0 <= i < |nodes| ==> WellFormedNode(nodes[i])
    ensures forall i :: 0 <= i < |nodes| ==> ConfiguredId(nodes[i]) in InsertAll(ConfiguredPeers(clusterName, nodes))
    ensures forall id :: id in InsertAll(ConfiguredPeers(clusterName, nodes)) ==>
      exists i :: 0 <= i < |nodes| && ConfiguredId(nodes[i]) == id &&
        InsertAll(ConfiguredPeers(clusterName, nodes))[id] == ConfiguredNode(clusterName, nodes[i])
  {
    var pairs := ConfiguredPeers(clusterName, nodes);
    InsertAllContents(pairs);
    var peers := InsertAll(pairs);
    forall id | id in peers
      ensures exists i :: 0 <= i < |nodes| && ConfiguredId(nodes[i]) == id && peers[id] == ConfiguredNode(clusterName, nodes[i])
    {
      var i :| 0 <= i < |pairs| && pairs[i] == (id, peers[id]);
      assert ConfiguredId(nodes[i]) == id && peers[id] == ConfiguredNode(clusterName, nodes[i]);
    }
    forall i | 0 <= i < |nodes|
      ensures ConfiguredId(nodes[i]) in peers
    {
      assert pairs[i].0 == ConfiguredId(nodes[i]);
    }
  }

  /** The insert loop keeps an entry that no later entry overrides. */
  lemma {:induction false} ConfiguredPeersLastWins(clusterName: string, nodes: seq<(string, TomlValue)>)
    requires forall k :: 0 <= k < |nodes| ==> WellFormedNode(nodes[k])
    ensures forall i :: 0 <= i < |nodes| && (forall j :: i < j < |nodes| ==> ConfiguredId(nodes[j]) != ConfiguredId(nodes[i])) ==>
      ConfiguredId(nodes[i]) in InsertAll(ConfiguredPeers(clusterName, nodes)) &&
      InsertAll(ConfiguredPeers(clusterName, nodes))[ConfiguredId(nodes[i])] == ConfiguredNode(clusterName, nodes[i])
  {
    var pairs := ConfiguredPeers(clusterName, nodes);
    InsertAllContents(pairs);
    forall i | 0 <= i < |nodes| && (forall j :: i < j < |nodes| ==> ConfiguredId(nodes[j]) != ConfiguredId(nodes[i]))
      ensures ConfiguredId(nodes[i]) in InsertAll(pairs) && InsertAll(pairs)[ConfiguredId(nodes[i])] == ConfiguredNode(clusterName, nodes[i])
    {
      forall j | i < j < |pairs| ensures pairs[j].0 != pairs[i].0 {
        assert pairs[j].0 == ConfiguredId(nodes[j]);
      }
    }
  }


  /** The local node `new` describes from the configuration. */
  function LocalNode(config: PlacementCenterConfig): (local: BrokerNode)
    ensures local.nodeId == config.nodeId && local.nodeIp == config.addr
    ensures local.nodeInnerAddr == config.addr + ":" + NatToString(config.grpcPort)
    ensures local.clusterName == config.clusterName
    ensures local.clusterType == Common.AsStrName(Common.PlacementCenter)
  {
    DEFAULT_BROKER_NODE.(
      clusterType := Common.AsStrName(Common.PlacementCenter),
      clusterName := config.clusterName,
      nodeInnerAddr := config.addr + ":" + NatToString(config.grpcPort),
      nodeIp := config.addr,
      nodeId := config.nodeId)
  }

  /** `new`, with the configuration passed in: the local node from the
      configuration, one peer per configured node, no leader, role follower,
      state starting. */
  function New(config: PlacementCenterConfig): (md: RaftGroupMetadata)
    requires forall i :: 0 <= i < |config.nodes| ==> WellFormedNode(config.nodes[i])
    ensures md.leader.None? && md.raftRole == Follower && md.state == Starting
    ensures md.local.nodeId == config.nodeId && md.local.nodeIp == config.addr
    ensures md.local.nodeInnerAddr == config.addr + ":" + NatToString(config.grpcPort)
    ensures md.local.clusterName == config.clusterName
    ensures md.local.clusterType == Common.AsStrName(Common.PlacementCenter)
    ensures forall i :: 0 <= i < |config.nodes| ==> ConfiguredId(config.nodes[i]) in md.peers
    ensures forall id :: id in md.peers ==>
      exists i :: 0 <= i < |config.nodes| && ConfiguredId(config.nodes[i]) == id &&
                  md.peers[id] == ConfiguredNode(config.clusterName, config.nodes[i])
  {
    RaftGroupMetadata(LocalNode(config), None, Starting, Follower, PeerTable(config.clusterName, config.nodes))
  }

  /** `get_node_by_id`. */
  function GetNodeById(md: RaftGroupMetadata, id: nat): (r: Option<BrokerNode>)
    ensures r.Some? <==> id in md.peers
    ensures r.Some? ==> r.value == md.peers[id]
  {
    if id in md.peers then Some(md.peers[id]) else None
  }

  /** `add_peer`: `id` now maps to `node`, replacing any earlier node. */
  function AddPeer(md: RaftGroupMetadata, id: nat, node: BrokerNode): (r: RaftGroupMetadata)
    ensures GetNodeById(r, id) == Some(node)
    ensures forall other :: other != id ==> GetNodeById(r, other) == GetNodeById(md, other)
    ensures r.local == md.local && r.leader == md.leader && r.state == md.state && r.raftRole == md.raftRole
  {
    md.(peers := md.peers[id := node])
  }

  /** `remove_peer`: `id` no longer maps to a node. */
  function RemovePeer(md: RaftGroupMetadata, id: nat): (r: RaftGroupMetadata)
    ensures GetNodeById(r, id).None?
    ensures forall other :: other != id ==> GetNodeById(r, other) == GetNodeById(md, other)
    ensures r.local == md.local && r.leader == md.leader && r.state == md.state && r.raftRole == md.raftRole
  {
    md.(peers := md.peers - {id})
  }

  /** Removing an id that is not a peer changes nothing, and removing a peer
      just added leaves the table as it was without that id. */
  lemma {:induction false} RemovePeerEffects(md: RaftGroupMetadata, id: nat, node: BrokerNode)
    ensures id !in md.peers ==> RemovePeer(md, id) == md
    ensures RemovePeer(AddPeer(md, id, node), id) == RemovePeer(md, id)
  {
    if id !in md.peers {
      assert md.peers - {id} == md.peers;
    }
    assert (md.peers[id := node]) - {id} == md.peers - {id};
  }

  /** `is_leader`: only the Leader role counts; a candidate or pre-candidate
      still campaigning is not leader. */
  predicate IsLeader(md: RaftGroupMetadata): (b: bool)
    ensures b ==> md.raftRole != Follower && md.raftRole != Candidate && md.raftRole != PreCandidate
    ensures md.raftRole == Leader ==> b
  {
    md.raftRole == Leader
  }

  /** `set_role`: only the role changes. */
  function SetRole(md: RaftGroupMetadata, role: StateRole): (r: RaftGroupMetadata)
    ensures r.raftRole == role
    ensures r.local == md.local && r.leader == md.leader && r.state == md.state && r.peers == md.peers
  {
    md.(raftRole := role)
  }

  /** After `set_role(role)` the node is leader exactly when `role` is `Leader`. */
  lemma {:induction false} SetRoleLeadership(md: RaftGroupMetadata, role: StateRole)
    ensures IsLeader(SetRole(md, role)) <==> role == Leader
    ensures SetRole(SetRole(md, role), md.raftRole) == md
  {
  }

  /** `leader_addr`: the leader's inner address, or "" when no leader is known. */
  function LeaderAddr(md: RaftGroupMetadata): (r: string)
    ensures md.leader.Some? ==> r == md.leader.value.nodeInnerAddr
    ensures md.leader.None? ==> r == ""
  {
    match md.leader
    case Some(l) => l.nodeInnerAddr
    case None => ""
  }

  /** `leader_alive`. */
  function LeaderAlive(md: RaftGroupMetadata): (r: bool)
    ensures r <==> md.leader.Some?
  {
    match md.leader
    case Some(_) => true
    case None => false
  }

  /** A freshly built group is not led by this node and knows no leader
      address. */
  lemma {:induction false} NewIsFollower(config: PlacementCenterConfig)
    requires forall i :: 0 <= i < |config.nodes| ==> WellFormedNode(config.nodes[i])
    ensures !IsLeader(New(config)) && LeaderAddr(New(config)) == "" && !LeaderAlive(New(config))
  {
  }

  /** `node_ids`: every peer id, each exactly once (in the table's iteration
      order, which is not specified). */
  method NodeIds(md: RaftGroupMetadata) returns (ids: seq<nat>)
    ensures forall id :: id in ids <==> id in md.peers
    ensures forall i, j :: 0 <= i < j < |ids| ==> ids[i] != ids[j]
  {
    ids := [];
    var rest := md.peers.Keys;
    while rest != {}
      invariant rest <= md.peers.Keys
      invariant forall id :: id in ids <==> id in md.peers && id !in rest
      invariant forall i, j :: 0 <= i < j < |ids| ==> ids[i] != ids[j]
      decreases |rest|
    {
      var id :| id in rest;
      ids := ids + [id];
      rest := rest - {id};
    }
  }
}

=== FILE: raft_node.dfy ===
/** The openraft node of the placement center: the `Node` record raft
    members are described by, its `Display` rendering, the member table built
    from the configuration at startup, and the choice of the one node that
    initializes the cluster. */
module RaftNode {
  import opened Wrappers
  import opened Ints
  import opened Strings
  import opened Maps
  import Metadata

  datatype Node = Node(nodeId: u64, rpcAddr: string)

  const DISPLAY_PREFIX: string := "Node { rpc_addr: "
  const DISPLAY_MIDDLE: string := ", node_id: "
  const DISPLAY_SUFFIX: string := ", }"

  /** `Display for Node`: the address verbatim, then the id in decimal. */
  function Display(n: Node): (s: string)
    ensures |s| == |DISPLAY_PREFIX| + |n.rpcAddr| + |DISPLAY_MIDDLE| + |NatToString(n.nodeId)| + |DISPLAY_SUFFIX|
    ensures DISPLAY_PREFIX <= s
    ensures s[|s| - |DISPLAY_SUFFIX|..] == DISPLAY_SUFFIX
    ensures s[|DISPLAY_PREFIX|..|s| - |DISPLAY_SUFFIX|] == n.rpcAddr + DISPLAY_MIDDLE + NatToString(n.nodeId)
  {
    var s := DISPLAY_PREFIX + n.rpcAddr + DISPLAY_MIDDLE + NatToString(n.nodeId) + DISPLAY_SUFFIX;
    assert s == DISPLAY_PREFIX + (n.rpcAddr + DISPLAY_MIDDLE + NatToString(n.nodeId)) + DISPLAY_SUFFIX;
    s
  }

  /** `x ++ ", node_id: " ++ d` with `d` all digits splits only one way: the
      separator ends in a space, so `d` is the longest run of digits at the end. */
  lemma {:induction false} DigitTailUnique(x: string, d: string, y: string, e: string)
    requires AllDigits(d) && AllDigits(e)
    requires x + DISPLAY_MIDDLE + d == y + DISPLAY_MIDDLE + e
    ensures x == y && d == e
  {
    var m := x + DISPLAY_MIDDLE + d;
    assert m[|m| - |d| - 1] == ' ' && m[|m| - |e| - 1] == ' ';
    assert forall j :: |m| - |e| <= j < |m| ==> IsDigit(m[j]) by {
      assert m == y + DISPLAY_MIDDLE + e;
    }
    assert forall j :: |m| - |d| <= j < |m| ==> IsDigit(m[j]);
    assert d == m[|m| - |d|..] == e;
    assert x == m[..|x|] == y;
  }

  /** Different nodes render differently, whatever their addresses hold. */
  lemma {:induction false} DisplayInjective(a: Node, b: Node)
    ensures Display(a) == Display(b) <==> a == b
  {
    if Display(a) == Display(b) {
      var s := Display(a);
      DigitTailUnique(a.rpcAddr, NatToString(a.nodeId), b.rpcAddr, NatToString(b.nodeId));
      NatToStringInjective(a.nodeId, b.nodeId);
    }
  }

  // ----------------------------------------------------------- startup table

  /** The address startup gives a configured node: the TOML value's
      rendering with every '"' removed. */
  function StartupAddr(v: Metadata.TomlValue): (a: string)
    ensures '"' !in a
  {
    RemoveAll(Metadata.Render(v), '"')
  }

  lemma {:induction false} RemoveAllTrailing(s: string, c: char)
    requires c !in s
    ensures RemoveAll(s + [c], c) == s
    decreases |s|
  {
    if |s| > 0 {
      assert (s + [c])[1..] == s[1..] + [c];
      RemoveAllTrailing(s[1..], c);
    }
  }

  /** A configured address without quotes of its own comes out as written,
      where the metadata peer table keeps the surrounding quotes. */
  lemma {:induction false} StartupAddrUnquotes(s: string)
    requires '"' !in s
    ensures StartupAddr(Metadata.TomlString(s)) == s
    ensures Metadata.Render(Metadata.TomlString(s)) == "\"" + s + "\""
  {
    var r := Metadata.Render(Metadata.TomlString(s));
    assert r[1..] == s + ['"'];
    RemoveAllTrailing(s, '"');
  }

  /** Startup parses a configured node id as written, without trimming
      (a failure aborts). */
  predicate ParsableId(entry: (string, Metadata.TomlValue)) {
    ParseU64(entry.0).Some?
  }

  /** A configured id with surrounding blanks is accepted by the metadata
      peer table but aborts startup. */
  lemma {:induction false} StartupDoesNotTrim()
    ensures Metadata.WellFormedNode((" 1", Metadata.TomlString("a:1")))
    ensures !ParsableId((" 1", Metadata.TomlString("a:1")))
  {
    assert TrimStart(" 1") == "1";
    assert Trim(" 1") == "1";
    assert AllDigits("1");
    assert DigitsValue("1") == 1;
  }

  function StartupNode(entry: (string, Metadata.TomlValue)): (n: Node)
    requires ParsableId(entry)
  {
    Node(ParseU64(entry.0).value, StartupAddr(entry.1))
  }

  /** The configured nodes as (id, node) pairs, in configuration order. */
  function StartupPairs(nodes: seq<(string, Metadata.TomlValue)>): (pairs: seq<(u64, Node)>)
    requires forall i :: 0 <= i < |nodes| ==> ParsableId(nodes[i])
    ensures |pairs| == |nodes|
    ensures forall i :: 0 <= i < |nodes| ==> pairs[i] == (StartupNode(nodes[i]).nodeId, StartupNode(nodes[i]))
  {
    seq(|nodes|, i requires 0 <= i < |nodes| => (StartupNode(nodes[i]).nodeId, StartupNode(nodes[i])))
  }

  /** The member table of `start_openraft_node`: each node keyed by its own
      id, with quotes removed from its address; a later node with the same id
      replaces an earlier one. */
  function StartupNodes(nodes: seq<(string, Metadata.TomlValue)>): (table: map<u64, Node>)
    requires forall i :: 0 <= i < |nodes| ==> ParsableId(nodes[i])
    ensures forall i :: 0 <= i < |nodes| ==> StartupNode(nodes[i]).nodeId in table
    ensures forall id :: id in table ==> table[id].nodeId == id && '"' !in table[id].rpcAddr
    ensures forall id :: id in table ==> exists i :: 0 <= i < |nodes| && table[id] == StartupNode(nodes[i])
    ensures forall i :: 0 <= i < |nodes| && (forall j :: i < j < |nodes| ==> StartupNode(nodes[j]).nodeId != StartupNode(nodes[i]).nodeId) ==>
      table[StartupNode(nodes[i]).nodeId] == StartupNode(nodes[i])
  {
    var pairs := StartupPairs(nodes);
    InsertAllContents(pairs);
    InsertAll(pairs)
  }

  // ------------------------------------------------------- initial node

  /** `id` is the smallest key of the table. */
  predicate IsSmallestKey(nodes: map<u64, Node>, id: u64) {
    id in nodes && forall k :: k in nodes ==> id <= k
  }

  /** `calc_init_node`: the smallest node id, whatever the nodes hold; an
      empty table aborts. */
  method CalcInitNode(nodes: map<u64, Node>) returns (id: u64)
    requires nodes.Keys != {}
    ensures IsSmallestKey(nodes, id)
  {
    var rest := nodes.Keys;
    id :| id in rest;
    rest := rest - {id};
    while rest != {}
      invariant rest <= nodes.Keys && id in nodes
      invariant forall k :: k in nodes && k !in rest ==> id <= k
      decreases |rest|
    {
      var k :| k in rest;
      if k < id {
        id := k;
      }
      rest := rest - {k};
    }
  }

  /** A table has at most one smallest key, so the choice depends on the ids
      alone. */
  lemma {:induction false} SmallestKeyUnique(m1: map<u64, Node>, m2: map<u64, Node>, a: u64, b: u64)
    requires m1.Keys == m2.Keys
    requires IsSmallestKey(m1, a) && IsSmallestKey(m2, b)
    ensures a == b
  {
    assert b in m1 && a in m2;
  }

  /** What startup does. */
  datatype Startup = Skipped | Initialized(members: map<u64, Node>) | Panicked(message: string)

  /** `start_openraft_node`, with raft's answers as parameters: only the node
      whose id is the smallest configured id asks whether raft is initialized,
      and initializes it with the whole table when it is not. A failure of
      either call aborts with a message. */
  method StartOpenraftNode(confNodes: seq<(string, Metadata.TomlValue)>, confNodeId: u64,
                           isInitialized: Result<bool, string>, initialize: Result<(), string>)
    returns (outcome: Startup)
    requires forall i :: 0 <= i < |confNodes| ==> ParsableId(confNodes[i])
    requires |confNodes| > 0
    ensures IsSmallestKey(StartupNodes(confNodes), confNodeId) ==>
      (outcome.Initialized? <==> isInitialized == Ok(false) && initialize.Ok?) &&
      (outcome.Skipped? <==> isInitialized == Ok(true)) &&
      (isInitialized.Err? ==> outcome == Panicked("openraft initialized fail," + isInitialized.error)) &&
      (isInitialized == Ok(false) && initialize.Err? ==> outcome == Panicked("openraft init fail," + initialize.error))
    ensures !IsSmallestKey(StartupNodes(confNodes), confNodeId) ==> outcome == Skipped
    ensures outcome.Initialized? ==> outcome.members == StartupNodes(confNodes)
  {
    var nodes := StartupNodes(confNodes);
    assert StartupNode(confNodes[0]).nodeId in nodes;
    var initNodeId := CalcInitNode(nodes);
    if initNodeId == confNodeId {
      match isInitialized {
        case Ok(flag) =>
          if !flag {
            match initialize {
              case Ok(_) => outcome := Initialized(nodes);
              case Err(e) => outcome := Panicked("openraft init fail," + e);
            }
          } else {
            outcome := Skipped;
          }
        case Err(e) => outcome := Panicked("openraft initialized fail," + e);
      }
    } else {
      if IsSmallestKey(nodes, confNodeId) {
        SmallestKeyUnique(nodes, nodes, initNodeId, confNodeId);
      }
      outcome := Skipped;
    }
  }
}

=== FILE: raft_snapshot.dfy ===
/** Snapshots of `RaftMachineStorage`: creating one from the whole column family,
    reading it back, and installing one by replaying its dump over the store.

    The dump is the bincode encoding of `read_all`'s result. Installing it walks
    the decoded hash maps, whose iteration order Rust leaves unspecified; the
    model fixes one order by choice (`:|`), which is why the restoring functions
    are ghost. Every property proved below holds whatever order is chosen. */
module RaftSnapshot {
  import opened Wrappers
  import opened Serial
  import opened RocksDb
  import opened RaftStorage

  function Max(a: nat, b: nat): (m: nat)
    ensures m >= a && m >= b && (m == a || m == b)
  {
    if a >= b then a else b
  }

  // ------------------------------------------------------------ restoring

  /** The value the last map of `rows` that holds `k` gives it: the value a
      front-to-back replay of `rows` leaves under `k`. */
  function LastValue(rows: seq<map<string, string>>, k: string): (r: Option<string>)
    ensures r.None? <==> forall i :: 0 <= i < |rows| ==> k !in rows[i]
    ensures r.Some? ==> exists i :: 0 <= i < |rows| && k in rows[i] && rows[i][k] == r.value
  {
    if |rows| == 0 then None
    else if k in rows[|rows| - 1] then Some(rows[|rows| - 1][k])
    else
      var rest := LastValue(rows[..|rows| - 1], k);
      assert forall i :: 0 <= i < |rows| - 1 ==> rows[..|rows| - 1][i] == rows[i];
      rest
  }

  /** The inner loop of `write_all`: `write_str` of every pair of one map. */
  ghost function PutAll(db: Column, m: map<string, string>): (r: Column)
    ensures forall k :: Get(r, k) == if k in m then Some(Text(m[k])) else Get(db, k)
    decreases m.Keys
  {
    if m.Keys == {} then db
    else
      var k :| k in m.Keys;
      PutAll(WriteStr(db, k, m[k]), m - {k})
  }

  /** The middle loop of `write_all`: every map of one family's list, in order. */
  ghost function RestoreRows(db: Column, rows: seq<map<string, string>>): (r: Column)
    ensures forall k :: Get(r, k) == match LastValue(rows, k)
                                     case Some(v) => Some(Text(v))
                                     case None => Get(db, k)
  {
    if |rows| == 0 then db
    else PutAll(RestoreRows(db, rows[..|rows| - 1]), rows[|rows| - 1])
  }

  /** The outer loop of `write_all`: every family of the dump, in some order. */
  ghost function RestoreFamilies(db: Column, dump: Dump): (r: Column)
    ensures forall k :: (forall fam :: fam in dump ==> LastValue(dump[fam], k).None?) ==> Get(r, k) == Get(db, k)
    decreases dump.Keys
  {
    if dump.Keys == {} then db
    else
      var fam :| fam in dump.Keys;
      RestoreFamilies(RestoreRows(db, dump[fam]), dump - {fam})
  }

  /** `write_all`: empty data and data that does not decode are ignored (the
      failure is only logged); otherwise every key/value of the dump is
      written over the store as raw text. Nothing is deleted. */
  ghost function WriteAll(f: Formats, db: Column, data: bytes): (r: Column)
    ensures |data| == 0 || f.dumpBin.decode(data).None? ==> r == db
    ensures forall k ::
      (f.dumpBin.decode(data).Some? &&
       forall fam :: fam in f.dumpBin.decode(data).value ==> LastValue(f.dumpBin.decode(data).value[fam], k).None?)
      ==> Get(r, k) == Get(db, k)
  {
    if |data| == 0 then db
    else
      match f.dumpBin.decode(data)
      case None => db
      case Some(dump) => RestoreFamilies(db, dump)
  }

  /** A value the replay of `read_all_by_cf`'s rows leaves under `k` is the
      text stored under `k`. */
  lemma {:induction false} LastValueIsStored(src: Column, k: string, v: string)
    requires LastValue(ReadAllByCf(src), k) == Some(v)
    ensures Get(src, k) == Some(Text(v))
  {
    var rows := ReadAllByCf(src);
    var j :| 0 <= j < |rows| && k in rows[j] && rows[j][k] == v;
    ReadAllByCfExact(src, k, v);
    assert rows[j] == map[k := v];
  }

  /** Replaying the rows `read_all_by_cf` listed for `src` puts each of its text
      values back under its key. */
  lemma {:induction false} LastValueOfDump(src: Column, k: string)
    ensures LastValue(ReadAllByCf(src), k) == if Get(src, k).Some? && Get(src, k).value.Text?
                                              then Some(Get(src, k).value.text) else None
  {
    var rows := ReadAllByCf(src);
    if Get(src, k).Some? && Get(src, k).value.Text? {
      var t := Get(src, k).value.text;
      ReadAllByCfExact(src, k, t);
      var i :| 0 <= i < |rows| && rows[i] == map[k := t];
      assert k in rows[i];
      LastValueIsStored(src, k, LastValue(rows, k).value);
    } else if LastValue(rows, k).Some? {
      LastValueIsStored(src, k, LastValue(rows, k).value);
      assert false;
    }
  }

  /** Writing back the dump of a column family restores every text value it
      held and leaves the other keys of the target as they were. */
  lemma {:induction false} RestoreOwnDump(f: Formats, db: Column, src: Column, k: string)
    requires Lawful(f)
    ensures Get(WriteAll(f, db, f.dumpBin.encode(ReadAll(src))), k) ==
      if Get(src, k).Some? && Get(src, k).value.Text? then Get(src, k) else Get(db, k)
  {
    var dump := ReadAll(src);
    assert f.dumpBin.decode(f.dumpBin.encode(dump)) == Some(dump);
    assert |f.dumpBin.encode(dump)| > 0;
    var rows := ReadAllByCf(src);
    assert dump.Keys == {DB_COLUMN_FAMILY_CLUSTER};
    var fam :| fam in dump.Keys;
    assert fam == DB_COLUMN_FAMILY_CLUSTER;
    var rest := dump - {fam};
    assert rest.Keys == {};
    var restored := RestoreRows(db, rows);
    assert RestoreFamilies(db, dump) == RestoreFamilies(restored, rest);
    assert RestoreFamilies(restored, rest) == restored;
    LastValueOfDump(src, k);
  }

  // -------------------------------------------------------------- create

  /** `create_snapshot`: builds metadata from the hard and configuration
      states, dumps the whole column family as the data, moves the first-index
      marker to the snapshot index, saves the snapshot and remembers its
      metadata. */
  function CreateSnapshot(f: Formats, s: Storage): (r: Storage)
    requires HardStateReadable(f, s.db) && ConfStateReadable(f, s.db)
    ensures r.snapshotMetadata == CreateSnapshotMetadata(f, s.db) && r.uncommitIndex == s.uncommitIndex
    ensures Get(r.db, FirstIndexKey()) == Some(Text(f.u64Json.encode(r.snapshotMetadata.index)))
    ensures Get(r.db, SnapshotKey()) ==
      Some(Text(f.bytesJson.encode(f.snapshotProto.encode(Snapshot(f.dumpBin.encode(ReadAll(s.db)), r.snapshotMetadata)))))
    ensures forall k :: k != FirstIndexKey() && k != SnapshotKey() ==> Get(r.db, k) == Get(s.db, k)
  {
    var meta := CreateSnapshotMetadata(f, s.db);
    var sns := Snapshot(f.dumpBin.encode(ReadAll(s.db)), meta);
    var db1 := SaveFirstIndex(f, s.db, meta.index);
    var db2 := Write(db1, SnapshotKey(), f.snapshotProto.encode(sns), f.bytesJson);
    s.(db := db2, snapshotMetadata := meta)
  }

  /** The snapshot `create_snapshot` saves for `s`. */
  function CreatedSnapshot(f: Formats, s: Storage): (snap: Snapshot)
    requires HardStateReadable(f, s.db) && ConfStateReadable(f, s.db)
    ensures snap.metadata.index == HardStateOf(f, s.db).commit && snap.metadata.term == HardStateOf(f, s.db).term
    ensures snap.metadata.confState == ConfStateOf(f, s.db)
    ensures RoundTrips(f.dumpBin) ==> f.dumpBin.decode(snap.data) == Some(ReadAll(s.db))
  {
    Snapshot(f.dumpBin.encode(ReadAll(s.db)), CreateSnapshotMetadata(f, s.db))
  }

  /** Right after `create_snapshot` the first index is the snapshot index itself,
      not one past it as the no-marker fallback would give. */
  lemma {:induction false} FirstIndexAfterCreate(f: Formats, s: Storage)
    requires RoundTrips(f.u64Json)
    requires HardStateReadable(f, s.db) && ConfStateReadable(f, s.db)
    ensures FirstIndex(f, CreateSnapshot(f, s)) == CreateSnapshotMetadata(f, s.db).index
    ensures CreateSnapshot(f, s).snapshotMetadata.index + 1 != FirstIndex(f, CreateSnapshot(f, s))
  {
    var r := CreateSnapshot(f, s);
    ReadSameSlot(r.db, r.db, FirstIndexKey(), f.u64Json);
    assert f.u64Json.decode(f.u64Json.encode(r.snapshotMetadata.index)) == Some(r.snapshotMetadata.index);
  }

  /** `snapshot`: creates a snapshot, then reads the saved one back (unwrapping
      the read and the decoding). */
  function TakeSnapshot(f: Formats, s: Storage): (r: (Storage, Snapshot))
    requires HardStateReadable(f, s.db) && ConfStateReadable(f, s.db)
    requires Decodes(CreateSnapshot(f, s).db, SnapshotKey(), f.bytesJson, f.snapshotProto)
    ensures r.0 == CreateSnapshot(f, s)
  {
    var s1 := CreateSnapshot(f, s);
    (s1, StoredMessage(s1.db, SnapshotKey(), f.bytesJson, f.snapshotProto, DEFAULT_SNAPSHOT))
  }

  /** `snapshot` returns exactly the snapshot it has just created. */
  lemma {:induction false} TakeSnapshotReturnsCreated(f: Formats, s: Storage)
    requires Lawful(f)
    requires HardStateReadable(f, s.db) && ConfStateReadable(f, s.db)
    ensures Decodes(CreateSnapshot(f, s).db, SnapshotKey(), f.bytesJson, f.snapshotProto)
    ensures TakeSnapshot(f, s).1 == CreatedSnapshot(f, s)
  {
    var r := CreateSnapshot(f, s);
    var b := f.snapshotProto.encode(CreatedSnapshot(f, s));
    ReadSameSlot(r.db, r.db, SnapshotKey(), f.bytesJson);
    assert f.bytesJson.decode(f.bytesJson.encode(b)) == Some(b);
    assert f.snapshotProto.decode(b) == Some(CreatedSnapshot(f, s));
  }

  // --------------------------------------------------------------- apply

  /** `apply_snapshot`: a snapshot whose index is below the first index is out
      of date and rejected with nothing changed. Otherwise the metadata is
      recorded, the dump is written over the store, and then the hard state is
      re-read (so after the dump) and saved with term raised to the snapshot's
      term and commit set to the snapshot index; the configuration state becomes
      the snapshot's. Re-reading the hard state unwraps. */
  ghost function ApplySnapshot(f: Formats, s: Storage, snap: Snapshot): (r: (Storage, Result<(), StorageError>))
    requires FirstIndex(f, s) <= snap.metadata.index ==> HardStateReadable(f, WriteAll(f, s.db, snap.data))
    ensures r.1.Err? <==> FirstIndex(f, s) > snap.metadata.index
    ensures r.1.Err? ==> r.0 == s && r.1.error == SnapshotOutOfDate
    ensures r.1.Ok? ==> r.0.snapshotMetadata == snap.metadata && r.0.uncommitIndex == s.uncommitIndex
    ensures r.1.Ok? ==> forall k :: k != HardStateKey() && k != ConfStateKey() ==>
      Get(r.0.db, k) == Get(WriteAll(f, s.db, snap.data), k)
  {
    var meta := snap.metadata;
    if FirstIndex(f, s) > meta.index then (s, Err(SnapshotOutOfDate))
    else
      var db1 := WriteAll(f, s.db, snap.data);
      var hs := HardStateOf(f, db1);
      var db2 := SaveHardState(f, db1, hs.(term := Max(hs.term, meta.term), commit := meta.index));
      var db3 := SaveConfState(f, db2, meta.confState);
      (s.(snapshotMetadata := meta, db := db3), Ok(()))
  }

  /** After an accepted snapshot the hard state has the larger of the two terms
      and commit exactly the snapshot index, its vote as the dump left it, and
      the configuration state is the snapshot's. */
  lemma {:induction false} ApplySnapshotStates(f: Formats, s: Storage, snap: Snapshot)
    requires Lawful(f)
    requires FirstIndex(f, s) <= snap.metadata.index
    requires HardStateReadable(f, WriteAll(f, s.db, snap.data))
    ensures HardStateReadable(f, ApplySnapshot(f, s, snap).0.db) && ConfStateReadable(f, ApplySnapshot(f, s, snap).0.db)
    ensures HardStateOf(f, ApplySnapshot(f, s, snap).0.db) ==
      var old_hs := HardStateOf(f, WriteAll(f, s.db, snap.data));
      HardState(Max(old_hs.term, snap.metadata.term), old_hs.vote, snap.metadata.index)
    ensures ConfStateOf(f, ApplySnapshot(f, s, snap).0.db) == snap.metadata.confState
  {
    var db1 := WriteAll(f, s.db, snap.data);
    var hs := HardStateOf(f, db1);
    var hs' := hs.(term := Max(hs.term, snap.metadata.term), commit := snap.metadata.index);
    var db2 := SaveHardState(f, db1, hs');
    SaveStateRoundTrip(f, db1, hs', snap.metadata.confState);
    SaveStateRoundTrip(f, db2, hs', snap.metadata.confState);
  }

  /** As written, installing the snapshot of `src` replaces the target's hard
      state by `src`'s: the dump carries `src`'s hard-state key, `write_all`
      stores it before `hard_state` is read, and `src`'s own term and commit are
      the snapshot's. So the target's term can go down and its vote is lost. */
  lemma {:induction false} InstalledHardStateIsSources(f: Formats, src: Storage, t: Storage)
    requires Lawful(f)
    requires HardStateReadable(f, src.db) && ConfStateReadable(f, src.db)
    requires Get(src.db, HardStateKey()).Some? && Get(src.db, HardStateKey()).value.Text?
    requires FirstIndex(f, t) <= CreatedSnapshot(f, src).metadata.index
    ensures HardStateReadable(f, WriteAll(f, t.db, CreatedSnapshot(f, src).data))
    ensures HardStateOf(f, ApplySnapshot(f, t, CreatedSnapshot(f, src)).0.db) == HardStateOf(f, src.db)
  {
    var db1 := WriteAll(f, t.db, CreatedSnapshot(f, src).data);
    RestoreOwnDump(f, t.db, src.db, HardStateKey());
    StoredMessageSameSlot(src.db, db1, HardStateKey(), f.bytesJson, f.hardStateProto, DEFAULT_HARD_STATE);
    ApplySnapshotStates(f, t, CreatedSnapshot(f, src));
  }

  /** `apply_snapshot` with the node's own hard state read before the dump is
      written, as the term comparison intends: the stored term never goes
      down and the vote is the node's own. */
  ghost function ApplySnapshotCorrected(f: Formats, s: Storage, snap: Snapshot): (r: (Storage, Result<(), StorageError>))
    requires FirstIndex(f, s) <= snap.metadata.index ==> HardStateReadable(f, s.db)
    ensures r.1.Err? <==> FirstIndex(f, s) > snap.metadata.index
    ensures r.1.Err? ==> r.0 == s && r.1.error == SnapshotOutOfDate
    ensures r.1.Ok? ==> r.0.snapshotMetadata == snap.metadata && r.0.uncommitIndex == s.uncommitIndex
    ensures r.1.Ok? ==> forall k :: k != HardStateKey() && k != ConfStateKey() ==>
      Get(r.0.db, k) == Get(WriteAll(f, s.db, snap.data), k)
  {
    var meta := snap.metadata;
    if FirstIndex(f, s) > meta.index then (s, Err(SnapshotOutOfDate))
    else
      var hs := HardStateOf(f, s.db);
      var db1 := WriteAll(f, s.db, snap.data);
      var db2 := SaveHardState(f, db1, hs.(term := Max(hs.term, meta.term), commit := meta.index));
      var db3 := SaveConfState(f, db2, meta.confState);
      (s.(snapshotMetadata := meta, db := db3), Ok(()))
  }

  /** With the correction, an accepted snapshot keeps the node's vote, never
      lowers its term, sets commit to the snapshot index and installs the
      snapshot's configuration, whatever hard state the dump carried. */
  lemma {:induction false} ApplySnapshotCorrectedStates(f: Formats, s: Storage, snap: Snapshot)
    requires Lawful(f)
    requires FirstIndex(f, s) <= snap.metadata.index
    requires HardStateReadable(f, s.db)
    ensures HardStateReadable(f, ApplySnapshotCorrected(f, s, snap).0.db)
    ensures ConfStateReadable(f, ApplySnapshotCorrected(f, s, snap).0.db)
    ensures HardStateOf(f, ApplySnapshotCorrected(f, s, snap).0.db) ==
      HardState(Max(HardStateOf(f, s.db).term, snap.metadata.term), HardStateOf(f, s.db).vote, snap.metadata.index)
    ensures HardStateOf(f, ApplySnapshotCorrected(f, s, snap).0.db).term >= HardStateOf(f, s.db).term
    ensures ConfStateOf(f, ApplySnapshotCorrected(f, s, snap).0.db) == snap.metadata.confState
  {
    var hs := HardStateOf(f, s.db);
    var hs' := hs.(term := Max(hs.term, snap.metadata.term), commit := snap.metadata.index);
    var db1 := WriteAll(f, s.db, snap.data);
    var db2 := SaveHardState(f, db1, hs');
    SaveStateRoundTrip(f, db1, hs', snap.metadata.confState);
    SaveStateRoundTrip(f, db2, hs', snap.metadata.confState);
  }

  /** A snapshot taken of a storage is accepted by that same storage right
      afterwards: its index is exactly the first index `create_snapshot` set. */
  lemma {:induction false} CreatedSnapshotNotStale(f: Formats, s: Storage)
    requires Lawful(f)
    requires HardStateReadable(f, s.db) && ConfStateReadable(f, s.db)
    ensures HardStateReadable(f, WriteAll(f, CreateSnapshot(f, s).db, CreatedSnapshot(f, s).data))
    ensures ApplySnapshot(f, CreateSnapshot(f, s), CreatedSnapshot(f, s)).1 == Ok(())
  {
    FirstIndexAfterCreate(f, s);
    OwnDumpKeepsHardState(f, s);
  }

  /** Writing a storage's own dump back over it after `create_snapshot` leaves
      the stored hard state as it was. */
  lemma {:induction false} OwnDumpKeepsHardState(f: Formats, s: Storage)
    requires Lawful(f)
    requires HardStateReadable(f, s.db) && ConfStateReadable(f, s.db)
    ensures Get(WriteAll(f, CreateSnapshot(f, s).db, CreatedSnapshot(f, s).data), HardStateKey()) == Get(s.db, HardStateKey())
    ensures HardStateReadable(f, WriteAll(f, CreateSnapshot(f, s).db, CreatedSnapshot(f, s).data))
  {
    var r := CreateSnapshot(f, s);
    var db1 := WriteAll(f, r.db, CreatedSnapshot(f, s).data);
    RestoreOwnDump(f, r.db, s.db, HardStateKey());
    StoredMessageSameSlot(s.db, db1, HardStateKey(), f.bytesJson, f.hardStateProto, DEFAULT_HARD_STATE);
  }

  /** Installing the snapshot of `src` on a storage that accepts it gives every
      key other than the two raft states the text value it had in `src`, and
      leaves the keys `src` did not hold as they were on the target. */
  lemma {:induction false} SnapshotReplicates(f: Formats, src: Storage, t: Storage, k: string)
    requires Lawful(f)
    requires HardStateReadable(f, src.db) && ConfStateReadable(f, src.db)
    requires FirstIndex(f, t) <= CreatedSnapshot(f, src).metadata.index
    requires HardStateReadable(f, WriteAll(f, t.db, CreatedSnapshot(f, src).data))
    requires k != HardStateKey() && k != ConfStateKey()
    ensures Get(ApplySnapshot(f, t, CreatedSnapshot(f, src)).0.db, k) ==
      if Get(src.db, k).Some? && Get(src.db, k).value.Text? then Get(src.db, k) else Get(t.db, k)
  {
    RestoreOwnDump(f, t.db, src.db, k);
  }
}

=== FILE: raft_storage.dfy ===
/** `RaftMachineStorage`: the raft log, hard state, configuration state and the
    uncommitted-index set of the placement center, all kept under fixed keys of
    the one column family.

    Messages (entries, hard and configuration states, snapshots) are encoded
    with protobuf into bytes, and those bytes are stored as the JSON text of a
    byte vector; index markers are stored as JSON numbers; the uncommitted set
    is a bincode byte vector stored the same way. The encoders are the codecs of
    `Formats`. */
module RaftStorage {
  import opened Wrappers
  import opened Ints
  import opened Serial
  import opened RocksDb
  import Keys

  // ------------------------------------------------------------ messages

  /** A raft log entry (`eraftpb.Entry`). */
  datatype Entry = Entry(entryType: nat, term: nat, index: nat, data: bytes, context: bytes)

  datatype HardState = HardState(term: nat, vote: nat, commit: nat)

  datatype ConfState = ConfState(voters: seq<nat>, learners: seq<nat>, votersOutgoing: seq<nat>,
                                 learnersNext: seq<nat>, autoLeave: bool)

  datatype SnapshotMetadata = SnapshotMetadata(confState: ConfState, index: nat, term: nat)

  datatype Snapshot = Snapshot(data: bytes, metadata: SnapshotMetadata)

  datatype RaftState = RaftState(hardState: HardState, confState: ConfState)

  /** The only storage error the code reports. */
  datatype StorageError = SnapshotOutOfDate

  const DEFAULT_HARD_STATE: HardState := HardState(0, 0, 0)
  const DEFAULT_CONF_STATE: ConfState := ConfState([], [], [], [], false)
  const DEFAULT_SNAPSHOT_METADATA: SnapshotMetadata := SnapshotMetadata(DEFAULT_CONF_STATE, 0, 0)
  const DEFAULT_SNAPSHOT: Snapshot := Snapshot([], DEFAULT_SNAPSHOT_METADATA)

  /** The uncommitted-index set: a map from index to the marker value 1. */
  type UncommitIndex = map<nat, i8>

  /** What `read_all` returns: column family name to one single-entry map per row. */
  type Dump = map<string, seq<map<string, string>>>

  /** The serializers the storage uses. */
  datatype Formats = Formats(
    u64Json: Codec<nat, string>,
    bytesJson: Codec<bytes, string>,
    entryProto: Codec<Entry, bytes>,
    hardStateProto: Codec<HardState, bytes>,
    confStateProto: Codec<ConfState, bytes>,
    snapshotProto: Codec<Snapshot, bytes>,
    uncommitBin: Codec<UncommitIndex, bytes>,
    dumpBin: Codec<Dump, bytes>)

  /** Every serializer gives back what it encoded, and bincode never encodes a
      map as zero bytes (its length prefix alone takes eight). */
  ghost predicate Lawful(f: Formats) {
    && RoundTrips(f.u64Json) && RoundTrips(f.bytesJson) && RoundTrips(f.entryProto)
    && RoundTrips(f.hardStateProto) && RoundTrips(f.confStateProto)
    && RoundTrips(f.snapshotProto) && RoundTrips(f.uncommitBin) && RoundTrips(f.dumpBin)
    && (forall d :: |f.dumpBin.encode(d)| > 0)
  }

  /** The in-memory part of the storage plus the column family it sits on. */
  datatype Storage = Storage(uncommitIndex: UncommitIndex, snapshotMetadata: SnapshotMetadata, db: Column)

  function FirstIndexKey(): string { Keys.KeyNameByFirstIndex() }
  function LastIndexKey(): string { Keys.KeyNameByLastIndex() }
  function HardStateKey(): string { Keys.KeyNameByHardState() }
  function ConfStateKey(): string { Keys.KeyNameByConfState() }
  function UncommitKey(): string { Keys.KeyNameUncommit() }
  function SnapshotKey(): string { Keys.KeyNameSnapshot() }

  // ---------------------------------------------------- stored messages

  /** A protobuf message stored under `key` can be read back without a panic:
      the read succeeds and, if something is stored, it decodes. */
  predicate Decodes<M>(db: Column, key: string, bytesJson: Codec<bytes, string>, proto: Codec<M, bytes>) {
    match Read(db, key, bytesJson)
    case Ok(None) => true
    case Ok(Some(b)) => proto.decode(b).Some?
    case Err(_) => false
  }

  /** The message stored under `key`, or `default` when nothing is stored
      (the shape of `hard_state`, `conf_state` and the tail of `snapshot`). */
  function StoredMessage<M>(db: Column, key: string, bytesJson: Codec<bytes, string>, proto: Codec<M, bytes>, default: M): (m: M)
    requires Decodes(db, key, bytesJson, proto)
    ensures Get(db, key).None? ==> m == default
    ensures Get(db, key).Some? ==>
      Read(db, key, bytesJson).Ok? && Read(db, key, bytesJson).value.Some? &&
      proto.decode(Read(db, key, bytesJson).value.value) == Some(m)
  {
    match Read(db, key, bytesJson)
    case Ok(None) => default
    case Ok(Some(b)) => proto.decode(b).value
  }

  /** Saving a message and reading it back gives the message. */
  lemma {:induction false} StoredMessageAfterWrite<M(!new)>(db: Column, key: string, bytesJson: Codec<bytes, string>, proto: Codec<M, bytes>, m: M, default: M)
    requires RoundTrips(bytesJson) && RoundTrips(proto)
    ensures Decodes(Write(db, key, proto.encode(m), bytesJson), key, bytesJson, proto)
    ensures StoredMessage(Write(db, key, proto.encode(m), bytesJson), key, bytesJson, proto, default) == m
  {
    ReadAfterWrite(db, key, proto.encode(m), bytesJson);
  }

  /** A stored message depends only on the slot it is stored in. */
  lemma {:induction false} StoredMessageSameSlot<M>(db: Column, db': Column, key: string, bytesJson: Codec<bytes, string>, proto: Codec<M, bytes>, default: M)
    requires Get(db', key) == Get(db, key)
    ensures Decodes(db', key, bytesJson, proto) == Decodes(db, key, bytesJson, proto)
    ensures Decodes(db, key, bytesJson, proto) ==>
      StoredMessage(db', key, bytesJson, proto, default) == StoredMessage(db, key, bytesJson, proto, default)
  {
    ReadSameSlot(db, db', key, bytesJson);
  }

  predicate HardStateReadable(f: Formats, db: Column) {
    Decodes(db, HardStateKey(), f.bytesJson, f.hardStateProto)
  }

  predicate ConfStateReadable(f: Formats, db: Column) {
    Decodes(db, ConfStateKey(), f.bytesJson, f.confStateProto)
  }

  /** `hard_state`: the stored hard state, or the default one. It unwraps both
      the read and the decoding, hence the precondition. */
  function HardStateOf(f: Formats, db: Column): (hs: HardState)
    requires HardStateReadable(f, db)
    ensures Get(db, HardStateKey()).None? ==> hs == DEFAULT_HARD_STATE
    ensures Get(db, HardStateKey()).Some? ==>
      Read(db, HardStateKey(), f.bytesJson).Ok? && Read(db, HardStateKey(), f.bytesJson).value.Some? &&
      f.hardStateProto.decode(Read(db, HardStateKey(), f.bytesJson).value.value) == Some(hs)
  {
    StoredMessage(db, HardStateKey(), f.bytesJson, f.hardStateProto, DEFAULT_HARD_STATE)
  }

  /** `conf_state`: the stored configuration state, or the default one. */
  function ConfStateOf(f: Formats, db: Column): (cs: ConfState)
    requires ConfStateReadable(f, db)
    ensures Get(db, ConfStateKey()).None? ==> cs == DEFAULT_CONF_STATE
    ensures Get(db, ConfStateKey()).Some? ==>
      Read(db, ConfStateKey(), f.bytesJson).Ok? && Read(db, ConfStateKey(), f.bytesJson).value.Some? &&
      f.confStateProto.decode(Read(db, ConfStateKey(), f.bytesJson).value.value) == Some(cs)
  {
    StoredMessage(db, ConfStateKey(), f.bytesJson, f.confStateProto, DEFAULT_CONF_STATE)
  }

  /** `save_hard_state`. */
  function SaveHardState(f: Formats, db: Column, hs: HardState): (r: Column)
    ensures Get(r, HardStateKey()) == Some(Text(f.bytesJson.encode(f.hardStateProto.encode(hs))))
    ensures forall k :: k != HardStateKey() ==> Get(r, k) == Get(db, k)
  {
    Write(db, HardStateKey(), f.hardStateProto.encode(hs), f.bytesJson)
  }

  /** `save_conf_state`. */
  function SaveConfState(f: Formats, db: Column, cs: ConfState): (r: Column)
    ensures Get(r, ConfStateKey()) == Some(Text(f.bytesJson.encode(f.confStateProto.encode(cs))))
    ensures forall k :: k != ConfStateKey() ==> Get(r, k) == Get(db, k)
  {
    Write(db, ConfStateKey(), f.confStateProto.encode(cs), f.bytesJson)
  }

  /** `raft_state`: the hard state and the configuration state together. */
  function GetRaftState(f: Formats, db: Column): (r: RaftState)
    requires HardStateReadable(f, db) && ConfStateReadable(f, db)
    ensures Get(db, HardStateKey()).None? ==> r.hardState == DEFAULT_HARD_STATE
    ensures Get(db, ConfStateKey()).None? ==> r.confState == DEFAULT_CONF_STATE
    ensures Get(db, HardStateKey()).Some? ==>
      f.hardStateProto.decode(Read(db, HardStateKey(), f.bytesJson).value.value) == Some(r.hardState)
    ensures Get(db, ConfStateKey()).Some? ==>
      f.confStateProto.decode(Read(db, ConfStateKey(), f.bytesJson).value.value) == Some(r.confState)
  {
    RaftState(HardStateOf(f, db), ConfStateOf(f, db))
  }

  /** A saved hard state is what `hard_state` then returns; the configuration
      state is untouched. The same holds the other way round. */
  lemma {:induction false} SaveStateRoundTrip(f: Formats, db: Column, hs: HardState, cs: ConfState)
    requires Lawful(f)
    ensures HardStateReadable(f, SaveHardState(f, db, hs)) && HardStateOf(f, SaveHardState(f, db, hs)) == hs
    ensures ConfStateReadable(f, SaveConfState(f, db, cs)) && ConfStateOf(f, SaveConfState(f, db, cs)) == cs
    ensures ConfStateReadable(f, db) ==>
      ConfStateReadable(f, SaveHardState(f, db, hs)) && ConfStateOf(f, SaveHardState(f, db, hs)) == ConfStateOf(f, db)
    ensures HardStateReadable(f, db) ==>
      HardStateReadable(f, SaveConfState(f, db, cs)) && HardStateOf(f, SaveConfState(f, db, cs)) == HardStateOf(f, db)
  {
    StoredMessageAfterWrite(db, HardStateKey(), f.bytesJson, f.hardStateProto, hs, DEFAULT_HARD_STATE);
    StoredMessageAfterWrite(db, ConfStateKey(), f.bytesJson, f.confStateProto, cs, DEFAULT_CONF_STATE);
    StoredMessageSameSlot(db, SaveHardState(f, db, hs), ConfStateKey(), f.bytesJson, f.confStateProto, DEFAULT_CONF_STATE);
    StoredMessageSameSlot(db, SaveConfState(f, db, cs), HardStateKey(), f.bytesJson, f.hardStateProto, DEFAULT_HARD_STATE);
  }

  /** `set_hard_state_commit`: rewrites the hard state with a new commit index. */
  function SetHardStateCommit(f: Formats, db: Column, commit: nat): (r: Column)
    requires HardStateReadable(f, db)
    ensures forall k :: k != HardStateKey() ==> Get(r, k) == Get(db, k)
  {
    SaveHardState(f, db, HardStateOf(f, db).(commit := commit))
  }

  lemma {:induction false} SetHardStateCommitEffect(f: Formats, db: Column, commit: nat)
    requires Lawful(f) && HardStateReadable(f, db)
    ensures HardStateReadable(f, SetHardStateCommit(f, db, commit))
    ensures HardStateOf(f, SetHardStateCommit(f, db, commit)).commit == commit
    ensures HardStateOf(f, SetHardStateCommit(f, db, commit)).term == HardStateOf(f, db).term
    ensures HardStateOf(f, SetHardStateCommit(f, db, commit)).vote == HardStateOf(f, db).vote
  {
    SaveStateRoundTrip(f, db, HardStateOf(f, db).(commit := commit), DEFAULT_CONF_STATE);
  }

  // ------------------------------------------------------ index markers

  /** `first_index`: the stored marker, or the snapshot index + 1 when the marker
      is absent or cannot be read. */
  function FirstIndex(f: Formats, s: Storage): (r: nat)
    ensures (Read<nat>(s.db, FirstIndexKey(), f.u64Json).Err? || Get(s.db, FirstIndexKey()).None?) ==>
      r == s.snapshotMetadata.index + 1
    ensures Read<nat>(s.db, FirstIndexKey(), f.u64Json).Ok? && Read<nat>(s.db, FirstIndexKey(), f.u64Json).value.Some? ==>
      r == Read<nat>(s.db, FirstIndexKey(), f.u64Json).value.value
  {
    match Read<nat>(s.db, FirstIndexKey(), f.u64Json)
    case Ok(Some(fi)) => fi
    case Ok(None) => s.snapshotMetadata.index + 1
    case Err(_) => s.snapshotMetadata.index + 1
  }

  /** `last_index`: the stored marker, or the snapshot index when the marker is
      absent or cannot be read. */
  function LastIndex(f: Formats, s: Storage): (r: nat)
    ensures (Read<nat>(s.db, LastIndexKey(), f.u64Json).Err? || Get(s.db, LastIndexKey()).None?) ==>
      r == s.snapshotMetadata.index
    ensures Read<nat>(s.db, LastIndexKey(), f.u64Json).Ok? && Read<nat>(s.db, LastIndexKey(), f.u64Json).value.Some? ==>
      r == Read<nat>(s.db, LastIndexKey(), f.u64Json).value.value
  {
    match Read<nat>(s.db, LastIndexKey(), f.u64Json)
    case Ok(Some(li)) => li
    case Ok(None) => s.snapshotMetadata.index
    case Err(_) => s.snapshotMetadata.index
  }

  /** `save_first_index`. */
  function SaveFirstIndex(f: Formats, db: Column, index: nat): (r: Column)
    ensures Get(r, FirstIndexKey()) == Some(Text(f.u64Json.encode(index)))
    ensures forall k :: k != FirstIndexKey() ==> Get(r, k) == Get(db, k)
  {
    Write(db, FirstIndexKey(), index, f.u64Json)
  }

  /** `save_last_index`. */
  function SaveLastIndex(f: Formats, db: Column, index: nat): (r: Column)
    ensures Get(r, LastIndexKey()) == Some(Text(f.u64Json.encode(index)))
    ensures forall k :: k != LastIndexKey() ==> Get(r, k) == Get(db, k)
  {
    Write(db, LastIndexKey(), index, f.u64Json)
  }

  /** With neither marker stored (or neither readable) the log is empty: the
      first index is one past the last, which is the snapshot index. */
  lemma {:induction false} NoMarkersEmptyLog(f: Formats, s: Storage)
    requires Read<nat>(s.db, FirstIndexKey(), f.u64Json).Err? || Get(s.db, FirstIndexKey()).None?
    requires Read<nat>(s.db, LastIndexKey(), f.u64Json).Err? || Get(s.db, LastIndexKey()).None?
    ensures FirstIndex(f, s) == s.snapshotMetadata.index + 1
    ensures LastIndex(f, s) == s.snapshotMetadata.index
    ensures FirstIndex(f, s) == LastIndex(f, s) + 1
  {
  }

  /** A saved marker is what the index functions then return. */
  lemma {:induction false} MarkersRoundTrip(f: Formats, s: Storage, index: nat)
    requires RoundTrips(f.u64Json)
    ensures FirstIndex(f, s.(db := SaveFirstIndex(f, s.db, index))) == index
    ensures LastIndex(f, s.(db := SaveLastIndex(f, s.db, index))) == index
  {
    ReadAfterWrite(s.db, FirstIndexKey(), index, f.u64Json);
    ReadAfterWrite(s.db, LastIndexKey(), index, f.u64Json);
  }

  // ------------------------------------------------------------ entries

  /** `e` is the entry stored under the key of index `idx`. */
  predicate StoredEntry(f: Formats, db: Column, idx: nat, e: Entry) {
    var r := Read(db, Keys.KeyNameByEntry(idx), f.bytesJson);
    r.Ok? && r.value.Some? && f.entryProto.decode(r.value.value) == Some(e)
  }

  /** Whatever is stored under the key of `idx` decodes as an entry (reading it
      unwraps the decoding). */
  predicate EntryDecodable(f: Formats, db: Column, idx: nat) {
    match Read(db, Keys.KeyNameByEntry(idx), f.bytesJson)
    case Ok(Some(b)) => f.entryProto.decode(b).Some?
    case _ => true
  }

  /** `entry_by_idx`: the entry stored for `idx`; None when nothing is stored or
      the read fails (the failure is only logged). */
  function EntryByIdx(f: Formats, db: Column, idx: nat): (r: Option<Entry>)
    requires EntryDecodable(f, db, idx)
    ensures r.Some? ==> StoredEntry(f, db, idx, r.value)
    ensures forall e :: StoredEntry(f, db, idx, e) ==> r == Some(e)
    ensures Get(db, Keys.KeyNameByEntry(idx)).None? ==> r.None?
  {
    match Read(db, Keys.KeyNameByEntry(idx), f.bytesJson)
    case Ok(Some(b)) => f.entryProto.decode(b)
    case Ok(None) => None
    case Err(_) => None
  }

  /** Every stored entry sits under the key of its own index. */
  ghost predicate WellIndexed(f: Formats, db: Column) {
    forall idx, e :: StoredEntry(f, db, idx, e) ==> e.index == idx
  }

  /** `entries(low, high)`: the stored entries with index from `low` to `high`
      inclusive, skipping absent ones; empty when `low > high`. */
  function Entries(f: Formats, db: Column, low: nat, high: nat): (r: seq<Entry>)
    requires forall idx :: low <= idx <= high ==> EntryDecodable(f, db, idx)
    ensures low > high ==> r == []
    ensures forall e :: e in r ==> exists idx :: low <= idx <= high && StoredEntry(f, db, idx, e)
    ensures forall idx, e :: low <= idx <= high && StoredEntry(f, db, idx, e) ==> e in r
    decreases high + 1 - low
  {
    if low > high then []
    else
      var rest := Entries(f, db, low + 1, high);
      match EntryByIdx(f, db, low)
      case Some(e) => [e] + rest
      case None => rest
  }

  /** In a well-indexed store, `entries` lists its result in strictly ascending
      index order, each index within the requested range. */
  lemma {:induction false} EntriesAscending(f: Formats, db: Column, low: nat, high: nat)
    requires forall idx :: low <= idx <= high ==> EntryDecodable(f, db, idx)
    requires WellIndexed(f, db)
    ensures forall i :: 0 <= i < |Entries(f, db, low, high)| ==> low <= Entries(f, db, low, high)[i].index <= high
    ensures forall i, j :: 0 <= i < j < |Entries(f, db, low, high)| ==>
      Entries(f, db, low, high)[i].index < Entries(f, db, low, high)[j].index
    decreases high + 1 - low
  {
    if low <= high {
      EntriesAscending(f, db, low + 1, high);
      var r := Entries(f, db, low, high);
      var rest := Entries(f, db, low + 1, high);
      match EntryByIdx(f, db, low)
      case Some(e) =>
        assert r == [e] + rest;
        assert e.index == low;
      case None =>
        assert r == rest;
    }
  }

  // ------------------------------------------------- uncommitted indexes

  /** `save_uncommit_index`: the bincode encoding of the set, stored as JSON bytes. */
  function SaveUncommitIndex(f: Formats, db: Column, ui: UncommitIndex): (r: Column)
    ensures Get(r, UncommitKey()) == Some(Text(f.bytesJson.encode(f.uncommitBin.encode(ui))))
    ensures forall k :: k != UncommitKey() ==> Get(r, k) == Get(db, k)
  {
    Write(db, UncommitKey(), f.uncommitBin.encode(ui), f.bytesJson)
  }

  /** `uncommit_index`: the stored set, or the empty set when it is absent,
      unreadable or undecodable (failures are only logged). */
  function LoadUncommitIndex(f: Formats, db: Column): (r: UncommitIndex)
    ensures Get(db, UncommitKey()).None? ==> r == map[]
    ensures Read(db, UncommitKey(), f.bytesJson).Err? ==> r == map[]
    ensures Read(db, UncommitKey(), f.bytesJson).Ok? && Read(db, UncommitKey(), f.bytesJson).value.Some? ==>
      var b := Read(db, UncommitKey(), f.bytesJson).value.value;
      r == if f.uncommitBin.decode(b).Some? then f.uncommitBin.decode(b).value else map[]
  {
    match Read(db, UncommitKey(), f.bytesJson)
    case Ok(Some(b)) =>
      (match f.uncommitBin.decode(b)
       case Some(m) => m
       case None => map[])
    case _ => map[]
  }

  lemma {:induction false} UncommitRoundTrip(f: Formats, db: Column, ui: UncommitIndex)
    requires RoundTrips(f.bytesJson) && RoundTrips(f.uncommitBin)
    ensures LoadUncommitIndex(f, SaveUncommitIndex(f, db, ui)) == ui
  {
    ReadAfterWrite(db, UncommitKey(), f.uncommitBin.encode(ui), f.bytesJson);
  }

  // -------------------------------------------------------------- append

  /** The entries a batch leaves behind: for each index, the last entry of the
      batch carrying it. */
  function Staged(es: seq<Entry>): (m: map<nat, Entry>)
    ensures forall n :: n in m ==> m[n].index == n && m[n] in es
    ensures forall i :: 0 <= i < |es| ==> es[i].index in m
    ensures |es| > 0 ==> m[es[|es| - 1].index] == es[|es| - 1]
  {
    if |es| == 0 then map[]
    else
      var rest := Staged(es[1..]);
      assert forall i :: 1 <= i < |es| ==> es[i] == es[1..][i - 1];
      map[es[0].index := es[0]] + rest
  }

  /** The storage half of the loop of `append`: each entry is written under its
      key and then becomes the last-index marker. */
  function StoreEach(f: Formats, db: Column, es: seq<Entry>): Column
    decreases |es|
  {
    if |es| == 0 then db
    else
      var e := es[0];
      var db1 := Write(db, Keys.KeyNameByEntry(e.index), f.entryProto.encode(e), f.bytesJson);
      StoreEach(f, SaveLastIndex(f, db1, e.index), es[1..])
  }

  /** The in-memory half of the loop of `append`: each index of the batch is
      inserted into the uncommitted set with marker 1. */
  function MarkUncommitted(ui: UncommitIndex, es: seq<Entry>): (r: UncommitIndex)
    ensures r.Keys == ui.Keys + Staged(es).Keys
    ensures forall n :: n in r ==> r[n] == if n in Staged(es) then 1 else ui[n]
    decreases |es|
  {
    if |es| == 0 then ui
    else
      var rest := Staged(es[1..]);
      assert Staged(es).Keys == {es[0].index} + rest.Keys;
      MarkUncommitted(ui[es[0].index := 1], es[1..])
  }

  /** A key the batch does not name keeps its value. */
  lemma {:induction false} StoreEachUntouched(f: Formats, db: Column, es: seq<Entry>, k: string)
    requires k != LastIndexKey()
    requires forall n :: n in Staged(es) ==> k != Keys.KeyNameByEntry(n)
    ensures Get(StoreEach(f, db, es), k) == Get(db, k)
    decreases |es|
  {
    if |es| > 0 {
      var e := es[0];
      var db1 := Write(db, Keys.KeyNameByEntry(e.index), f.entryProto.encode(e), f.bytesJson);
      var db2 := SaveLastIndex(f, db1, e.index);
      assert Staged(es) == map[e.index := e] + Staged(es[1..]);
      StoreEachUntouched(f, db2, es[1..], k);
    }
  }

  /** The last-index marker ends as the index of the batch's final entry. */
  lemma {:induction false} StoreEachLast(f: Formats, db: Column, es: seq<Entry>)
    requires |es| > 0
    ensures Get(StoreEach(f, db, es), LastIndexKey()) == Some(Text(f.u64Json.encode(es[|es| - 1].index)))
    decreases |es|
  {
    var e := es[0];
    var db1 := Write(db, Keys.KeyNameByEntry(e.index), f.entryProto.encode(e), f.bytesJson);
    var db2 := SaveLastIndex(f, db1, e.index);
    if |es| > 1 {
      StoreEachLast(f, db2, es[1..]);
      assert es[1..][|es[1..]| - 1] == es[|es| - 1];
    }
  }

  /** Every index of the batch ends up holding the batch's last entry for it. */
  lemma {:induction false} StoreEachEntry(f: Formats, db: Column, es: seq<Entry>, n: nat)
    requires n in Staged(es)
    ensures Get(StoreEach(f, db, es), Keys.KeyNameByEntry(n)) ==
      Some(Text(f.bytesJson.encode(f.entryProto.encode(Staged(es)[n]))))
    decreases |es|
  {
    var e := es[0];
    var db1 := Write(db, Keys.KeyNameByEntry(e.index), f.entryProto.encode(e), f.bytesJson);
    var db2 := SaveLastIndex(f, db1, e.index);
    assert Staged(es) == map[e.index := e] + Staged(es[1..]);
    if n in Staged(es[1..]) {
      StoreEachEntry(f, db2, es[1..], n);
    } else {
      forall m | m in Staged(es[1..])
        ensures Keys.KeyNameByEntry(n) != Keys.KeyNameByEntry(m)
      {
        Keys.EntryKeyInjective(n, m);
      }
      StoreEachUntouched(f, db2, es[1..], Keys.KeyNameByEntry(n));
    }
  }

  lemma {:induction false} StoreEachEntries(f: Formats, db: Column, es: seq<Entry>)
    ensures forall n :: n in Staged(es) ==>
      Get(StoreEach(f, db, es), Keys.KeyNameByEntry(n)) == Some(Text(f.bytesJson.encode(f.entryProto.encode(Staged(es)[n]))))
  {
    forall n | n in Staged(es)
      ensures Get(StoreEach(f, db, es), Keys.KeyNameByEntry(n)) == Some(Text(f.bytesJson.encode(f.entryProto.encode(Staged(es)[n]))))
    {
      StoreEachEntry(f, db, es, n);
    }
  }

  lemma {:induction false} StoreEachUntouchedAll(f: Formats, db: Column, es: seq<Entry>)
    ensures forall k :: k != LastIndexKey() && (forall n :: n in Staged(es) ==> k != Keys.KeyNameByEntry(n)) ==>
      Get(StoreEach(f, db, es), k) == Get(db, k)
  {
    forall k | k != LastIndexKey() && (forall n :: n in Staged(es) ==> k != Keys.KeyNameByEntry(n))
      ensures Get(StoreEach(f, db, es), k) == Get(db, k)
    {
      StoreEachUntouched(f, db, es, k);
    }
  }

  /** `append`: an empty batch changes nothing. Otherwise the batch must start
      neither below the first index (those entries are compacted) nor beyond one
      past the last index (that would leave a gap); both cases panic. Each entry
      is then stored under its index and marked uncommitted, the last-index
      marker moves to the batch's final index, and the uncommitted set is saved.
      Entries outside the batch, including those above its end, stay. */
  function Append(f: Formats, s: Storage, es: seq<Entry>): (r: Storage)
    requires |es| > 0 ==> FirstIndex(f, s) <= es[0].index
    requires |es| > 0 ==> es[0].index <= LastIndex(f, s) + 1
    ensures |es| == 0 ==> r == s
    ensures r.snapshotMetadata == s.snapshotMetadata
    ensures r.uncommitIndex.Keys == s.uncommitIndex.Keys + Staged(es).Keys
    ensures forall n :: n in Staged(es) ==> r.uncommitIndex[n] == 1
    ensures forall n :: n in s.uncommitIndex && n !in Staged(es) ==> r.uncommitIndex[n] == s.uncommitIndex[n]
    ensures forall n :: n in Staged(es) ==>
      Get(r.db, Keys.KeyNameByEntry(n)) == Some(Text(f.bytesJson.encode(f.entryProto.encode(Staged(es)[n]))))
    ensures |es| > 0 ==> Get(r.db, LastIndexKey()) == Some(Text(f.u64Json.encode(es[|es| - 1].index)))
    ensures |es| > 0 ==> Get(r.db, UncommitKey()) == Some(Text(f.bytesJson.encode(f.uncommitBin.encode(r.uncommitIndex))))
    ensures forall k :: k != LastIndexKey() && k != UncommitKey() && (forall n :: n in Staged(es) ==> k != Keys.KeyNameByEntry(n)) ==>
      Get(r.db, k) == Get(s.db, k)
  {
    if |es| == 0 then s
    else
      var ui := MarkUncommitted(s.uncommitIndex, es);
      var db1 := StoreEach(f, s.db, es);
      StoreEachEntries(f, s.db, es);
      StoreEachUntouchedAll(f, s.db, es);
      StoreEachLast(f, s.db, es);
      assert forall n :: n in Staged(es) ==> UncommitKey() != Keys.KeyNameByEntry(n);
      s.(uncommitIndex := ui, db := SaveUncommitIndex(f, db1, ui))
  }

  /** After a non-empty `append` the last index is the batch's final index. */
  lemma {:induction false} AppendLastIndex(f: Formats, s: Storage, es: seq<Entry>)
    requires RoundTrips(f.u64Json)
    requires |es| > 0 && FirstIndex(f, s) <= es[0].index <= LastIndex(f, s) + 1
    ensures LastIndex(f, Append(f, s, es)) == es[|es| - 1].index
  {
    var r := Append(f, s, es);
    var last := es[|es| - 1].index;
    assert Get(r.db, LastIndexKey()) == Some(Text(f.u64Json.encode(last)));
    assert f.u64Json.decode(f.u64Json.encode(last)) == Some(last);
    assert Read<nat>(r.db, LastIndexKey(), f.u64Json) == Ok(Some(last));
  }

  /** After a non-empty `append` each index of the batch reads back the batch's
      last entry for it. */
  lemma {:induction false} AppendEntryReadBack(f: Formats, s: Storage, es: seq<Entry>, n: nat)
    requires RoundTrips(f.bytesJson) && RoundTrips(f.entryProto)
    requires |es| > 0 && FirstIndex(f, s) <= es[0].index <= LastIndex(f, s) + 1
    requires n in Staged(es)
    ensures EntryDecodable(f, Append(f, s, es).db, n)
    ensures EntryByIdx(f, Append(f, s, es).db, n) == Some(Staged(es)[n])
  {
    var r := Append(f, s, es);
    var b := f.entryProto.encode(Staged(es)[n]);
    assert Get(r.db, Keys.KeyNameByEntry(n)) == Some(Text(f.bytesJson.encode(b)));
    assert f.bytesJson.decode(f.bytesJson.encode(b)) == Some(b);
    assert Read(r.db, Keys.KeyNameByEntry(n), f.bytesJson) == Ok(Some(b));
    assert f.entryProto.decode(b) == Some(Staged(es)[n]);
  }

  /** After a non-empty `append` the stored uncommitted set reloads as the
      in-memory one. */
  lemma {:induction false} AppendUncommitReload(f: Formats, s: Storage, es: seq<Entry>)
    requires RoundTrips(f.bytesJson) && RoundTrips(f.uncommitBin)
    requires |es| > 0 && FirstIndex(f, s) <= es[0].index <= LastIndex(f, s) + 1
    ensures LoadUncommitIndex(f, Append(f, s, es).db) == Append(f, s, es).uncommitIndex
  {
    var r := Append(f, s, es);
    var db1 := StoreEach(f, s.db, es);
    assert r.db == SaveUncommitIndex(f, db1, r.uncommitIndex);
    UncommitRoundTrip(f, db1, r.uncommitIndex);
  }

  /** The key of an index outside the batch is none of the keys the batch writes. */
  lemma {:induction false} UnstagedKeyDiffers(es: seq<Entry>, n: nat)
    requires n !in Staged(es)
    ensures forall m :: m in Staged(es) ==> Keys.KeyNameByEntry(n) != Keys.KeyNameByEntry(m)
  {
    forall m | m in Staged(es)
      ensures Keys.KeyNameByEntry(n) != Keys.KeyNameByEntry(m)
    {
      Keys.EntryKeyInjective(n, m);
    }
  }

  /** An append leaves every index outside the batch as it was: entries above
      the new last index included, nothing is truncated. */
  lemma {:induction false} AppendKeepsOther(f: Formats, s: Storage, es: seq<Entry>, n: nat)
    requires |es| > 0 && FirstIndex(f, s) <= es[0].index <= LastIndex(f, s) + 1
    requires n !in Staged(es)
    ensures Get(Append(f, s, es).db, Keys.KeyNameByEntry(n)) == Get(s.db, Keys.KeyNameByEntry(n))
    ensures forall e :: StoredEntry(f, Append(f, s, es).db, n, e) <==> StoredEntry(f, s.db, n, e)
  {
    var r := Append(f, s, es);
    UnstagedKeyDiffers(es, n);
    ReadSameSlot(s.db, r.db, Keys.KeyNameByEntry(n), f.bytesJson);
  }

  /** Appending keeps every stored entry under the key of its own index. */
  lemma {:induction false} AppendKeepsWellIndexed(f: Formats, s: Storage, es: seq<Entry>)
    requires Lawful(f) && WellIndexed(f, s.db)
    requires |es| > 0 && FirstIndex(f, s) <= es[0].index <= LastIndex(f, s) + 1
    ensures WellIndexed(f, Append(f, s, es).db)
  {
    var r := Append(f, s, es);
    forall idx, e | StoredEntry(f, r.db, idx, e)
      ensures e.index == idx
    {
      if idx in Staged(es) {
        AppendEntryReadBack(f, s, es, idx);
        assert EntryByIdx(f, r.db, idx) == Some(e);
      } else {
        AppendKeepsOther(f, s, es, idx);
        assert StoredEntry(f, s.db, idx, e);
      }
    }
  }

  // -------------------------------------------------------------- commit

  /** The uncommitted set without `idx`; every other marker keeps its value. */
  function Unmark(ui: UncommitIndex, idx: nat): (r: UncommitIndex)
    ensures idx !in r
    ensures forall n :: n != idx ==> (n in r <==> n in ui)
    ensures forall n :: n in r ==> r[n] == ui[n]
  {
    ui - {idx}
  }

  /** `commit_index(idx)`: drops `idx` from the uncommitted set and saves the set,
      then sets the hard state's commit to `idx` and its term to the entry's
      term. A missing entry is only logged before it is unwrapped, so the entry
      must exist; reading the hard state must not fail either. */
  function CommitIndex(f: Formats, s: Storage, idx: nat): (r: Storage)
    requires EntryDecodable(f, s.db, idx) && EntryByIdx(f, s.db, idx).Some?
    requires HardStateReadable(f, s.db)
    ensures idx !in r.uncommitIndex
    ensures forall n :: n != idx ==> (n in r.uncommitIndex <==> n in s.uncommitIndex)
    ensures forall n :: n != idx && n in s.uncommitIndex ==> r.uncommitIndex[n] == s.uncommitIndex[n]
    ensures r.snapshotMetadata == s.snapshotMetadata
    ensures Get(r.db, UncommitKey()) == Some(Text(f.bytesJson.encode(f.uncommitBin.encode(r.uncommitIndex))))
    ensures forall k :: k != HardStateKey() && k != UncommitKey() ==> Get(r.db, k) == Get(s.db, k)
  {
    var entry := EntryByIdx(f, s.db, idx).value;
    var ui := Unmark(s.uncommitIndex, idx);
    var db1 := SaveUncommitIndex(f, s.db, ui);
    StoredMessageSameSlot(s.db, db1, HardStateKey(), f.bytesJson, f.hardStateProto, DEFAULT_HARD_STATE);
    var hs := HardStateOf(f, db1);
    s.(uncommitIndex := ui, db := SaveHardState(f, db1, hs.(commit := idx, term := entry.term)))
  }

  /** After `commit_index(idx)` the hard state carries commit `idx` and the
      committed entry's term, with the vote unchanged; the saved uncommitted set
      reloads without `idx`, and the log itself is untouched. */
  lemma {:induction false} CommitIndexEffects(f: Formats, s: Storage, idx: nat)
    requires Lawful(f)
    requires EntryDecodable(f, s.db, idx) && EntryByIdx(f, s.db, idx).Some?
    requires HardStateReadable(f, s.db)
    ensures HardStateReadable(f, CommitIndex(f, s, idx).db)
    ensures HardStateOf(f, CommitIndex(f, s, idx).db) ==
      HardState(EntryByIdx(f, s.db, idx).value.term, HardStateOf(f, s.db).vote, idx)
    ensures LoadUncommitIndex(f, CommitIndex(f, s, idx).db) == CommitIndex(f, s, idx).uncommitIndex
  {
    var r := CommitIndex(f, s, idx);
    var ui := s.uncommitIndex - {idx};
    var db1 := SaveUncommitIndex(f, s.db, ui);
    StoredMessageSameSlot(s.db, db1, HardStateKey(), f.bytesJson, f.hardStateProto, DEFAULT_HARD_STATE);
    var hs := HardStateOf(f, db1).(commit := idx, term := EntryByIdx(f, s.db, idx).value.term);
    assert r.db == SaveHardState(f, db1, hs);
    SaveStateRoundTrip(f, db1, hs, DEFAULT_CONF_STATE);
    UncommitRoundTrip(f, s.db, ui);
    ReadSameSlot(db1, r.db, UncommitKey(), f.bytesJson);
  }

  /** Committing leaves the log itself untouched. */
  lemma {:induction false} CommitKeepsLog(f: Formats, s: Storage, idx: nat)
    requires EntryDecodable(f, s.db, idx) && EntryByIdx(f, s.db, idx).Some?
    requires HardStateReadable(f, s.db)
    ensures forall n, e :: StoredEntry(f, CommitIndex(f, s, idx).db, n, e) <==> StoredEntry(f, s.db, n, e)
  {
    var r := CommitIndex(f, s, idx);
    forall n, e
      ensures StoredEntry(f, r.db, n, e) <==> StoredEntry(f, s.db, n, e)
    {
      var k := Keys.KeyNameByEntry(n);
      assert k != HardStateKey() && k != UncommitKey();
      assert Get(r.db, k) == Get(s.db, k);
      ReadSameSlot(s.db, r.db, k, f.bytesJson);
    }
  }

  // ------------------------------------------------------------ creation

  /** `create_snapshot_metadata`: the snapshot covers the log up to the committed
      index, at the committed term, with the stored configuration. */
  function CreateSnapshotMetadata(f: Formats, db: Column): (m: SnapshotMetadata)
    requires HardStateReadable(f, db) && ConfStateReadable(f, db)
    ensures m.index == HardStateOf(f, db).commit && m.term == HardStateOf(f, db).term
    ensures m.confState == ConfStateOf(f, db)
  {
    SnapshotMetadata(ConfStateOf(f, db), HardStateOf(f, db).commit, HardStateOf(f, db).term)
  }

  /** `new`: reloads the uncommitted set and derives the snapshot metadata from
      the stored states (both reads unwrap). */
  function New(f: Formats, db: Column): (r: Storage)
    requires HardStateReadable(f, db) && ConfStateReadable(f, db)
    ensures r.db == db
    ensures r.snapshotMetadata.index == HardStateOf(f, db).commit
    ensures r.snapshotMetadata.confState == ConfStateOf(f, db)
    ensures r.snapshotMetadata.term == HardStateOf(f, db).term
    ensures r.uncommitIndex == LoadUncommitIndex(f, db)
    ensures Get(db, UncommitKey()).None? ==> r.uncommitIndex == map[]
  {
    Storage(LoadUncommitIndex(f, db), CreateSnapshotMetadata(f, db), db)
  }

  /** A storage opened on an empty column family holds an empty log starting
      at index 1, no uncommitted entries and the default metadata. */
  lemma {:induction false} NewOnEmptyStore(f: Formats)
    ensures HardStateReadable(f, []) && ConfStateReadable(f, [])
    ensures New(f, []).snapshotMetadata == DEFAULT_SNAPSHOT_METADATA
    ensures New(f, []).uncommitIndex == map[]
    ensures FirstIndex(f, New(f, [])) == 1 && LastIndex(f, New(f, [])) == 0
  {
  }
}

=== FILE: retry.dfy ===
/** The placement-center client: the services and interfaces a call names,
    the address-selection step of its retry loop, and the retry budget and
    back-off of the client crate. */
module PlacementClient {
  import opened Ints

  datatype PlacementCenterService = Kv | OpenRaft

  datatype PlacementCenterInterface = Set | Get | Delete | Exists | Vote | Append | Snapshot

  /** The attempt counter of `retry_call` starts at 1. */
  const FIRST_ATTEMPT: nat := 1

  /** The index of the address tried at attempt `times`: the counter modulo
      the number of addresses (an empty list divides by zero and aborts). */
  function SelectIndex(times: usize, len: nat): (i: nat)
    requires len > 0
    ensures i < len
    ensures exists q: nat :: times == q * len + i
  {
    assert times == (times / len) * len + times % len;
    times % len
  }

  /** The address tried at attempt `times`. */
  function SelectAddr(addrs: seq<string>, times: usize): (a: string)
    requires |addrs| > 0
    ensures a in addrs
    ensures a == addrs[SelectIndex(times, |addrs|)]
  {
    addrs[times % |addrs|]
  }

  /** The first attempt goes to the second address, or to the only one. */
  lemma {:induction false} FirstAttemptAddr(addrs: seq<string>)
    requires |addrs| > 0
    ensures |addrs| == 1 ==> SelectAddr(addrs, FIRST_ATTEMPT) == addrs[0]
    ensures |addrs| >= 2 ==> SelectAddr(addrs, FIRST_ATTEMPT) == addrs[1]
  {
  }

  /** A multiple of `n` strictly between `-n` and `n` is zero. */
  lemma {:induction false} MultipleInOpenRange(n: int, k: int)
    requires n > 0 && -n < n * k < n
    ensures k == 0
  {
  }

  /** The remainder of `n * q + i` is `i` when `0 <= i < n`. */
  lemma {:induction false} ModOfMultiplePlus(n: int, q: int, i: int)
    requires n > 0 && 0 <= i < n
    ensures (n * q + i) % n == i
  {
    var m := n * q + i;
    assert m == n * (m / n) + m % n;
    assert n * (q - m / n) == m % n - i;
    MultipleInOpenRange(n, q - m / n);
  }

  /** Within any `len` consecutive attempts, distinct attempts try distinct
      addresses. */
  lemma {:induction false} SelectWindowInjective(start: nat, j1: nat, j2: nat, len: nat)
    requires len > 0 && j1 < len && j2 < len
    requires start + j1 <= USIZE_MAX && start + j2 <= USIZE_MAX
    ensures SelectIndex(start + j1, len) == SelectIndex(start + j2, len) <==> j1 == j2
  {
    var a, b := start + j1, start + j2;
    if a % len == b % len {
      assert a == len * (a / len) + a % len;
      assert b == len * (b / len) + b % len;
      assert len * (b / len - a / len) == j2 - j1;
      MultipleInOpenRange(len, b / len - a / len);
    }
  }

  /** Within any `len` consecutive attempts, every address is tried. */
  lemma {:induction false} SelectWindowCovers(start: nat, i: nat, len: nat)
    requires len > 0 && i < len && start + len <= USIZE_MAX
    ensures exists t: usize :: start <= t < start + len && SelectIndex(t, len) == i
  {
    var q, r := start / len, start % len;
    assert start == len * q + r;
    if i >= r {
      var j: nat := i - r;
      assert start + j == len * q + i;
      ModOfMultiplePlus(len, q, i);
      assert SelectIndex(start + j, len) == i;
    } else {
      var j: nat := len - r + i;
      assert start + j == len * (q + 1) + i;
      ModOfMultiplePlus(len, q + 1, i);
      assert SelectIndex(start + j, len) == i;
    }
  }

  /** `retry_times`: the number of attempts a call makes. */
  const RETRY_TIMES: usize := 3

  /** `retry_sleep_time`: seconds to wait after attempt `times`, twice the
      attempt number; the doubling must fit in a `usize`. */
  function RetrySleepTime(times: usize): (s: u64)
    requires times * 2 <= USIZE_MAX
    ensures s % 2 == 0 && s / 2 == times
  {
    times * 2
  }

  /** The back-off starts at zero and grows strictly with the attempt. */
  lemma {:induction false} SleepIncreasing(a: usize, b: usize)
    requires a * 2 <= USIZE_MAX && b * 2 <= USIZE_MAX
    ensures RetrySleepTime(0) == 0
    ensures a < b ==> RetrySleepTime(a) < RetrySleepTime(b)
  {
  }

  /** Total back-off over attempts `1..=n`. */
  function TotalSleep(n: nat): nat
    requires n * 2 <= USIZE_MAX
  {
    if n == 0 then 0 else TotalSleep(n - 1) + RetrySleepTime(n)
  }

  /** Linear back-off sums to `n * (n + 1)`. */
  lemma {:induction false} TotalSleepClosedForm(n: nat)
    requires n * 2 <= USIZE_MAX
    ensures TotalSleep(n) == n * (n + 1)
  {
    if n > 0 {
      TotalSleepClosedForm(n - 1);
      assert (n - 1) * n + 2 * n == n * (n + 1);
    }
  }

  /** `retry_sleep_time(t)` summed over `t` in `1..=retry_times()` is 12
      seconds: the backoff budget the two constants describe. */
  lemma {:induction false} TotalSleepOfRetries()
    ensures TotalSleep(RETRY_TIMES) == 12
  {
    TotalSleepClosedForm(RETRY_TIMES);
  }
}

=== FILE: rocksdb.dfy ===
/** The RocksDB wrapper (`RocksDBEngine`) as an ordered key-value store.

    The engine has exactly one column family, "cluster", so its whole content
    is one `Column`: rows sorted strictly by key in the engine's key order
    (`Lex.Less`). Keys are UTF-8 strings. A stored value is either the UTF-8
    bytes of a string (`Text`) -- everything this engine's own `write` and
    `write_str` produce -- or bytes that are not UTF-8 (`NonUtf8`), which only
    another writer can leave behind and which reads must reject. */
module RocksDb {
  import opened Wrappers
  import opened Serial
  import Lex

  /** The only column family the engine creates. */
  const DB_COLUMN_FAMILY_CLUSTER: string := "cluster"

  /** `column_family_list`: the store has the single family "cluster". */
  function ColumnFamilyList(): (r: seq<string>)
    ensures |r| == 1
    ensures forall f :: f in r <==> f == DB_COLUMN_FAMILY_CLUSTER
  {
    [DB_COLUMN_FAMILY_CLUSTER]
  }

  datatype Blob = Text(text: string) | NonUtf8(raw: bytes)

  datatype Row = Row(key: string, value: Blob)

  predicate Ordered(rows: seq<Row>) {
    forall i, j :: 0 <= i < j < |rows| ==> Lex.Less(rows[i].key, rows[j].key)
  }

  /** The content of the column family, in iteration order. */
  type Column = rows: seq<Row> | Ordered(rows) witness []

  function Keys(rows: seq<Row>): set<string> {
    set i | 0 <= i < |rows| :: rows[i].key
  }

  /** The value stored under `key`, if any (`get_cf`). */
  function Get(rows: seq<Row>, key: string): (r: Option<Blob>)
    ensures r.Some? <==> key in Keys(rows)
    ensures r.Some? ==> Row(key, r.value) in rows
  {
    if |rows| == 0 then None
    else if rows[0].key == key then Some(rows[0].value)
    else
      var r := Get(rows[1..], key);
      assert Keys(rows) == {rows[0].key} + Keys(rows[1..]);
      r
  }

  lemma {:induction false} KeysCons(x: Row, rest: seq<Row>)
    ensures Keys([x] + rest) == {x.key} + Keys(rest)
  {
    var r := [x] + rest;
    assert r[0] == x;
    forall k | k in Keys(r)
      ensures k in {x.key} + Keys(rest)
    {
      var i :| 0 <= i < |r| && r[i].key == k;
      if i > 0 {
        assert rest[i - 1].key == k;
      }
    }
    forall k | k in Keys(rest)
      ensures k in Keys(r)
    {
      var i :| 0 <= i < |rest| && rest[i].key == k;
      assert r[i + 1].key == k;
    }
  }

  /** In an ordered column the first row's key is below every later key. */
  lemma {:induction false} HeadBelowRest(s: Column)
    requires |s| > 0
    ensures forall k :: k in Keys(s[1..]) ==> Lex.Less(s[0].key, k)
  {
    forall k | k in Keys(s[1..])
      ensures Lex.Less(s[0].key, k)
    {
      var j :| 0 <= j < |s[1..]| && s[1..][j].key == k;
      assert s[j + 1].key == k;
    }
  }

  /** `put_cf`: the column with `key` now holding `value`. */
  function Put(s: Column, key: string, value: Blob): (r: Column)
    ensures Keys(r) == Keys(s) + {key}
    ensures forall k :: Get(r, k) == if k == key then Some(value) else Get(s, k)
  {
    if |s| == 0 then
      KeysCons(Row(key, value), []);
      assert [Row(key, value)] + [] == [Row(key, value)];
      [Row(key, value)]
    else if s[0].key == key then
      HeadBelowRest(s);
      Lex.Irreflexive(key);
      var r := [Row(key, value)] + s[1..];
      assert r[1..] == s[1..];
      forall j | 1 <= j < |r|
        ensures Lex.Less(key, r[j].key)
      {
        assert r[j] == s[j];
      }
      assert s == [s[0]] + s[1..];
      KeysCons(s[0], s[1..]);
      KeysCons(Row(key, value), s[1..]);
      r
    else if Lex.Less(key, s[0].key) then
      forall j | 0 <= j < |s|
        ensures Lex.Less(key, s[j].key)
      {
        if j > 0 {
          Lex.Transitive(key, s[0].key, s[j].key);
        }
      }
      var r := [Row(key, value)] + s;
      assert r[1..] == s;
      KeysCons(Row(key, value), s);
      r
    else
      Lex.Total(key, s[0].key);
      HeadBelowRest(s);
      var tail := Put(s[1..], key, value);
      var r := [s[0]] + tail;
      assert r[1..] == tail;
      forall j | 1 <= j < |r|
        ensures Lex.Less(s[0].key, r[j].key)
      {
        assert r[j].key in Keys(tail);
      }
      assert s == [s[0]] + s[1..];
      KeysCons(s[0], s[1..]);
      KeysCons(s[0], tail);
      r
  }

  /** `delete_cf`: the column without `key`; absent keys are no-ops. */
  function Remove(s: Column, key: string): (r: Column)
    ensures Keys(r) == Keys(s) - {key}
    ensures forall k :: Get(r, k) == if k == key then None else Get(s, k)
  {
    if |s| == 0 then s
    else if s[0].key == key then
      HeadBelowRest(s);
      Lex.Irreflexive(key);
      assert s == [s[0]] + s[1..];
      KeysCons(s[0], s[1..]);
      s[1..]
    else
      HeadBelowRest(s);
      var tail := Remove(s[1..], key);
      var r := [s[0]] + tail;
      assert r[1..] == tail;
      forall j | 1 <= j < |r|
        ensures Lex.Less(s[0].key, r[j].key)
      {
        assert r[j].key in Keys(tail);
      }
      assert s == [s[0]] + s[1..];
      KeysCons(s[0], s[1..]);
      KeysCons(s[0], tail);
      r
  }

  /** `write`: stores the UTF-8 bytes of the value's JSON text under `key`.
      Serializing the value types used here cannot fail, and `put_cf` I/O
      failures are not modelled. */
  function Write<T>(s: Column, key: string, value: T, json: Codec<T, string>): (r: Column)
    ensures Get(r, key) == Some(Text(json.encode(value)))
    ensures forall k :: k != key ==> Get(r, k) == Get(s, k)
  {
    Put(s, key, Text(json.encode(value)))
  }

  /** `write_str`: stores the bytes of a string as they are, without JSON. */
  function WriteStr(s: Column, key: string, value: string): (r: Column)
    ensures Get(r, key) == Some(Text(value))
    ensures Keys(r) == Keys(s) + {key}
    ensures forall k :: k != key ==> Get(r, k) == Get(s, k)
  {
    Put(s, key, Text(value))
  }

  /** `delete`. */
  function Delete(s: Column, key: string): (r: Column)
    ensures Get(r, key).None?
    ensures forall k :: k != key ==> Get(r, k) == Get(s, k)
  {
    Remove(s, key)
  }

  /** The two failures `read` reports, both as "Failed to deserialize". */
  datatype ReadError = NotUtf8 | NotDecodable

  /** `read::<T>`: absent keys read as `Ok(None)`; stored bytes must be UTF-8
      and must parse as JSON of a `T`, otherwise the read is an error. */
  function Read<T>(s: Column, key: string, json: Codec<T, string>): (r: Result<Option<T>, ReadError>)
    ensures r == Ok(None) <==> Get(s, key).None?
    ensures r.Ok? && r.value.Some? ==>
      Get(s, key).Some? && Get(s, key).value.Text? && json.decode(Get(s, key).value.text) == r.value
    ensures r.Err? ==> Get(s, key).Some?
    ensures Get(s, key).Some? && Get(s, key).value.Text? && json.decode(Get(s, key).value.text).Some? ==>
      r == Ok(json.decode(Get(s, key).value.text))
  {
    match Get(s, key)
    case None => Ok(None)
    case Some(NonUtf8(_)) => Err(NotUtf8)
    case Some(Text(t)) =>
      match json.decode(t)
      case Some(v) => Ok(Some(v))
      case None => Err(NotDecodable)
  }

  /** Reading a key back after writing it gives the written value. */
  lemma {:induction false} ReadAfterWrite<T(!new)>(s: Column, key: string, value: T, json: Codec<T, string>)
    requires RoundTrips(json)
    ensures Read(Write(s, key, value, json), key, json) == Ok(Some(value))
  {
  }

  /** Writing one key leaves the reads of every other key as they were. */
  lemma {:induction false} ReadOtherAfterWrite<T, U>(s: Column, key: string, value: T, json: Codec<T, string>, other: string, json': Codec<U, string>)
    requires other != key
    ensures Read(Write(s, key, value, json), other, json') == Read(s, other, json')
  {
  }

  /** After a delete, the key reads as never written; other keys are untouched. */
  lemma {:induction false} ReadAfterDelete<T>(s: Column, key: string, json: Codec<T, string>, other: string)
    ensures Read(Delete(s, key), key, json) == Ok(None)
    ensures other != key ==> Read(Delete(s, key), other, json) == Read(s, other, json)
  {
  }

  /** Stored bytes that are not UTF-8 make the read fail rather than report
      the key as absent. */
  lemma {:induction false} ReadNonUtf8Fails<T>(s: Column, key: string, raw: bytes, json: Codec<T, string>)
    requires Get(s, key) == Some(NonUtf8(raw))
    ensures Read(s, key, json) == Err(NotUtf8)
  {
  }

  /** A read depends only on what is stored under the key read. */
  lemma {:induction false} ReadSameSlot<T>(s: Column, s': Column, key: string, json: Codec<T, string>)
    requires Get(s', key) == Get(s, key)
    ensures Read(s', key, json) == Read(s, key, json)
  {
  }

  /** In an ordered column a row's key determines its value. */
  lemma {:induction false} GetOfMember(s: Column, row: Row)
    requires row in s
    ensures Get(s, row.key) == Some(row.value)
  {
    var i :| 0 <= i < |s| && s[i] == row;
    var v := Get(s, row.key).value;
    var j :| 0 <= j < |s| && s[j] == Row(row.key, v);
    if i != j {
      if i < j {
        Lex.Irreflexive(row.key);
      } else {
        Lex.Irreflexive(row.key);
      }
    }
  }

  /** The rows that satisfy `keep`, in their original order. */
  function Where(rows: seq<Row>, keep: Row -> bool): (r: seq<Row>)
    ensures forall x :: x in r <==> x in rows && keep(x)
    ensures |r| <= |rows|
  {
    if |rows| == 0 then []
    else
      var rest := Where(rows[1..], keep);
      assert forall x :: x in rows <==> x == rows[0] || x in rows[1..];
      if keep(rows[0]) then [rows[0]] + rest else rest
  }

  /** Filtering an ordered column leaves it ordered. */
  lemma {:induction false} WhereOrdered(rows: seq<Row>, keep: Row -> bool)
    requires Ordered(rows)
    ensures Ordered(Where(rows, keep))
  {
    if |rows| > 0 {
      WhereOrdered(rows[1..], keep);
      var rest := Where(rows[1..], keep);
      if keep(rows[0]) {
        var r := [rows[0]] + rest;
        forall a, b | 0 <= a < b < |r|
          ensures Lex.Less(r[a].key, r[b].key)
        {
          if a == 0 {
            assert r[b] in rest;
            var k :| 0 <= k < |rows[1..]| && rows[1..][k] == r[b];
            assert rows[k + 1] == r[b];
          } else {
            assert r[a] == rest[a - 1] && r[b] == rest[b - 1];
          }
        }
      }
    }
  }

  lemma {:induction false} WhereConcat(a: seq<Row>, b: seq<Row>, keep: Row -> bool)
    ensures Where(a + b, keep) == Where(a, keep) + Where(b, keep)
  {
    if |a| > 0 {
      assert (a + b)[1..] == a[1..] + b;
      WhereConcat(a[1..], b, keep);
    } else {
      assert a + b == b;
    }
  }

  lemma {:induction false} WhereNone(rows: seq<Row>, keep: Row -> bool)
    requires forall i :: 0 <= i < |rows| ==> !keep(rows[i])
    ensures Where(rows, keep) == []
  {
    if |rows| > 0 {
      WhereNone(rows[1..], keep);
    }
  }

  lemma {:induction false} WhereAll(rows: seq<Row>, keep: Row -> bool)
    requires forall i :: 0 <= i < |rows| ==> keep(rows[i])
    ensures Where(rows, keep) == rows
  {
    if |rows| > 0 {
      WhereAll(rows[1..], keep);
      assert rows == [rows[0]] + rows[1..];
    }
  }

  /** Each row as a one-entry map, the shape the scans return. */
  function Singletons(rows: seq<Row>): seq<map<string, Blob>> {
    seq(|rows|, i requires 0 <= i < |rows| => map[rows[i].key := rows[i].value])
  }

  function KeyStartsWith(p: string): Row -> bool {
    (row: Row) => p <= row.key
  }

  predicate IsTextRow(row: Row) {
    row.value.Text?
  }

  /** Reference definition of a prefix scan: the rows whose key starts with
      `p`, in key order. */
  function PrefixRows(s: Column, p: string): (r: Column)
    ensures forall row :: row in r <==> row in s && p <= row.key
  {
    WhereOrdered(s, KeyStartsWith(p));
    Where(s, KeyStartsWith(p))
  }

  /** A prefix scan finds a key exactly when it is stored and starts with `p`. */
  lemma {:induction false} PrefixRowsExact(s: Column, p: string, k: string, v: Blob)
    ensures Row(k, v) in PrefixRows(s, p) <==> p <= k && Get(s, k) == Some(v)
  {
    if p <= k && Get(s, k) == Some(v) {
      assert Row(k, v) in s;
    }
    if Row(k, v) in PrefixRows(s, p) {
      GetOfMember(s, Row(k, v));
    }
  }

  /** `read_prefix`: seeks to the first key not below `p`, then collects rows
      while their key starts with `p`, stopping at the first one that does not.
      Because keys with a common prefix are contiguous in key order, this finds
      exactly `PrefixRows`. Raw values are returned as stored. */
  method ReadPrefix(s: Column, p: string) returns (result: seq<map<string, Blob>>)
    ensures result == Singletons(PrefixRows(s, p))
  {
    var i := 0;
    while i < |s| && Lex.Less(s[i].key, p)
      invariant 0 <= i <= |s|
      invariant forall j :: 0 <= j < i ==> Lex.Less(s[j].key, p)
    {
      i := i + 1;
    }
    var start := i;
    result := [];
    while i < |s| && p <= s[i].key
      invariant start <= i <= |s|
      invariant forall j :: start <= j < i ==> p <= s[j].key
      invariant result == Singletons(s[start..i])
    {
      assert s[start..i + 1] == s[start..i] + [s[i]];
      assert Singletons(s[start..i + 1]) == Singletons(s[start..i]) + [map[s[i].key := s[i].value]];
      result := result + [map[s[i].key := s[i].value]];
      i := i + 1;
    }
    ScanBounds(s, p, start, i);
  }

  /** What the two loops of `ReadPrefix` establish is enough: rows before the
      seek position sort below `p`, and the run stops at a key that does not
      start with `p` (or at the end). */
  lemma {:induction false} ScanBounds(s: Column, p: string, start: nat, i: nat)
    requires start <= i <= |s|
    requires forall j :: 0 <= j < start ==> Lex.Less(s[j].key, p)
    requires start < |s| ==> !Lex.Less(s[start].key, p)
    requires forall j :: start <= j < i ==> p <= s[j].key
    requires i < |s| ==> !(p <= s[i].key)
    ensures PrefixRows(s, p) == s[start..i]
  {
    var keep := KeyStartsWith(p);
    SeekSkipsNothing(s[..start], p);
    WhereAll(s[start..i], keep);
    if i < |s| {
      assert !Lex.Less(s[i].key, p) by {
        if Lex.Less(s[i].key, p) && start < i {
          Lex.Transitive(s[start].key, s[i].key, p);
        }
      }
      RunEndsAtFirstMismatch(s, i, p);
    } else {
      WhereNone(s[i..], keep);
    }
    SplitThree(s, start, i);
    WhereOfThree(s[..start], s[start..i], s[i..], keep);
  }

  /** Filtering three joined pieces of which only the middle one survives. */
  lemma {:induction false} WhereOfThree(x: seq<Row>, y: seq<Row>, z: seq<Row>, keep: Row -> bool)
    requires Where(x, keep) == [] && Where(y, keep) == y && Where(z, keep) == []
    ensures Where(x + y + z, keep) == y
  {
    WhereConcat(x + y, z, keep);
    WhereConcat(x, y, keep);
  }

  lemma {:induction false} SplitThree<T>(s: seq<T>, a: nat, b: nat)
    requires a <= b <= |s|
    ensures s == s[..a] + s[a..b] + s[b..]
  {
  }


  /** No key below `p` starts with `p`. */
  lemma {:induction false} SeekSkipsNothing(rows: seq<Row>, p: string)
    requires forall j :: 0 <= j < |rows| ==> Lex.Less(rows[j].key, p)
    ensures Where(rows, KeyStartsWith(p)) == []
  {
    forall j | 0 <= j < |rows|
      ensures !KeyStartsWith(p)(rows[j])
    {
      if p <= rows[j].key {
        Lex.PrefixNotBelow(rows[j].key, p);
      }
    }
    WhereNone(rows, KeyStartsWith(p));
  }

  /** Once a key at or above `p` does not start with `p`, no later key does. */
  lemma {:induction false} RunEndsAtFirstMismatch(s: Column, i: nat, p: string)
    requires i < |s| && !Lex.Less(s[i].key, p) && !(p <= s[i].key)
    ensures Where(s[i..], KeyStartsWith(p)) == []
  {
    forall j | i <= j < |s|
      ensures !KeyStartsWith(p)(s[j])
    {
      if j > i && p <= s[j].key {
        Lex.PrefixBlock(p, s[i].key, s[j].key);
      }
    }
    WhereNone(s[i..], KeyStartsWith(p));
  }

  /** The rows whose value is UTF-8 text, in key order. */
  function TextRows(s: Column): (r: Column)
    ensures forall row :: row in r <==> row in s && row.value.Text?
  {
    WhereOrdered(s, IsTextRow);
    Where(s, IsTextRow)
  }

  /** `read_all_by_cf`: every stored row in ascending key order, as a one-entry
      map of key to text; rows whose value is not UTF-8 are skipped (logged). */
  function ReadAllByCf(s: Column): (r: seq<map<string, string>>)
    ensures |r| == |TextRows(s)|
  {
    var rows := TextRows(s);
    seq(|rows|, i requires 0 <= i < |rows| => assert rows[i] in rows; map[rows[i].key := rows[i].value.text])
  }

  /** `read_all_by_cf` lists each readable key once, ascending, with its text:
      its i-th map is the one-entry map of a stored text row, and every
      stored text row appears. */
  lemma {:induction false} ReadAllByCfExact(s: Column, k: string, t: string)
    ensures (exists i :: 0 <= i < |ReadAllByCf(s)| && ReadAllByCf(s)[i] == map[k := t]) <==> Get(s, k) == Some(Text(t))
    ensures forall i, j :: 0 <= i < j < |ReadAllByCf(s)| ==> Lex.Less(TextRows(s)[i].key, TextRows(s)[j].key)
    ensures forall i :: 0 <= i < |ReadAllByCf(s)| ==> ReadAllByCf(s)[i] == map[TextRows(s)[i].key := TextRows(s)[i].value.text]
  {
    var rows := TextRows(s);
    var r := ReadAllByCf(s);
    if Get(s, k) == Some(Text(t)) {
      assert Row(k, Text(t)) in rows;
      var i :| 0 <= i < |rows| && rows[i] == Row(k, Text(t));
      assert r[i] == map[k := t];
    }
    if exists i :: 0 <= i < |r| && r[i] == map[k := t] {
      var i :| 0 <= i < |r| && r[i] == map[k := t];
      assert rows[i] in rows;
      assert k in r[i] && r[i][k] == t;
      assert rows[i].key == k && rows[i].value == Text(t);
      GetOfMember(s, rows[i]);
    }
  }

  /** `read_all`: one entry per column family, keyed by its name; the only
      family is "cluster" and it holds every readable row. */
  function ReadAll(s: Column): (r: map<string, seq<map<string, string>>>)
    ensures r.Keys == {DB_COLUMN_FAMILY_CLUSTER}
    ensures r[DB_COLUMN_FAMILY_CLUSTER] == ReadAllByCf(s)
  {
    map family | family in ColumnFamilyList() :: ReadAllByCf(s)
  }

  /** Writing back, with `write_str`, the text `read_all_by_cf` returned for a
      key previously written with `write` restores a value that reads back
      equal, whatever column it is written into. */
  lemma {:induction false} WriteStrOfDumpReadsBack<T(!new)>(s: Column, key: string, value: T, json: Codec<T, string>, target: Column, i: nat)
    requires RoundTrips(json)
    requires i < |ReadAllByCf(Write(s, key, value, json))|
    requires key in ReadAllByCf(Write(s, key, value, json))[i]
    ensures Read(WriteStr(target, key, ReadAllByCf(Write(s, key, value, json))[i][key]), key, json) == Ok(Some(value))
  {
    var s' := Write(s, key, value, json);
    var t := ReadAllByCf(s')[i][key];
    ReadAllByCfExact(s', key, t);
    assert ReadAllByCf(s')[i] == map[key := t];
  }

  // ------------------------------------------------------- counting rows

  /** An ordered column holds each key once: it has as many rows as keys. */
  lemma {:induction false} OrderedKeyCount(s: Column)
    ensures |Keys(s)| == |s|
    decreases |s|
  {
    if |s| > 0 {
      var rest: Column := s[1..];
      assert s == [s[0]] + rest;
      OrderedKeyCount(rest);
      KeysCons(s[0], rest);
      HeadBelowRest(s);
      if s[0].key in Keys(rest) {
        Lex.Irreflexive(s[0].key);
        assert false;
      }
    }
  }

  /** The keys a prefix scan returns are the stored keys that start with `p`. */
  lemma {:induction false} PrefixRowsKeys(s: Column, p: string)
    ensures Keys(PrefixRows(s, p)) == set k | k in Keys(s) && p <= k
  {
    var r := PrefixRows(s, p);
    forall k | k in Keys(s) && p <= k
      ensures k in Keys(r)
    {
      var i :| 0 <= i < |s| && s[i].key == k;
      assert s[i] in r;
      var j :| 0 <= j < |r| && r[j] == s[i];
    }
    forall k | k in Keys(r)
      ensures k in Keys(s) && p <= k
    {
      var j :| 0 <= j < |r| && r[j].key == k;
      assert r[j] in s;
      var i :| 0 <= i < |s| && s[i] == r[j];
    }
  }

  /** The number of rows a prefix scan returns: the number of stored keys that
      start with `p`. */
  lemma {:induction false} PrefixRowsCount(s: Column, p: string)
    ensures |PrefixRows(s, p)| == |set k | k in Keys(s) && p <= k|
  {
    OrderedKeyCount(PrefixRows(s, p));
    PrefixRowsKeys(s, p);
  }
}

=== FILE: route.dfy ===
/** `DataRoute`: the raft state machine's entry point for committed data. It
    decodes the `StorageData` envelope (bincode; a failure aborts, so decoding
    is a precondition) and dispatches on its tag to exactly one handler,
    passing the payload through unchanged. */
module DataRoute {
  import opened Wrappers
  import opened Serial
  import opened Errors
  import opened KvProto
  import opened Apply
  import KvStorage
  import DataRouteKv

  /** The bincode codec of the envelope, the prost codecs of the requests and
      the JSON codec of stored string values. */
  datatype Codecs = Codecs(storageData: Codec<StorageData, bytes>, requests: RequestCodecs, valueJson: Codec<string, bytes>)

  /** The payload of the envelope decodes as the request its tag announces. */
  predicate PayloadDecodes(c: Codecs, d: StorageData) {
    match d.dataType
    case KvSet => c.requests.setRequest.decode(d.value).Some?
    case KvDelete => c.requests.deleteRequest.decode(d.value).Some?
  }

  /** `route`: a `KvSet` envelope goes to `DataRouteKv::set`, which ends in
      `KvStorage::set` and so deletes the key; a `KvDelete` envelope goes to
      `DataRouteKv::delete`. */
  function Route(c: Codecs, e: KvStorage.Engine, data: bytes): (r: (KvStorage.Engine, Result<(), MqError>))
    requires c.storageData.decode(data).Some?
    requires PayloadDecodes(c, c.storageData.decode(data).value)
    ensures c.storageData.decode(data).value.dataType == KvSet ==>
      r == DataRouteKv.Set(c.requests, e, c.storageData.decode(data).value.value)
    ensures c.storageData.decode(data).value.dataType == KvDelete ==>
      r == DataRouteKv.Delete(c.requests, e, c.storageData.decode(data).value.value)
  {
    var d := c.storageData.decode(data).value;
    match d.dataType
    case KvSet => DataRouteKv.Set(c.requests, e, d.value)
    case KvDelete => DataRouteKv.Delete(c.requests, e, d.value)
  }

  /** `route` with the corrected set handler, which stores the value;
      `createTime` is the clock reading a stored record carries. */
  function RouteCorrected(c: Codecs, e: KvStorage.Engine, data: bytes, createTime: nat): (r: (KvStorage.Engine, Result<(), MqError>))
    requires c.storageData.decode(data).Some?
    requires PayloadDecodes(c, c.storageData.decode(data).value)
    ensures c.storageData.decode(data).value.dataType == KvSet ==>
      r == DataRouteKv.SetCorrected(c.requests, e, c.storageData.decode(data).value.value, c.valueJson, createTime)
    ensures c.storageData.decode(data).value.dataType == KvDelete ==>
      r == DataRouteKv.Delete(c.requests, e, c.storageData.decode(data).value.value)
  {
    var d := c.storageData.decode(data).value;
    match d.dataType
    case KvSet => DataRouteKv.SetCorrected(c.requests, e, d.value, c.valueJson, createTime)
    case KvDelete => DataRouteKv.Delete(c.requests, e, d.value)
  }

  /** The two routers differ only in what a set does to its own key: on a
      delete they agree, and on a set of key k they leave every other key the
      same, while the written router removes k and the corrected one keeps it. */
  lemma {:induction false} RoutersDifferOnlyOnSetKey(c: Codecs, e: KvStorage.Engine, data: bytes, createTime: nat)
    requires c.storageData.decode(data).Some?
    requires PayloadDecodes(c, c.storageData.decode(data).value)
    ensures var d := c.storageData.decode(data).value;
            d.dataType == KvDelete ==> RouteCorrected(c, e, data, createTime) == Route(c, e, data)
    ensures var d := c.storageData.decode(data).value;
            d.dataType == KvSet ==>
              var key := c.requests.setRequest.decode(d.value).value.key;
              var asWritten := Route(c, e, data).0;
              var corrected := RouteCorrected(c, e, data, createTime).0;
              key !in asWritten && key in corrected &&
              forall k :: k != key ==> (k in asWritten <==> k in corrected) && (k in asWritten ==> asWritten[k] == corrected[k])
  {
  }

  /** The envelope the KV service proposes for a set request. */
  function SetEnvelope(c: Codecs, req: SetRequest): StorageData {
    StorageData(KvSet, c.requests.setRequest.encode(req))
  }

  /** The envelope the KV service proposes for a delete request. */
  function DeleteEnvelope(c: Codecs, req: DeleteRequest): StorageData {
    StorageData(KvDelete, c.requests.deleteRequest.encode(req))
  }

  /** Applying a proposed set of key k deletes k, whatever value the request
      carried: the request survives the two encodings intact and reaches
      `KvStorage::set`. */
  lemma {:induction false} RouteOfProposedSet(c: Codecs, e: KvStorage.Engine, req: SetRequest)
    requires RoundTrips(c.storageData) && RoundTrips(c.requests.setRequest)
    ensures c.storageData.decode(c.storageData.encode(SetEnvelope(c, req))).Some?
    ensures PayloadDecodes(c, c.storageData.decode(c.storageData.encode(SetEnvelope(c, req))).value)
    ensures Route(c, e, c.storageData.encode(SetEnvelope(c, req))) == KvStorage.Delete(e, req.key)
    ensures req.key !in Route(c, e, c.storageData.encode(SetEnvelope(c, req))).0
  {
    var d := SetEnvelope(c, req);
    assert c.storageData.decode(c.storageData.encode(d)) == Some(d);
    assert c.requests.setRequest.decode(d.value) == Some(req);
  }

  /** With the corrected router, applying a proposed set stores the request's
      value under its key. */
  lemma {:induction false} RouteCorrectedOfProposedSet(c: Codecs, e: KvStorage.Engine, req: SetRequest, createTime: nat)
    requires RoundTrips(c.storageData) && RoundTrips(c.requests.setRequest)
    ensures c.storageData.decode(c.storageData.encode(SetEnvelope(c, req))).Some?
    ensures PayloadDecodes(c, c.storageData.decode(c.storageData.encode(SetEnvelope(c, req))).value)
    ensures RouteCorrected(c, e, c.storageData.encode(SetEnvelope(c, req)), createTime) ==
            KvStorage.Upsert(e, req.key, req.value, c.valueJson, createTime)
  {
    var d := SetEnvelope(c, req);
    assert c.storageData.decode(c.storageData.encode(d)) == Some(d);
    assert c.requests.setRequest.decode(d.value) == Some(req);
  }

  /** Applying a proposed delete of key k deletes k. */
  lemma {:induction false} RouteOfProposedDelete(c: Codecs, e: KvStorage.Engine, req: DeleteRequest)
    requires RoundTrips(c.storageData) && RoundTrips(c.requests.deleteRequest)
    ensures c.storageData.decode(c.storageData.encode(DeleteEnvelope(c, req))).Some?
    ensures PayloadDecodes(c, c.storageData.decode(c.storageData.encode(DeleteEnvelope(c, req))).value)
    ensures Route(c, e, c.storageData.encode(DeleteEnvelope(c, req))) == KvStorage.Delete(e, req.key)
  {
    var d := DeleteEnvelope(c, req);
    assert c.storageData.decode(c.storageData.encode(d)) == Some(d);
    assert c.requests.deleteRequest.decode(d.value) == Some(req);
  }

  /** A proposed set followed by a proposed delete of the same key leaves the
      key absent, and other keys as before the set. */
  lemma {:induction false} SetThenDeleteRemoves(c: Codecs, e: KvStorage.Engine, key: string, value: string, other: string)
    requires RoundTrips(c.storageData) && RoundTrips(c.requests.setRequest) && RoundTrips(c.requests.deleteRequest)
    ensures var e1 := Route(c, e, c.storageData.encode(SetEnvelope(c, SetRequest(key, value)))).0;
            var e2 := Route(c, e1, c.storageData.encode(DeleteEnvelope(c, DeleteRequest(key)))).0;
            key !in e2 && (other != key ==> (other in e2 <==> other in e) && (other in e ==> e2[other] == e[other]))
  {
    RouteOfProposedSet(c, e, SetRequest(key, value));
    var e1 := Route(c, e, c.storageData.encode(SetEnvelope(c, SetRequest(key, value)))).0;
    RouteOfProposedDelete(c, e1, DeleteRequest(key));
  }
}

=== FILE: route_kv.dfy ===
/** `DataRouteKv`: applies committed KV writes by decoding the request in the
    payload and calling `KvStorage`. A payload that does not decode aborts
    (`unwrap`), so decoding is a precondition. */
module DataRouteKv {
  import opened Wrappers
  import opened Serial
  import opened Errors
  import opened KvProto
  import KvStorage

  /** `set`: decodes a `SetRequest` and passes key and value to
      `KvStorage::set`, which deletes the key and discards the value. So
      applying a set ends with the key absent. */
  function Set(c: RequestCodecs, e: KvStorage.Engine, value: bytes): (r: (KvStorage.Engine, Result<(), MqError>))
    requires c.setRequest.decode(value).Some?
    ensures r == KvStorage.Delete(e, c.setRequest.decode(value).value.key)
    ensures c.setRequest.decode(value).value.key !in r.0 && r.1 == Ok(())
  {
    var req := c.setRequest.decode(value).value;
    KvStorage.SetIsDelete(e, req.key, req.value, req.value);
    KvStorage.Set(e, req.key, req.value)
  }

  /** `set` with the corrected storage call `KvStorage.Upsert`, which stores
      the value; `json` is the string codec of the store and `createTime` the
      clock reading the stored record carries. */
  function SetCorrected(c: RequestCodecs, e: KvStorage.Engine, value: bytes, json: Codec<string, bytes>, createTime: nat)
    : (r: (KvStorage.Engine, Result<(), MqError>))
    requires c.setRequest.decode(value).Some?
    ensures var req := c.setRequest.decode(value).value;
            r == KvStorage.Upsert(e, req.key, req.value, json, createTime)
    ensures c.setRequest.decode(value).value.key in r.0 && r.1 == Ok(())
  {
    var req := c.setRequest.decode(value).value;
    KvStorage.Upsert(e, req.key, req.value, json, createTime)
  }

  /** `delete`: decodes a `DeleteRequest` and calls `KvStorage::delete` with its key. */
  function Delete(c: RequestCodecs, e: KvStorage.Engine, value: bytes): (r: (KvStorage.Engine, Result<(), MqError>))
    requires c.deleteRequest.decode(value).Some?
    ensures r == KvStorage.Delete(e, c.deleteRequest.decode(value).value.key)
    ensures c.deleteRequest.decode(value).value.key !in r.0 && r.1 == Ok(())
  {
    var req := c.deleteRequest.decode(value).value;
    KvStorage.Delete(e, req.key)
  }
}

=== FILE: serial.dfy ===
/** Serializers (serde_json, prost, bincode) as opaque codecs.

    The byte-level formats are not part of this model: a codec is any pair of
    total functions, and the only thing the modelled code relies on is that
    decoding an encoding gives the value back (`RoundTrips`). Lemmas that need
    it say so in their `requires`. */
module Serial {
  import opened Wrappers
  import opened Ints

  type bytes = seq<byte>

  /** A serializer of `T` into the representation `Rep` (a JSON string, or a
      byte vector for prost and bincode); decoding may fail. */
  datatype Codec<!T, !Rep> = Codec(encode: T -> Rep, decode: Rep -> Option<T>)

  /** Decoding the encoding of any value gives that value back. */
  ghost predicate RoundTrips<T(!new), Rep>(c: Codec<T, Rep>) {
    forall x :: c.decode(c.encode(x)) == Some(x)
  }
}

=== FILE: services_kv.dfy ===
/** `GrpcKvServices`: the placement center's KV gRPC handlers.

    A write is validated, then forwarded to the leader when this node is not
    the leader, or proposed to raft as a `StorageData` envelope when it is.
    The forward call and the proposal are effects outside the model: each
    handler first decides what to do (`Decide*`), and the handlers take the
    outcome of the chosen effect as a parameter. Reads go straight to the
    local store, whatever the node's role. */
module GrpcKvServices {
  import opened Wrappers
  import opened Serial
  import opened Errors
  import opened KvProto
  import opened Apply
  import Metadata
  import KvStorage
  import DataRoute

  /** What a handler does with a request. */
  datatype Decision =
    | Reject(error: MqError)
    | Forward(addrs: seq<string>)
    | Propose(data: StorageData, action: string)
    | ReadLocal

  /** The decision of `set`: an empty key or value is rejected; a follower
      forwards to the leader's address (the empty string when no leader is
      known); the leader proposes a `KvSet` envelope holding the encoded
      request, under the action name "set". */
  function DecideSet(md: Metadata.RaftGroupMetadata, c: RequestCodecs, req: SetRequest): (d: Decision)
    ensures d.Reject? <==> req.key == "" || req.value == ""
    ensures d.Reject? ==> d.error == ParameterCannotBeNull("key or value")
    ensures d.Forward? <==> !d.Reject? && !Metadata.IsLeader(md)
    ensures d.Forward? ==> d.addrs == [Metadata.LeaderAddr(md)]
    ensures d.Propose? <==> !d.Reject? && Metadata.IsLeader(md)
    ensures d.Propose? ==> d.data == StorageData(KvSet, c.setRequest.encode(req)) && d.action == "set"
  {
    if req.key == "" || req.value == "" then Reject(ParameterCannotBeNull("key or value"))
    else if !Metadata.IsLeader(md) then Forward([Metadata.LeaderAddr(md)])
    else Propose(StorageData(KvSet, c.setRequest.encode(req)), "set")
  }

  /** The decision of `delete`: as for `set`, with only the key checked and a
      `KvDelete` envelope under the action name "delete". */
  function DecideDelete(md: Metadata.RaftGroupMetadata, c: RequestCodecs, req: DeleteRequest): (d: Decision)
    ensures d.Reject? <==> req.key == ""
    ensures d.Reject? ==> d.error == ParameterCannotBeNull("key")
    ensures d.Forward? <==> !d.Reject? && !Metadata.IsLeader(md)
    ensures d.Forward? ==> d.addrs == [Metadata.LeaderAddr(md)]
    ensures d.Propose? <==> !d.Reject? && Metadata.IsLeader(md)
    ensures d.Propose? ==> d.data == StorageData(KvDelete, c.deleteRequest.encode(req)) && d.action == "delete"
  {
    if req.key == "" then Reject(ParameterCannotBeNull("key"))
    else if !Metadata.IsLeader(md) then Forward([Metadata.LeaderAddr(md)])
    else Propose(StorageData(KvDelete, c.deleteRequest.encode(req)), "delete")
  }

  /** The decision of `get` and `exists`: an empty key is rejected, any other
      is read from the local store; the node's role plays no part. */
  function DecideRead(md: Metadata.RaftGroupMetadata, key: string): (d: Decision)
    ensures d.Reject? <==> key == ""
    ensures d.Reject? ==> d.error == ParameterCannotBeNull("key")
    ensures !d.Reject? ==> d.ReadLocal?
  {
    if key == "" then Reject(ParameterCannotBeNull("key")) else ReadLocal
  }

  /** Reads neither forward nor propose, and two nodes decide a read alike
      whatever their roles and peers. */
  lemma {:induction false} ReadsStayLocal(md1: Metadata.RaftGroupMetadata, md2: Metadata.RaftGroupMetadata, key: string)
    ensures !DecideRead(md1, key).Forward? && !DecideRead(md1, key).Propose?
    ensures DecideRead(md1, key) == DecideRead(md2, key)
  {
  }

  /** The reply of a write handler once the chosen effect has run:
      `forwarded` is what the leader answered, `proposed` what the proposal
      returned; only the one the decision picks is looked at. Every failure
      becomes a cancelled status carrying the error. */
  function WriteReply(d: Decision, forwarded: Result<CommonReply, MqError>, proposed: Result<(), MqError>)
    : (r: Result<CommonReply, Status>)
    requires !d.ReadLocal?
    ensures d.Reject? ==> r == Err(Cancelled(d.error))
    ensures d.Forward? ==> (r.Ok? <==> forwarded.Ok?) && (forwarded.Err? ==> r == Err(Cancelled(forwarded.error)))
    ensures d.Propose? ==> (r.Ok? <==> proposed.Ok?) && (proposed.Err? ==> r == Err(Cancelled(proposed.error)))
    ensures r.Ok? ==> r.value == CommonReply
  {
    match d
    case Reject(err) => Err(Cancelled(err))
    case Forward(_) =>
      (match forwarded
       case Ok(reply) => Ok(reply)
       case Err(err) => Err(Cancelled(err)))
    case Propose(_, _) =>
      (match proposed
       case Ok(_) => Ok(CommonReply)
       case Err(err) => Err(Cancelled(err)))
  }

  /** `set`. */
  function Set(md: Metadata.RaftGroupMetadata, c: RequestCodecs, req: SetRequest,
               forwarded: Result<CommonReply, MqError>, proposed: Result<(), MqError>)
    : (r: Result<CommonReply, Status>)
    ensures req.key == "" || req.value == "" ==> r == Err(Cancelled(ParameterCannotBeNull("key or value")))
    ensures req.key != "" && req.value != "" && !Metadata.IsLeader(md) ==> (r.Ok? <==> forwarded.Ok?)
    ensures req.key != "" && req.value != "" && Metadata.IsLeader(md) ==> (r.Ok? <==> proposed.Ok?)
  {
    WriteReply(DecideSet(md, c, req), forwarded, proposed)
  }

  /** `delete`. */
  function Delete(md: Metadata.RaftGroupMetadata, c: RequestCodecs, req: DeleteRequest,
                  forwarded: Result<CommonReply, MqError>, proposed: Result<(), MqError>)
    : (r: Result<CommonReply, Status>)
    ensures req.key == "" ==> r == Err(Cancelled(ParameterCannotBeNull("key")))
    ensures req.key != "" && !Metadata.IsLeader(md) ==> (r.Ok? <==> forwarded.Ok?)
    ensures req.key != "" && Metadata.IsLeader(md) ==> (r.Ok? <==> proposed.Ok?)
  {
    WriteReply(DecideDelete(md, c, req), forwarded, proposed)
  }

  /** `get`: reads the local store. A stored value is returned; an absent key
      answers the default reply, whose value is empty; a storage error
      becomes a cancelled status. */
  function Get(md: Metadata.RaftGroupMetadata, e: KvStorage.Engine, json: Codec<string, bytes>, req: GetRequest): (r: Result<GetReply, Status>)
    ensures req.key == "" ==> r == Err(Cancelled(ParameterCannotBeNull("key")))
    ensures req.key != "" ==> (r.Ok? <==> KvStorage.Get(e, req.key, json).Ok?)
    ensures req.key != "" && KvStorage.Get(e, req.key, json).Err? ==>
      r == Err(Cancelled(KvStorage.Get(e, req.key, json).error))
    ensures req.key != "" && req.key !in e ==> r == Ok(DEFAULT_GET_REPLY)
    ensures r.Ok? ==> r.value.value == KvStorage.Get(e, req.key, json).value.GetOr("")
  {
    if DecideRead(md, req.key).Reject? then Err(Cancelled(DecideRead(md, req.key).error))
    else match KvStorage.Get(e, req.key, json)
      case Ok(Some(data)) => Ok(DEFAULT_GET_REPLY.(value := data))
      case Ok(None) => Ok(DEFAULT_GET_REPLY)
      case Err(err) => Err(Cancelled(err))
  }

  /** `exists`: the store's answer, or a cancelled status. */
  function Exists(md: Metadata.RaftGroupMetadata, e: KvStorage.Engine, req: ExistsRequest): (r: Result<ExistsReply, Status>)
    ensures req.key == "" ==> r == Err(Cancelled(ParameterCannotBeNull("key")))
    ensures req.key != "" ==> (r.Ok? <==> KvStorage.Exists(e, req.key).Ok?)
    ensures r.Ok? ==> (r.value.flag <==> req.key in e)
  {
    if DecideRead(md, req.key).Reject? then Err(Cancelled(DecideRead(md, req.key).error))
    else match KvStorage.Exists(e, req.key)
      case Ok(flag) => Ok(ExistsReply(flag))
      case Err(err) => Err(Cancelled(err))
  }

  /** A follower that knows no leader forwards writes to the empty address. */
  lemma {:induction false} ForwardWithoutLeader(md: Metadata.RaftGroupMetadata, c: RequestCodecs, req: SetRequest)
    requires req.key != "" && req.value != ""
    requires !Metadata.IsLeader(md) && md.leader.None?
    ensures DecideSet(md, c, req) == Forward([""])
  {
  }

  /** Whatever a write handler's effect answers, an empty key is rejected with
      the same status, so nothing is forwarded or proposed for it. */
  lemma {:induction false} EmptyKeyRejected(md: Metadata.RaftGroupMetadata, c: RequestCodecs, value: string,
                                             f1: Result<CommonReply, MqError>, f2: Result<CommonReply, MqError>,
                                             p1: Result<(), MqError>, p2: Result<(), MqError>)
    ensures Set(md, c, SetRequest("", value), f1, p1) == Set(md, c, SetRequest("", value), f2, p2)
    ensures Delete(md, c, DeleteRequest(""), f1, p1) == Delete(md, c, DeleteRequest(""), f2, p2)
    ensures Set(md, c, SetRequest("", value), f1, p1).Err?
  {
  }

  /** An absent key and a key holding the empty string get the same reply. */
  lemma {:induction false} AbsentAndEmptyIndistinct(md: Metadata.RaftGroupMetadata, e: KvStorage.Engine, json: Codec<string, bytes>, key: string)
    requires RoundTrips(json) && key != ""
    ensures Get(md, e - {key}, json, GetRequest(key)) ==
            Get(md, KvStorage.Upsert(e, key, "", json, 0).0, json, GetRequest(key))
  {
    KvStorage.GetAfterUpsert(e, key, key, "", json, 0);
  }

  /** End to end, as written: a set accepted by the leader, proposed and then
      applied by the state machine leaves the key absent, so a later get
      answers the empty default and exists answers false. */
  lemma {:induction false} LeaderSetThenReadAsWritten(md: Metadata.RaftGroupMetadata, c: DataRoute.Codecs, e: KvStorage.Engine,
                                                      req: SetRequest)
    requires RoundTrips(c.storageData) && RoundTrips(c.requests.setRequest)
    requires Metadata.IsLeader(md) && req.key != "" && req.value != ""
    ensures DecideSet(md, c.requests, req).Propose?
    ensures var applied := DataRoute.Route(c, e, c.storageData.encode(DecideSet(md, c.requests, req).data)).0;
            Get(md, applied, c.valueJson, GetRequest(req.key)) == Ok(DEFAULT_GET_REPLY) &&
            Exists(md, applied, ExistsRequest(req.key)) == Ok(ExistsReply(false))
  {
    assert DecideSet(md, c.requests, req).data == DataRoute.SetEnvelope(c, req);
    DataRoute.RouteOfProposedSet(c, e, req);
    KvStorage.GetAfterSet(e, req.key, req.value, c.valueJson);
  }

  /** End to end with the corrected router: the same accepted set makes a
      later get answer the value written, and exists answer true. */
  lemma {:induction false} LeaderSetThenRead(md: Metadata.RaftGroupMetadata, c: DataRoute.Codecs, e: KvStorage.Engine,
                                             req: SetRequest, createTime: nat)
    requires RoundTrips(c.storageData) && RoundTrips(c.requests.setRequest) && RoundTrips(c.valueJson)
    requires Metadata.IsLeader(md) && req.key != "" && req.value != ""
    ensures DecideSet(md, c.requests, req).Propose?
    ensures var applied := DataRoute.RouteCorrected(c, e, c.storageData.encode(DecideSet(md, c.requests, req).data), createTime).0;
            Get(md, applied, c.valueJson, GetRequest(req.key)) == Ok(GetReply(req.value)) &&
            Exists(md, applied, ExistsRequest(req.key)) == Ok(ExistsReply(true))
  {
    assert DecideSet(md, c.requests, req).data == DataRoute.SetEnvelope(c, req);
    DataRoute.RouteCorrectedOfProposedSet(c, e, req, createTime);
    KvStorage.GetAfterUpsert(e, req.key, req.key, req.value, c.valueJson, createTime);
  }
}

=== FILE: strings.dfy ===
/** String helpers with the semantics of the Rust standard library functions the
    modelled code calls: `u64` formatting and parsing, `trim`, `split_once` and
    removing every occurrence of a character (`replace(c, "")`). */
module Strings {
  import opened Wrappers
  import opened Ints

  predicate IsDigit(c: char) {
    '0' <= c <= '9'
  }

  predicate AllDigits(s: string) {
    forall i :: 0 <= i < |s| ==> IsDigit(s[i])
  }

  function DigitChar(d: nat): (c: char)
    requires d < 10
    ensures IsDigit(c)
  {
    (48 + d) as char
  }

  function DigitValue(c: char): (d: nat)
    requires IsDigit(c)
    ensures d < 10
  {
    c as int - 48
  }

  /** Decimal rendering of an unsigned integer (`format!("{}", n)`): one or
      more digits and no leading zero unless the number is zero. */
  function NatToString(n: nat): (s: string)
    ensures |s| > 0 && AllDigits(s)
    ensures s[0] == '0' ==> n == 0
    decreases n
  {
    if n < 10 then [DigitChar(n)] else NatToString(n / 10) + [DigitChar(n % 10)]
  }

  /** The number a string of decimal digits denotes (leading zeros allowed). */
  function DigitsValue(s: string): nat
    requires AllDigits(s)
  {
    if |s| == 0 then 0 else DigitsValue(s[..|s| - 1]) * 10 + DigitValue(s[|s| - 1])
  }

  lemma {:induction false} DigitsValueOfNatToString(n: nat)
    ensures DigitsValue(NatToString(n)) == n
  {
    if n >= 10 {
      var s := NatToString(n);
      assert s[..|s| - 1] == NatToString(n / 10);
      DigitsValueOfNatToString(n / 10);
    }
  }

  /** Different numbers have different decimal renderings. */
  lemma {:induction false} NatToStringInjective(a: nat, b: nat)
    ensures NatToString(a) == NatToString(b) ==> a == b
  {
    DigitsValueOfNatToString(a);
    DigitsValueOfNatToString(b);
  }

  /** `u64::from_str`: an optional leading '+', then at least one ASCII digit,
      and the value must fit in 64 bits; anything else is an error (None). */
  function ParseU64(s: string): (r: Option<u64>)
    ensures r.Some? ==> |s| > 0 && (IsDigit(s[0]) || s[0] == '+')
  {
    var digits := if |s| > 0 && s[0] == '+' then s[1..] else s;
    if |digits| == 0 || !AllDigits(digits) then None
    else if DigitsValue(digits) <= U64_MAX then Some(DigitsValue(digits))
    else None
  }

  /** The characters with the Unicode White_Space property, which `str::trim`
      removes. */
  predicate IsWhitespace(c: char) {
    || ('\t' <= c <= '\r') || c == ' ' || c == '\U{0085}' || c == '\U{00A0}'
    || c == '\U{1680}' || ('\U{2000}' <= c <= '\U{200A}') || c == '\U{2028}'
    || c == '\U{2029}' || c == '\U{202F}' || c == '\U{205F}' || c == '\U{3000}'
  }

  function TrimStart(s: string): (r: string)
    ensures |r| <= |s| && r == s[|s| - |r|..]
    ensures |r| > 0 ==> !IsWhitespace(r[0])
    ensures forall i :: 0 <= i < |s| - |r| ==> IsWhitespace(s[i])
  {
    if |s| > 0 && IsWhitespace(s[0]) then TrimStart(s[1..]) else s
  }

  function TrimEnd(s: string): (r: string)
    ensures r <= s
    ensures |r| > 0 ==> !IsWhitespace(r[|r| - 1])
    ensures forall i :: |r| <= i < |s| ==> IsWhitespace(s[i])
  {
    if |s| > 0 && IsWhitespace(s[|s| - 1]) then TrimEnd(s[..|s| - 1]) else s
  }

  /** `str::trim`: drops leading and trailing white space. */
  function Trim(s: string): string {
    TrimEnd(TrimStart(s))
  }

  /** Position of the first occurrence of `c` in `s`. */
  function IndexOf(s: string, c: char): (r: Option<nat>)
    ensures r.None? <==> c !in s
    ensures r.Some? ==> r.value < |s| && s[r.value] == c && c !in s[..r.value]
  {
    if |s| == 0 then None
    else if s[0] == c then Some(0)
    else match IndexOf(s[1..], c)
      case None => None
      case Some(i) => assert s[1..][..i] == s[1..i + 1]; Some(i + 1)
  }

  /** `str::split_once(c)`: the text before and after the first `c`. */
  function SplitOnce(s: string, c: char): (r: Option<(string, string)>)
    ensures r.None? <==> c !in s
    ensures r.Some? ==> r.value.0 + [c] + r.value.1 == s && c !in r.value.0
  {
    match IndexOf(s, c)
    case None => None
    case Some(i) => assert s[..i] + [c] + s[i + 1..] == s; Some((s[..i], s[i + 1..]))
  }

  /** `s.replace(c, "")`: every occurrence of `c` removed, the rest in order. */
  function RemoveAll(s: string, c: char): (r: string)
    ensures c !in r
    ensures |r| <= |s|
    ensures c !in s ==> r == s
  {
    if |s| == 0 then s
    else if s[0] == c then RemoveAll(s[1..], c)
    else [s[0]] + RemoveAll(s[1..], c)
  }
}

=== FILE: wrappers.dfy ===
/** Option and Result, the two failure-carrying shapes the modelled Rust code uses
    (`Option<T>` and `Result<T, E>`). */
module Wrappers {

  datatype Option<+T> = None | Some(value: T) {

    /** Returns the value in Some, or `default` for None. */
    function GetOr(default: T): T {
      match this
      case Some(v) => v
      case None => default
    }
  }

  datatype Result<+T, +E> = Ok(value: T) | Err(error: E)
}
